=== FILE: README.md ===
# School enrolment store: ETL, fixed-record file and search by municipality

The system turns a wide CSV of enrolment counts into a searchable store.
The ETL pass (`src/etl.py`) finds the year columns of the header and the
sex each one names. It finds the name, IBGE-code and coordinate columns by
keyword, and rewrites each data row as one long-format row per year cell
that holds a number. Numbers are parsed by `parse_number_robust`
(`src/utils.py`).

The build pass (`src/writer.py`) turns every long-format row into a
fixed-size binary record. Each record is `struct.pack("I H c d 64s d")`
followed by an 8-byte longitude: the native struct of 88 bytes and then 8
more, 96 bytes in all. The name field is the UTF-8 of the name cut at 64
bytes by `pad_mun_bytes` and padded with spaces. The build pass also
builds an index from `normalize_text` of each municipality name to the
offsets of its records. The search (`src/indexer.py`) applies
`normalize_text` to the query name and reads the records the index lists. It filters them by year
range and sex, sorts them stably by year and returns one page of them
together with the total.

The Dafny model has these modules:

- `Wrappers`: `Option` and `Result`.
- `Seqs`: filter, flat-map and subsequence.
- `Bytes`: bytes and little-endian integers.
- `Utf8`: strict UTF-8 encoding and decoding.
- `Text`: `normalize_text` and Python's `strip`/`\s` whitespace.
- `Numbers`: `parse_number_robust`.
- `Etl`: header analysis, `find_col`, and the per-row expansion.
- `Codec`: `pad_mun_bytes`, the record layout and `read_record_at`.
- `Writer`: `write_from_clean_csv` as a pure function from rows to a file image and an index. The name field is a parameter: `AsWritten` is `pad_mun_bytes`, and `AtBoundary` is the corrected cut of the first finding below.
- `Query`: `search_by_municipio` over a record reader, keyed by `normalize_text`.
- `Pipeline`: searching what the build pass wrote.

Files are byte sequences. The index is a `map<string, seq<nat>>`. Errors
Python would raise are `Result` errors: `KeyError`, `ValueError`,
`struct.error` and `UnicodeDecodeError`.

## Model

| member | source | states |
|---|---|---|
| Query.SearchFails | src/indexer.py:19-20 | a search fails exactly when some listed offset cannot be read, whatever the filters and page |
| Query.SearchSound | src/indexer.py:19-27 | every record on a page was read at a listed offset, is within the year bounds, and has the requested sex when a non-empty one is given |
| Query.SearchUnknownName | src/indexer.py:16-17 | a name whose `normalize_text` key is not in the index gives an empty page and a total of 0 |
| Query.SearchTotal | src/indexer.py:30 | the total counts every record passing the filters and does not depend on the page or page size |
| Query.SearchPage | src/indexer.py:31-33 | page p (from 1) is the slice [(p-1)*size, p*size) of the sorted matches, clamped to their length; it holds at most `size` records and is empty past the end |
| Query.SearchMonotone | src/indexer.py:21-26 | widening the year bounds or dropping the sex filter never lowers the total |
| Query.SearchBlankSex | src/indexer.py:25 | a sex filter of "" behaves exactly as no sex filter |
| Query.SearchSexFilter | src/indexer.py:25 | a non-empty sex filter keeps exactly the records of that sex among those within the year bounds |
| Query.SearchKeepsOrder | src/indexer.py:19-27 | the filtered records appear in the order their offsets are listed |
| Query.MatchingSpec | src/indexer.py:29 | the sorted matches are sorted by year, a permutation of the filtered records, and keep the relative order of records of the same year |
| Query.SortSpec | src/indexer.py:29 | sorting by year yields a year-ordered permutation of its input |
| Query.SortStable | src/indexer.py:29 | sorting keeps, for every year, the records of that year in their original order |
| Query.InsertSorted | src/indexer.py:29 | inserting into a year-ordered list keeps it ordered |
| Query.InsertPermutes | src/indexer.py:29 | inserting adds exactly the one record |
| Query.InsertStable | src/indexer.py:29 | insertion places a record after those of the same year already present |
| Query.ReadAllSpec | src/indexer.py:18-20 | reading all offsets succeeds iff every single read does, and then yields the records read, in offset order |
| Query.ReadAllFirstError | src/indexer.py:19-20 | a failed read-all reports the error of the first offset that cannot be read |
| Query.PageSpec | src/indexer.py:31-33 | Python slicing `[start:start+size]` for page >= 1 is the clamped slice, at most `size` long, empty once `start` passes the end |
| Query.PageZero | src/indexer.py:31-33 | page 0 gives a start of -size and an end of 0, so it is always empty |
| Query.NegativePage | src/indexer.py:31-33 | a negative page counts from the end as Python slicing does: page -1 of [10, 20, 30] with size 1 is [20] |
| Query.PagesPrefix | src/indexer.py:31-33 | the first m pages, one after another, are the first m*size matches |
| Query.PagesCover | src/indexer.py:31-33 | enough pages together return every match exactly once, in order |
| Writer.ParseRow | src/writer.py:40-52 | a bad `ibge` is a ValueError first; then a missing `year` is a KeyError and a bad `year` or `quantidade` a ValueError; a blank or missing `ibge` becomes 0 and a missing `quantidade` 0.0; a missing, blank or unparseable coordinate becomes 0.0; the name is taken as is and the sex is the field of the `sexo` cell |
| Writer.SexFieldSpec | src/writer.py:42-58 | a blank cell is stored as a space, which reads back as ""; a non-blank cell's field reads back unchanged; the field is one UTF-8 byte, as `c` needs, iff the cell is blank or its first non-blank character upper-cases to an ASCII letter: an ASCII character, "ſ" or "ı" |
| Writer.UpperOfNonSpace | src/writer.py:42 | upper-casing a non-blank character gives non-blank text, one UTF-8 byte long iff the character is ASCII, "ſ" or "ı" |
| Writer.NonAsciiSexFails | src/writer.py:42-61 | a row that parses but whose sex starts with a non-ASCII character other than "ſ" and "ı", such as "é" or "ß", fails with `struct.error` |
| Writer.SexFieldDotless | src/writer.py:42 | "ſ" and "ı" are stored as the ASCII capitals "S" and "I" |
| Writer.SexOfTrimmed | src/writer.py:42 | a trimmed cell starting with an ASCII lower-case letter gives that letter in upper case |
| Writer.WriteRowSpec | src/writer.py:40-61 | with either name field, a row is written iff it parses and its fields are in the ranges `struct.pack` accepts; otherwise the error is the parse or struct error |
| Writer.BuildOk | src/writer.py:39-65 | the build pass succeeds iff every row can be written |
| Writer.BuildFirstError | src/writer.py:39-65 | a failed build reports the error of the first row that cannot be written, after all earlier rows were written |
| Writer.BuildLayout | src/writer.py:54-65 | record k starts at byte 96*k (the file position before it was written) and holds the bytes of row k |
| Writer.BuildLength | src/writer.py:54-65 | the file is exactly 96 bytes per row |
| Writer.BuildIndex | src/writer.py:54-69 | the index lists, under each key, exactly the offsets of the rows with that key, in increasing order, with no empty entry |
| Writer.InsertComplete | src/writer.py:68-69 | after appending a row's offset, every row so far is listed under its key |
| Writer.InsertSound | src/writer.py:68-69 | after appending, every listed offset is that of a row with the key it is listed under |
| Writer.InsertIncreasing | src/writer.py:68-69 | appending the new offset keeps every entry non-empty and increasing |
| Writer.IndexDisjoint | src/writer.py:68-69 | no offset is listed under two different keys |
| Writer.BuildReadBack | src/writer.py:54-99 | after a successful build, reading at 96*k gives what row k's values read back as |
| Writer.ReadBackRowAt | src/writer.py:54-65 | the 96 bytes written for a row read back, wherever in the file they lie, as that row's values read back |
| Writer.ReadBackValues | src/writer.py:55-99 | the bytes written for a row's values read back as those values with the sex and the decoded name stripped, or `UnicodeDecodeError` where the name field does not decode |
| Writer.ReadBackAsWritten | src/writer.py:24-26 | with `pad_mun_bytes` a row reads back iff its name fits in 64 bytes or the cut falls on a character boundary, and then as with the corrected field; otherwise `UnicodeDecodeError` |
| Writer.ReadBackAtBoundary | src/writer.py:24-26 | with the corrected field every row reads back, its name being the stripped longest prefix that fits in 64 bytes |
| Writer.ReadBackFits | src/writer.py:24-26 | a name whose UTF-8 fits in 64 bytes reads back, with either field, as the stripped name |
| Codec.PadMunBytes | src/writer.py:24-26 | the name field is always exactly n bytes |
| Codec.PadMunBytesFits | src/writer.py:24-26 | a name whose UTF-8 fits in n bytes is stored whole, padded with spaces, and reads back as the stripped name |
| Codec.PadMunBytesCut | src/writer.py:24-26 | a longer name decodes after cutting iff the cut falls on a character boundary |
| Codec.CutChar | src/writer.py:25 | the byte cut of a long name falls after its longest fitting prefix and inside the next character's encoding |
| Codec.PadMunBytesSplitsChar | src/writer.py:24-26 | 63 letters followed by "ã" give a field that is not valid UTF-8 |
| Codec.PadMunSafeDecodes | src/writer.py:24-26 | the boundary-respecting field always decodes, to the longest fitting prefix followed by spaces |
| Codec.PadMunSafeAgrees | src/writer.py:24-26 | the corrected field equals the original wherever the original decodes |
| Codec.StoredNameFits | src/writer.py:24-26 | a fitting name reads back as the stripped name |
| Codec.PackRecord | src/writer.py:21-22 | `struct.pack` succeeds iff the integers fit `I` and `H` and the sex is one byte, and then gives 88 bytes; otherwise `struct.error` |
| Codec.UnpackPack | src/writer.py:84 | unpacking a packed record gives back every field, with the name cut or NUL-padded to 64 bytes |
| Codec.ReadRecordAt | src/writer.py:75-99 | fewer than 88 bytes at the offset is `struct.error`; otherwise the read succeeds or fails on decoding; the longitude is 0.0 when fewer than 8 bytes follow |
| Codec.ReadPacked | src/writer.py:84-99 | reading a packed record followed by a longitude gives the packed fields, with sex and name decoded and stripped, or a decode error |
| Codec.ReadRecordAtShift | src/writer.py:80-82 | a read depends only on the bytes from the offset on |
| Bytes.LittleEndianRoundTrip | src/writer.py:55-61 | reading back a little-endian unsigned integer gives the integer written |
| Utf8.RoundTrip | src/writer.py:96 | decoding the UTF-8 encoding of any string gives the string back |
| Utf8.EncodeDecode | src/writer.py:94-96 | whatever strictly decodes re-encodes to the same bytes |
| Utf8.DecodeEncodeChar | src/writer.py:96 | the decoder reads back exactly the character written, whatever bytes follow |
| Utf8.TruncatedCharFails | src/writer.py:96 | a character cut short does not decode |
| Utf8.FitCountSpec | src/writer.py:25 | the fitting prefix is the longest one whose encoding fits in n bytes |
| Utf8.FitCountAll | src/writer.py:25 | the whole string fits iff its encoding is at most n bytes |
| Text.NormalizeTextShape | src/utils.py:5-13 | None gives ""; the result has single spaces only and no combining marks |
| Text.NormalizeTextSettled | src/utils.py:9-12 | every character of the result is lower-case and has no further decomposition |
| Text.NormalizeTextAscii | src/utils.py:5-13 | on ASCII text, normalisation is collapse(lower(strip)) and is idempotent |
| Text.CedillaKeepsSpace | src/utils.py:9-12 | "a¸" normalises to "a ": the spacing cedilla decomposes after the strip into a space and a combining cedilla |
| Text.NormalizeTextNotIdempotent | src/utils.py:9-12 | normalising "a " followed by a combining acute gives "a ", which normalises again to "a" |
| Text.NormalizeKeyIdempotent | src/utils.py:5-13 | the corrected key, stripped after marks are dropped, is a fixed point of itself |
| Text.NormalizeKeyCanonical | src/utils.py:5-13 | the corrected key is trimmed, single-spaced, lower-case and settled |
| Text.CanonicalIsFixed | src/utils.py:5-13 | `normalize_text` leaves a canonical string unchanged |
| Text.NormalizeTextOfStripped | src/utils.py:9 | stripping a name first does not change its `normalize_text` |
| Text.StripSpec | src/utils.py:9 | `strip` removes exactly the leading and trailing whitespace and leaves a trimmed middle |
| Text.StripUnique | src/utils.py:9 | a trimmed string surrounded by whitespace strips to itself |
| Text.StripIdempotent | src/utils.py:9 | stripping twice is stripping once |
| Text.StripKeepsNonSpace | src/utils.py:9 | stripping removes no non-whitespace character |
| Text.CollapseShape | src/utils.py:12 | collapsing leaves no two adjacent whitespace characters, keeps emptiness, and keeps whether each end is whitespace |
| Text.CollapseKeepsNonSpace | src/utils.py:12 | collapsing removes no non-whitespace character |
| Text.CollapseSingleSpaced | src/utils.py:12 | collapsing leaves a single-spaced string unchanged |
| Text.DropCombiningSettles | src/utils.py:11 | after combining marks are dropped, every character is settled |
| Numbers.ParseNumberRobust | src/utils.py:15-52 | None and blank tokens give None; any other token is converted from its cleaned reference form |
| Numbers.CleanTokenSpec | src/utils.py:25-45 | cleaning rejects exactly the blank tokens, and otherwise equals the one-pass reference cleaning |
| Numbers.SeparatorsUniform | src/utils.py:34-41 | the three separator branches all act as "drop dots, then commas become dots" |
| Numbers.PipelineIsReference | src/utils.py:30-45 | the chain of replacements and the regex equals the per-character reference cleaning |
| Numbers.ReferenceNumeric | src/utils.py:45 | the cleaned token holds only digits, dots and minus signs |
| Numbers.ReferenceDots | src/utils.py:34-41 | the cleaned token has one dot per comma of the input |
| Numbers.ReferenceKeepsDigits | src/utils.py:45 | the cleaned token keeps every digit and minus sign of the input, in order |
| Numbers.CommaExamples | src/utils.py:34-37 | "1.234,5" cleans to "1234.5" and "1,5" to "1.5" |
| Numbers.DotOnlyExample | src/utils.py:38-39 | "1.5" cleans to "15": a lone dot is taken as a thousands separator |
| Numbers.BlankToken | src/utils.py:27-29 | a whitespace-only token is rejected |
| Etl.FindYearSpec | src/etl.py:15-17 | the search finds the first "20dd" at or after the start, or reports there is none |
| Etl.YearOfSpec | src/etl.py:15-19 | a header names a year iff it holds "20dd", and then the year is that of the first occurrence, in 2000..2099 |
| Etl.YearOfExamples | src/etl.py:15-19 | "Matrículas 2024" names 2024, "2019-2020" names 2019, "Total" names none |
| Etl.SexOfSpec | src/etl.py:21-25 | "fem" anywhere (case-insensitive) gives F; otherwise "male" or "masc" gives M; otherwise none |
| Etl.SexOfFemale | src/etl.py:21-25 | "Female" is F even though it contains "male" |
| Etl.DetectYearsSpec | src/etl.py:8-27 | each detected column names its year and its header's sex, columns increase, and every year-naming column is detected |
| Etl.FindColSpec | src/etl.py:45-50 | `find_col` returns the first column whose lower-cased header contains a lower-cased keyword, or None iff there is none |
| Etl.MunicipioDefault | src/etl.py:52 | with no name column found, the name column is 0 |
| Etl.JoinSplitSpec | src/etl.py:65 | `" ".join(raw.split())` is the stripped collapse of the cell: trimmed, single-spaced, with the same non-space characters |
| Etl.ValueAtSpec | src/etl.py:71-76 | a year cell beyond the row or blank gives no value; otherwise the value is the conversion of its cleaned reference form |
| Etl.EmitSpec | src/etl.py:70-78 | one output row per year column whose cell parses, in column order, each carrying that cell's value |
| Etl.ExpandRowGuard | src/etl.py:62-63 | a row is expanded over the detected year columns (an empty row yields nothing) |
| Etl.EmptyRowYieldsNothing | src/etl.py:62-63 | an empty row yields no output |
| Etl.ExpandRowFull | src/etl.py:70-78 | a row whose every year cell parses yields one output per year column |
| Etl.ExpandRowFields | src/etl.py:64-78 | every output row has a year in 2000..2099, a sex of F, M or "", and the cleaned name |
| Etl.TransformAppend | src/etl.py:60-78 | the transform works row by row: two batches give their outputs one after the other |
| Etl.TransformMembers | src/etl.py:60-78 | an output row is exactly one emitted for some input row |
| Pipeline.BuiltStore | src/writer.py:54-69 | a successful build, with either name field, leaves an index of its rows and a file that reads back row by row |
| Pipeline.BuiltRead | src/writer.py:94-96 | reading a built record fails iff its name field does not decode, and then with `UnicodeDecodeError` |
| Pipeline.SearchIndexedFails | src/indexer.py:16-20 | a search over an index of the rows fails iff the record of some row with the key cannot be read, and then with the error of such a read |
| Pipeline.SearchIndexedSound | src/indexer.py:16-27 | a successful search over an index of the rows returns only records read at a row with the key |
| Pipeline.SearchBuilt | src/indexer.py:11-33 | searching a built store fails iff a row whose name has the query's `normalize_text` key has a name field that does not decode, and then with `UnicodeDecodeError`; otherwise every record returned is the one written for a row with that key |
| Pipeline.SearchBuiltShortNames | src/indexer.py:16-20 | with `pad_mun_bytes`, a store whose names all fit in 64 bytes never fails a search |
| Pipeline.SearchSplitName | src/writer.py:24-26 | with `pad_mun_bytes`, a row named 63 "a"s and an "ã" makes every search for that name raise `UnicodeDecodeError` |
| Pipeline.SearchBuiltAtBoundary | src/indexer.py:16-20 | with the corrected name field no search of a built store fails |
| Pipeline.StoredNameKey | src/writer.py:68 | a name that fits in 64 bytes reads back, and `normalize_text` of the name read back is its row's index key, so searching for the name shown finds the row again |

## Left out

- File handling is not modelled: opening, seeking, `os.makedirs`, `pickle.dump` of the index and `load_index` (src/indexer.py:7-9). A file is a byte sequence and the index a map.
- If the build pass fails partway, the file it has written so far is not modelled. The model returns only the error.
- `float()` and `int()` are parameters: `Writer.Parsers` and `toFloat`. So are the integer-or-float rounding at src/utils.py:46-52, the value of a double, and `struct.pack("d")`. A double is its 8 stored bytes.
- The native `struct` layout is fixed to the usual x86-64 one. It is `I` at 0, `H` at 4, `c` at 6, one padding byte, `d` at 8, `64s` at 16 and `d` at 80, so RECORD_SIZE is 88. Another ABI could pad differently.
- Unicode tables are partial:
  - lower-casing covers ASCII and Latin-1 only;
  - NFKD is complete for Latin-1 and leaves every other character as it is;
  - `combining` covers U+0300..U+036F.
  - Python's whitespace set for `strip`/`\s` is complete.
- Text.NormalizeTextSettled, Text.NormalizeKeyCanonical, Text.CanonicalIsFixed, Text.NormalizeKeyIdempotent: these hold for the characters the tables cover, not for all of Unicode. Outside Latin-1 the model takes a character as its own lower case and its own decomposition. Python does not: "ℂ" (U+2102) has no lower case and decomposes to "C", so `normalize_text("ℂ")` is "C", which is not lower-case and which a second pass turns into "c".
- Upper-casing (`Text.Upper`, used for the sex field) covers ASCII, Latin-1, "ſ" and "ı". Other characters are left unchanged, where Python gives another non-ASCII capital or several characters. The stored sex then differs from Python's, but in both it is more than one UTF-8 byte, so the row fails with `struct.error` either way.
- `re.I` is modelled as ASCII case folding. Python also folds a few non-ASCII letters.
- `\d` in the year pattern is ASCII digits only. Python's `\d` also accepts other Unicode digits.
- The ETL's cp1252 decoding is not modelled, and neither is CSV quoting or splitting. Rows arrive as lists of cells.
- Skipping the first line of the raw file (src/etl.py:38) is not modelled. `Etl.Transform` takes the header and the rows after it.
- The output CSV round trip between the ETL and the build pass is not modelled. `csv.writer` output and `csv.DictReader` input, including its `None` for short rows, are left out. `Writer.Row` is a map from column name to cell.
- The command-line and web front ends are not part of this model: `app.py`, `search_cli.py` and `process_data.py`. The empty-name check lives in `app.py`; `search_by_municipio` itself accepts an empty name.
- The defaults `page=1` and `page_size=20` of `search_by_municipio` (src/indexer.py:12) are not modelled: callers of `Query.Search` pass both explicitly.
- Query.SearchPage: stated for page >= 1 and page size >= 1. Other values are covered by Query.PageZero and Query.NegativePage and by the slicing definition itself.
- Query.SearchFails and Query.ReadAllFirstError: the search stops at the first unreadable offset, as the loop does. The records already filtered before it are discarded along with it.

## Findings

| source | as written | input that shows it | evidently intended | confidence | as-written member | corrected member |
|---|---|---|---|---|---|---|
| src/writer.py:24-26 | `pad_mun_bytes` cuts the UTF-8 bytes at 64, which can split a character, so `read_record_at` (src/writer.py:96) then raises `UnicodeDecodeError` for that record | a name of 63 ASCII letters followed by "ã" | cut at the last character boundary that fits, so that every stored name decodes | not executed | Codec.PadMunBytesSplitsChar | Codec.PadMunSafeDecodes |
| src/utils.py:9-12 | `normalize_text` strips before it drops combining marks, so a space followed by a mark survives as a trailing space, and normalising the result again changes it | "a " followed by U+0301 normalises to "a ", which normalises to "a" | a normalised key is a fixed point: strip after the marks are dropped (in Python a fixed point also needs lower-casing after NFKD, for characters such as "ℂ" whose decomposition is a capital) | not executed | Text.NormalizeTextNotIdempotent | Text.NormalizeKeyIdempotent |

The build pass and the search are modelled as written: both key by
`normalize_text`, and `Writer.Build` with `AsWritten` fills the name field
with `pad_mun_bytes`. The corrected field is the separate `AtBoundary`
choice, under which no search fails (`Pipeline.SearchBuiltAtBoundary`).
The corrected key `Text.NormalizeKey` is stated on its own; neither the
build pass nor the search uses it.

=== FILE: bytes.dfy ===
/** Bytes and the fixed-width little-endian unsigned integers used by the record layout. */
module Bytes {

  /** One byte, as its unsigned value. */
  type byte = b: int | 0 <= b < 256

  /** 256 to the power `n`: one more than the largest `n`-byte unsigned value. */
  function Pow256(n: nat): (r: nat)
    ensures r >= 1
  {
    if n == 0 then 1 else 256 * Pow256(n - 1)
  }

  /** The unsigned value of `bs`, least significant byte first. */
  function FromLittleEndian(bs: seq<byte>): (r: nat)
    ensures r < Pow256(|bs|)
  {
    if |bs| == 0 then 0 else bs[0] + 256 * FromLittleEndian(bs[1..])
  }

  /** The `n`-byte little-endian encoding of `x` (what `struct.pack` writes for `I` and `H` on a little-endian host). */
  function ToLittleEndian(x: nat, n: nat): (r: seq<byte>)
    requires x < Pow256(n)
    ensures |r| == n
  {
    if n == 0 then [] else [x % 256] + ToLittleEndian(x / 256, n - 1)
  }

  /** Decoding an encoded integer gives the integer back. */
  lemma {:induction false} LittleEndianRoundTrip(x: nat, n: nat)
    requires x < Pow256(n)
    ensures FromLittleEndian(ToLittleEndian(x, n)) == x
  {
    if n > 0 {
      LittleEndianRoundTrip(x / 256, n - 1);
      assert ToLittleEndian(x, n)[1..] == ToLittleEndian(x / 256, n - 1);
    }
  }

  /** `n` copies of the byte `b`. */
  function Fill(b: byte, n: nat): (r: seq<byte>)
    ensures |r| == n
    ensures forall i :: 0 <= i < n ==> r[i] == b
  {
    seq(n, _ => b)
  }
}

=== FILE: codec.dfy ===
/**
 * The fixed-width record of src/writer.py: the name field (`pad_mun_bytes`),
 * the native `struct` layout of `"I H c d 64s d"` followed by the longitude,
 * and the decoding done by `read_record_at`.
 *
 * The layout is the one `struct` uses with native alignment on a 64-bit
 * little-endian host: `I` at 0, `H` at 4, `c` at 6, one NUL pad byte, `d`
 * at 8, `64s` at 16 and `d` at 80, so `RECORD_SIZE` is 88 and each record
 * occupies 96 bytes once the longitude is appended.
 */
module Codec {
  import opened Wrappers
  import opened Bytes
  import Utf8
  import Text

  /** `MUN_LEN`: width of the name field. */
  const MunLen: nat := 64

  /** `RECORD_SIZE = struct.calcsize(RECORD_STRUCT)`. */
  const RecordSize: nat := 88

  /** Bytes taken by one record: the struct followed by the 8-byte longitude. */
  const Stride: nat := RecordSize + 8

  /** The offset of record number `k` in the data file. */
  function Offset(k: nat): nat {
    Stride * k
  }

  /** An IEEE-754 double, as the 8 bytes `struct` stores; its value is not interpreted. */
  type Double = d: seq<byte> | |d| == 8 witness [0, 0, 0, 0, 0, 0, 0, 0]

  /** The bytes of `0.0`. */
  const ZeroDouble: Double := [0, 0, 0, 0, 0, 0, 0, 0]

  /** The exceptions the modelled code can raise. */
  datatype Error =
    | KeyError     // a required CSV column is missing
    | ValueError   // `int()` or `float()` rejected a cell
    | StructError  // `struct.pack` / `struct.unpack` rejected a value or a short buffer
    | DecodeError  // `bytes.decode('utf-8')` met invalid UTF-8

  /** The arguments handed to `struct.pack(RECORD_STRUCT, ...)`. */
  datatype Fields = Fields(ibge: int, year: int, sex: seq<byte>, quantidade: Double, municipio: seq<byte>, latitude: Double)

  /** The tuple `struct.unpack(RECORD_STRUCT, data)` returns. */
  datatype Unpacked = Unpacked(ibge: nat, year: nat, sex: seq<byte>, quantidade: Double, municipio: seq<byte>, latitude: Double)

  /** The dictionary `read_record_at` returns. */
  datatype Record = Record(
    ibge: nat, year: nat, sexo: string, quantidade: Double,
    municipio: string, latitude: Double, longitude: Double)

  // ---------------------------------------------------------------------------
  // The name field
  // ---------------------------------------------------------------------------

  /** `pad_mun_bytes(s, n)` as written: cut the UTF-8 bytes at `n`, then pad with spaces. */
  function PadMunBytes(s: string, n: nat): (r: seq<byte>)
    ensures |r| == n
  {
    var e := Utf8.Encode(s);
    var b := if |e| <= n then e else e[..n];
    b + Fill(0x20, n - |b|)
  }

  /**
   * The name field with the cut moved back to the last character boundary
   * that fits, so that the field always decodes.
   */
  function PadMunSafe(s: string, n: nat): (r: seq<byte>)
    ensures |r| == n
  {
    Utf8.FitCountSpec(s, n);
    var b := Utf8.Encode(s[..Utf8.FitCount(s, n)]);
    b + Fill(0x20, n - |b|)
  }

  /** The name `read_record_at` returns for a field written by `PadMunSafe`. */
  function StoredName(s: string, n: nat): string {
    Text.Strip(s[..Utf8.FitCount(s, n)])
  }

  /** `n` space bytes decode to `n` spaces after any well-formed prefix. */
  lemma DecodePadded(p: string, k: nat)
    ensures Utf8.Decode(Utf8.Encode(p) + Fill(0x20, k)) == Some(p + Utf8.Spaces(k))
  {
    Utf8.EncodeSpaces(k);
    Utf8.EncodeAppend(p, Utf8.Spaces(k));
    Utf8.RoundTrip(p + Utf8.Spaces(k));
  }

  /** Stripping the decoded field gives back the stripped name. */
  lemma StripPadded(p: string, k: nat)
    ensures Text.Strip(p + Utf8.Spaces(k)) == Text.Strip(p)
  {
    Text.StripAppendSpaces(p, Utf8.Spaces(k));
  }

  /**
   * A name whose encoding fits is stored whole: the field decodes to the
   * name followed by spaces, and reads back as the stripped name.
   */
  lemma PadMunBytesFits(s: string, n: nat)
    requires |Utf8.Encode(s)| <= n
    ensures Utf8.Decode(PadMunBytes(s, n)) == Some(s + Utf8.Spaces(n - |Utf8.Encode(s)|))
    ensures Text.Strip(Utf8.Decode(PadMunBytes(s, n)).value) == Text.Strip(s)
  {
    DecodePadded(s, n - |Utf8.Encode(s)|);
    StripPadded(s, n - |Utf8.Encode(s)|);
  }

  /**
   * A name that does not fit is cut at byte `n`: the field decodes exactly
   * when that cut falls on a character boundary.
   */
  lemma PadMunBytesCut(s: string, n: nat)
    requires |Utf8.Encode(s)| > n
    ensures Utf8.Decode(PadMunBytes(s, n)).Some? <==> |Utf8.Encode(s[..Utf8.FitCount(s, n)])| == n
  {
    var k := Utf8.FitCount(s, n);
    var p := s[..k];
    var e := CutChar(s, n);
    var m := |Utf8.Encode(p)|;
    if m == n {
      assert PadMunBytes(s, n) == Utf8.Encode(p);
      Utf8.RoundTrip(p);
    } else {
      var t := e[..n - m];
      assert PadMunBytes(s, n) == Utf8.Encode(p) + t;
      Utf8.TruncatedCharFails(s[k], t);
      Utf8.DecodeAfterEncoded(p, t);
    }
  }

  /**
   * Where the cut at byte `n` falls in a name that does not fit: after the
   * longest fitting prefix and within the encoding of the next character.
   */
  lemma CutChar(s: string, n: nat) returns (e: seq<byte>)
    requires |Utf8.Encode(s)| > n
    ensures Utf8.FitCount(s, n) < |s|
    ensures e == Utf8.EncodeChar(s[Utf8.FitCount(s, n)])
    ensures |Utf8.Encode(s[..Utf8.FitCount(s, n)])| <= n < |Utf8.Encode(s[..Utf8.FitCount(s, n)])| + |e|
    ensures Utf8.Encode(s)[..n] == Utf8.Encode(s[..Utf8.FitCount(s, n)]) + e[..n - |Utf8.Encode(s[..Utf8.FitCount(s, n)])|]
  {
    var k := Utf8.FitCount(s, n);
    Utf8.FitCountSpec(s, n);
    Utf8.FitCountAll(s, n);
    var p := s[..k];
    e := Utf8.EncodeChar(s[k]);
    Utf8.EncodeAppend(p, s[k..]);
    Utf8.EncodeCons(s[k], s[k + 1..]);
    assert s[k..] == [s[k]] + s[k + 1..];
    assert s == p + s[k..];
    assert Utf8.Encode(s) == Utf8.Encode(p) + (e + Utf8.Encode(s[k + 1..]));
  }

  /** The corrected field always decodes, to the longest prefix that fits followed by spaces. */
  lemma PadMunSafeDecodes(s: string, n: nat)
    ensures Utf8.FitCount(s, n) <= |s|
    ensures Utf8.Decode(PadMunSafe(s, n)).Some?
    ensures Text.Strip(Utf8.Decode(PadMunSafe(s, n)).value) == StoredName(s, n)
  {
    Utf8.FitCountSpec(s, n);
    var p := s[..Utf8.FitCount(s, n)];
    DecodePadded(p, n - |Utf8.Encode(p)|);
    StripPadded(p, n - |Utf8.Encode(p)|);
  }

  /** A name that fits is read back as the stripped name. */
  lemma StoredNameFits(s: string, n: nat)
    requires |Utf8.Encode(s)| <= n
    ensures StoredName(s, n) == Text.Strip(s)
  {
    Utf8.FitCountAll(s, n);
    assert s[..|s|] == s;
  }

  /** The corrected field differs from the one written by `pad_mun_bytes` only where that one cannot be decoded. */
  lemma PadMunSafeAgrees(s: string, n: nat)
    requires Utf8.Decode(PadMunBytes(s, n)).Some?
    ensures PadMunSafe(s, n) == PadMunBytes(s, n)
  {
    Utf8.FitCountAll(s, n);
    if |Utf8.Encode(s)| <= n {
      assert s[..Utf8.FitCount(s, n)] == s;
    } else {
      var k := Utf8.FitCount(s, n);
      PadMunBytesCut(s, n);
      Utf8.FitCountSpec(s, n);
      Utf8.EncodeAppend(s[..k], s[k..]);
      assert s == s[..k] + s[k..];
    }
  }

  /** A string of `k` copies of `c`. */
  function Repeat(c: char, k: nat): (r: string)
    ensures |r| == k
  {
    seq(k, _ => c)
  }

  lemma {:induction false} EncodeRepeatAscii(c: char, k: nat)
    requires (c as int) < 0x80
    ensures |Utf8.Encode(Repeat(c, k))| == k
  {
    if k > 0 {
      assert Repeat(c, k)[1..] == Repeat(c, k - 1);
      EncodeRepeatAscii(c, k - 1);
    }
  }

  /**
   * `pad_mun_bytes` can split a character: 63 ASCII letters followed by
   * "ã" (two bytes in UTF-8) are cut after the first byte of "ã", and the
   * field no longer decodes.
   */
  lemma PadMunBytesSplitsChar()
    ensures Utf8.Decode(PadMunBytes(Repeat('a', 63) + "ã", MunLen)) == None
  {
    var p := Repeat('a', 63);
    var s := p + "ã";
    EncodeRepeatAscii('a', 63);
    Utf8.EncodeAppend(p, "ã");
    EncodeATilde();
    var e := Utf8.Encode(s);
    assert e == Utf8.Encode(p) + [0xC3, 0xA3];
    assert e[..MunLen] == Utf8.Encode(p) + [0xC3];
    assert PadMunBytes(s, MunLen) == Utf8.Encode(p) + [0xC3] by {
      assert Fill(0x20, 0) == [];
    }
    Utf8.DecodeAfterEncoded(p, [0xC3]);
  }

  /** "ã" (U+00E3) takes the two bytes C3 A3 in UTF-8. */
  lemma EncodeATilde()
    ensures Utf8.Encode("ã") == [0xC3, 0xA3]
  {
    assert Utf8.EncodeChar('ã') == [0xC3, 0xA3];
    assert Utf8.Encode("ã") == Utf8.EncodeChar('ã') + Utf8.Encode([]);
  }

  // ---------------------------------------------------------------------------
  // Packing and unpacking
  // ---------------------------------------------------------------------------

  /** What `struct` does with the bytes given for an `Ns` field: cut to `n`, or pad with NUL bytes. */
  function FitField(b: seq<byte>, n: nat): (r: seq<byte>)
    ensures |r| == n
  {
    if |b| >= n then b[..n] else b + Fill(0, n - |b|)
  }

  lemma Pow256Values()
    ensures Pow256(2) == 0x1_0000
    ensures Pow256(4) == 0x1_0000_0000
  {
    assert Pow256(1) == 256;
    assert Pow256(3) == 0x100_0000;
  }

  /** The ranges `struct.pack` accepts: `I` and `H` are unsigned 32- and 16-bit, `c` is exactly one byte. */
  predicate Packable(f: Fields) {
    0 <= f.ibge < 0x1_0000_0000 && 0 <= f.year < 0x1_0000 && |f.sex| == 1
  }

  /** `struct.pack(RECORD_STRUCT, ...)`: the 88 bytes of the record, or `struct.error`. */
  function PackRecord(f: Fields): (r: Result<seq<byte>, Error>)
    ensures r.Ok? <==> Packable(f)
    ensures r.Err? ==> r.error == StructError
    ensures r.Ok? ==> |r.value| == RecordSize
  {
    if !Packable(f) then Err(StructError)
    else
      Pow256Values();
      Ok(ToLittleEndian(f.ibge, 4) + ToLittleEndian(f.year, 2) + f.sex + [0]
         + f.quantidade + FitField(f.municipio, MunLen) + f.latitude)
  }

  /** `struct.unpack(RECORD_STRUCT, data)` on a buffer of the right size. */
  function Unpack(data: seq<byte>): Unpacked
    requires |data| == RecordSize
  {
    Unpacked(FromLittleEndian(data[0..4]), FromLittleEndian(data[4..6]), data[6..7],
             data[8..16], data[16..80], data[80..88])
  }

  /** Unpacking what was packed gives every field back (the name field cut or padded to 64 bytes). */
  lemma UnpackPack(f: Fields)
    requires Packable(f)
    ensures Unpack(PackRecord(f).value)
         == Unpacked(f.ibge, f.year, f.sex, f.quantidade, FitField(f.municipio, MunLen), f.latitude)
  {
    Pow256Values();
    var data := PackRecord(f).value;
    LittleEndianRoundTrip(f.ibge, 4);
    LittleEndianRoundTrip(f.year, 2);
    assert data[0..4] == ToLittleEndian(f.ibge, 4);
    assert data[4..6] == ToLittleEndian(f.year, 2);
  }

  /**
   * `read_record_at(path, offset)` on a file holding `file`: unpack the 88
   * bytes at `offset`, take the next 8 bytes as the longitude (0.0 when
   * fewer remain), and decode the sex and name fields, stripping both.
   */
  function ReadRecordAt(file: seq<byte>, offset: nat): (r: Result<Record, Error>)
    ensures offset + RecordSize > |file| ==> r == Err(StructError)
    ensures offset + RecordSize <= |file| ==> r.Ok? || r == Err(DecodeError)
    ensures r.Ok? && offset + Stride > |file| ==> r.value.longitude == ZeroDouble
  {
    if offset + RecordSize > |file| then Err(StructError)
    else
      var u := Unpack(file[offset..offset + RecordSize]);
      var lon: Double := if offset + Stride <= |file| then file[offset + RecordSize..offset + Stride] else ZeroDouble;
      match Utf8.Decode(u.sex)
      case None => Err(DecodeError)
      case Some(sx) =>
        match Utf8.Decode(u.municipio)
        case None => Err(DecodeError)
        case Some(m) =>
          Ok(Record(u.ibge, u.year, Text.Strip(sx), u.quantidade, Text.Strip(m), u.latitude, lon))
  }

  /** A read depends only on the bytes from `offset` on. */
  lemma ReadRecordAtShift(pre: seq<byte>, rest: seq<byte>)
    ensures ReadRecordAt(pre + rest, |pre|) == ReadRecordAt(rest, 0)
  {
    var file := pre + rest;
    if |pre| + RecordSize <= |file| {
      assert file[|pre|..|pre| + RecordSize] == rest[0..RecordSize];
      if |pre| + Stride <= |file| {
        assert file[|pre| + RecordSize..|pre| + Stride] == rest[RecordSize..Stride];
      }
    }
  }

  /**
   * Reading back a record written as `struct.pack(...)` followed by the
   * longitude gives the packed fields, with the sex and name decoded and
   * stripped.
   */
  lemma ReadPacked(f: Fields, lon: Double, rest: seq<byte>)
    requires Packable(f)
    ensures ReadRecordAt(PackRecord(f).value + lon + rest, 0)
         == match (Utf8.Decode(f.sex), Utf8.Decode(FitField(f.municipio, MunLen)))
            case (Some(sx), Some(m)) =>
              Ok(Record(f.ibge, f.year, Text.Strip(sx), f.quantidade, Text.Strip(m), f.latitude, lon))
            case _ => Err(DecodeError)
  {
    var data := PackRecord(f).value;
    var file := data + lon + rest;
    assert file[0..RecordSize] == data;
    assert file[RecordSize..Stride] == lon;
    UnpackPack(f);
  }
}

=== FILE: etl.dfy ===
/**
 * The header analysis and the wide-to-long expansion of `etl_transform`
 * (src/etl.py).
 *
 * The raw CSV has one row per municipality and one column per year (and
 * sex). The header tells which columns are years and which hold the name,
 * the IBGE code and the coordinates; every row then becomes one output row
 * per year column whose cell holds a number.
 *
 * Reading and writing the CSV files is not modelled: the header and the
 * rows arrive as `seq<string>` and the output rows are returned.
 */
module Etl {
  import opened Wrappers
  import opened Seqs
  import Text
  import Numbers

  // ---------------------------------------------------------------------------
  // Year columns: `re.search(r'20\d{2}', h)`
  // ---------------------------------------------------------------------------

  /** `h` holds `20` followed by two digits at position `i`. */
  predicate YearAt(h: string, i: nat) {
    i + 4 <= |h| && h[i] == '2' && h[i + 1] == '0' && Numbers.IsDigit(h[i + 2]) && Numbers.IsDigit(h[i + 3])
  }

  /** `int(m.group('year'))` for a match at `i`. */
  function YearValue(h: string, i: nat): nat
    requires YearAt(h, i)
  {
    2000 + 10 * (h[i + 2] as int - '0' as int) + (h[i + 3] as int - '0' as int)
  }

  /** The leftmost match at or after `from`, scanning as `re.search` does. */
  function FindYear(h: string, from: nat): (r: Option<nat>)
    ensures r.Some? ==> from <= r.value && YearAt(h, r.value)
    decreases |h| - from
  {
    if from + 4 > |h| then None
    else if YearAt(h, from) then Some(from)
    else FindYear(h, from + 1)
  }

  /** The year a header names, if any. */
  function YearOf(h: string): Option<nat> {
    match FindYear(h, 0)
    case None => None
    case Some(i) => Some(YearValue(h, i))
  }

  // ---------------------------------------------------------------------------
  // Sex: `re.search(pattern, h, re.I)`
  // ---------------------------------------------------------------------------

  /** ASCII lower case, the case folding `re.I` applies to the letters of the patterns. */
  function FoldAscii(c: char): char {
    if 'A' <= c <= 'Z' then (c as int + 32) as char else c
  }

  /** The lower-case pattern `pat` matches `h` at `i`, ignoring case. */
  predicate MatchAt(h: string, pat: string, i: nat) {
    i + |pat| <= |h| && forall k :: 0 <= k < |pat| ==> FoldAscii(h[i + k]) == pat[k]
  }

  /** `re.search(pat, h, re.I)` finds a match. */
  predicate Mentions(h: string, pat: string) {
    exists i :: 0 <= i <= |h| - |pat| && MatchAt(h, pat, i)
  }

  /**
   * The sex a year column is for: `F` when the header mentions
   * `feminino|female|fem`, else `M` when it mentions `masculino|male|masc`.
   */
  function SexOf(h: string): Option<string> {
    if Mentions(h, "feminino") || Mentions(h, "female") || Mentions(h, "fem") then Some("F")
    else if Mentions(h, "masculino") || Mentions(h, "male") || Mentions(h, "masc") then Some("M")
    else None
  }

  /** One detected year column: its position, year, sex and header. */
  datatype YearCol = YearCol(col: nat, year: nat, sex: Option<string>, header: string)

  /** `detect_years_from_header` on the columns from `i` on. */
  function DetectFrom(header: seq<string>, i: nat): seq<YearCol>
    decreases |header| - i
  {
    if i >= |header| then []
    else
      var rest := DetectFrom(header, i + 1);
      match YearOf(header[i])
      case None => rest
      case Some(y) => [YearCol(i, y, SexOf(header[i]), header[i])] + rest
  }

  /** `detect_years_from_header(header)`. */
  function DetectYears(header: seq<string>): seq<YearCol> {
    DetectFrom(header, 0)
  }

  // ---------------------------------------------------------------------------
  // Named columns: `find_col`
  // ---------------------------------------------------------------------------

  /** `t` occurs in `s` at position `i`. */
  predicate OccursAt(s: string, t: string, i: nat) {
    i + |t| <= |s| && s[i..i + |t|] == t
  }

  /** Python's `t in s` on strings. */
  predicate Contains(s: string, t: string) {
    exists i :: 0 <= i <= |s| - |t| && OccursAt(s, t, i)
  }

  /** `any(k.lower() in h.lower() for k in keywords)`. */
  predicate HasKeyword(h: string, keywords: seq<string>) {
    exists k :: 0 <= k < |keywords| && Contains(Text.Lower(h), Text.Lower(keywords[k]))
  }

  /** The first column from `i` on whose header holds one of `keywords`. */
  function FindColFrom(header: seq<string>, keywords: seq<string>, i: nat): Option<nat>
    decreases |header| - i
  {
    if i >= |header| then None
    else if HasKeyword(header[i], keywords) then Some(i)
    else FindColFrom(header, keywords, i + 1)
  }

  /** `find_col(keywords)`. */
  function FindCol(header: seq<string>, keywords: seq<string>): Option<nat> {
    FindColFrom(header, keywords, 0)
  }

  const MunicipioKeywords: seq<string> := ["município", "municipio", "municipio/"]
  const IbgeKeywords: seq<string> := ["ibge", "codigo ibge", "codigo_ibge"]
  const LatitudeKeywords: seq<string> := ["lat", "latitude"]
  const LongitudeKeywords: seq<string> := ["lon", "longitude"]

  /** Where the fields of the output rows come from. */
  datatype Columns = Columns(municipio: nat, ibge: Option<nat>, latitude: Option<nat>, longitude: Option<nat>, years: seq<YearCol>)

  /** The column analysis of `etl_transform`; the name column defaults to the first one. */
  function ColumnsOf(header: seq<string>): Columns {
    Columns(FindCol(header, MunicipioKeywords).GetOr(0), FindCol(header, IbgeKeywords),
            FindCol(header, LatitudeKeywords), FindCol(header, LongitudeKeywords), DetectYears(header))
  }

  // ---------------------------------------------------------------------------
  // The name cell: `" ".join(raw.split())`
  // ---------------------------------------------------------------------------

  /** The length of the run of non-whitespace characters `s` starts with. */
  function WordLen(s: string): (n: nat)
    ensures n <= |s|
  {
    if |s| > 0 && !Text.IsSpace(s[0]) then 1 + WordLen(s[1..]) else 0
  }

  /** `s.split()`: the maximal runs of non-whitespace characters, in order. */
  function Split(s: string): seq<string>
    decreases |s|
  {
    var t := Text.SkipSpaces(s);
    if |t| == 0 then []
    else
      Text.LeadingSpacesAreSpaces(s);
      var n := WordLen(t);
      [t[..n]] + Split(t[n..])
  }

  /** `" ".join(words)`. */
  function Join(words: seq<string>): string {
    if |words| == 0 then ""
    else if |words| == 1 then words[0]
    else words[0] + " " + Join(words[1..])
  }

  // ---------------------------------------------------------------------------
  // Row expansion
  // ---------------------------------------------------------------------------

  /** `row[idx] if idx is not None and idx < len(row) else ""`. */
  function Cell(row: seq<string>, idx: Option<nat>): string {
    if idx.Some? && idx.value < |row| then row[idx.value] else ""
  }

  /** One row of the clean CSV; the quantity is what `parse_number_robust` returns. */
  datatype OutRow<N> = OutRow(municipio: string, ibge: string, latitude: string, longitude: string,
                              year: nat, sexo: string, quantidade: N)

  /** The value of year column `yc` in `row`, if the row reaches it and the cell holds a number. */
  function ValueAt<N>(row: seq<string>, yc: YearCol, toFloat: string -> Option<N>): Option<N> {
    if yc.col >= |row| then None else Numbers.ParseNumberRobust(Some(row[yc.col]), toFloat)
  }

  /** The output rows of one input row for the year columns `years`, in their order. */
  function Emit<N>(cols: Columns, row: seq<string>, years: seq<YearCol>, toFloat: string -> Option<N>): seq<OutRow<N>>
    decreases |years|
  {
    if |years| == 0 then []
    else
      var rest := Emit(cols, row, years[1..], toFloat);
      match ValueAt(row, years[0], toFloat)
      case None => rest
      case Some(v) => [OutFor(cols, row, years[0], v)] + rest
  }

  /** The output row for year column `yc` holding `v`; an undetected sex is written as "". */
  function OutFor<N>(cols: Columns, row: seq<string>, yc: YearCol, v: N): OutRow<N> {
    OutRow(Join(Split(Cell(row, Some(cols.municipio)))), Cell(row, cols.ibge), Cell(row, cols.latitude),
           Cell(row, cols.longitude), yc.year, yc.sex.GetOr(""), v)
  }

  /** The year columns `row` reaches with a cell that holds a number. */
  function Emits<N>(row: seq<string>, toFloat: string -> Option<N>): YearCol -> bool {
    (yc: YearCol) => ValueAt(row, yc, toFloat).Some?
  }

  /** The loop body of `etl_transform` for one row; a row with no cell is skipped. */
  function ExpandRow<N>(cols: Columns, row: seq<string>, toFloat: string -> Option<N>): seq<OutRow<N>> {
    if |row| < 1 then [] else Emit(cols, row, cols.years, toFloat)
  }

  /** `etl_transform` on a header and the rows after it. */
  function Transform<N>(header: seq<string>, rows: seq<seq<string>>, toFloat: string -> Option<N>): seq<OutRow<N>>
  {
    var cols := ColumnsOf(header);
    FlatMap((row: seq<string>) => ExpandRow(cols, row, toFloat), rows)
  }

  // ---------------------------------------------------------------------------
  // Lemmas: the header
  // ---------------------------------------------------------------------------

  /** The scan stops at the leftmost match at or after `from`, and finds none only when there is none. */
  lemma {:induction false} FindYearSpec(h: string, from: nat)
    ensures FindYear(h, from).Some? ==> forall j :: from <= j < FindYear(h, from).value ==> !YearAt(h, j)
    ensures FindYear(h, from).None? ==> forall j :: from <= j ==> !YearAt(h, j)
    decreases |h| - from
  {
    if from + 4 <= |h| && !YearAt(h, from) {
      FindYearSpec(h, from + 1);
    }
  }

  /**
   * A header names a year exactly when it holds `20` and two digits; the
   * year is the one of the leftmost such place and lies in 2000..2099.
   */
  lemma YearOfSpec(h: string)
    ensures YearOf(h).None? <==> forall i: nat :: !YearAt(h, i)
    ensures YearOf(h).Some? ==>
      && 2000 <= YearOf(h).value <= 2099
      && exists i: nat :: YearAt(h, i) && YearOf(h).value == YearValue(h, i) && forall j: nat :: j < i ==> !YearAt(h, j)
  {
    FindYearSpec(h, 0);
    if YearOf(h).Some? {
      var i := FindYear(h, 0).value;
      assert YearAt(h, i) && YearOf(h).value == YearValue(h, i);
    }
  }

  /** "Matrículas 2024" names 2024; the first of two years wins. */
  lemma YearOfExamples()
    ensures YearOf("Matrículas 2024") == Some(2024)
    ensures YearOf("2019-2020") == Some(2019)
    ensures YearOf("Total") == None
  {
    assert YearAt("Matrículas 2024", 11);
    FindYearSpec("Matrículas 2024", 0);
    assert YearAt("2019-2020", 0);
    FindYearSpec("Total", 0);
  }

  /** A match of a pattern is a match of its every prefix. */
  lemma MentionsPrefix(h: string, pat: string, pre: string)
    requires |pre| <= |pat| && pat[..|pre|] == pre && Mentions(h, pat)
    ensures Mentions(h, pre)
  {
    var i :| 0 <= i <= |h| - |pat| && MatchAt(h, pat, i);
    assert forall k :: 0 <= k < |pre| ==> pre[k] == pat[k];
    assert MatchAt(h, pre, i);
  }

  /**
   * The alternatives are redundant: a header is for women exactly when it
   * mentions `fem`, and for men exactly when it does not but mentions
   * `male` or `masc`.
   */
  lemma SexOfSpec(h: string)
    ensures SexOf(h) == Some("F") <==> Mentions(h, "fem")
    ensures SexOf(h) == Some("M") <==> !Mentions(h, "fem") && (Mentions(h, "male") || Mentions(h, "masc"))
    ensures SexOf(h) == None <==> !Mentions(h, "fem") && !Mentions(h, "male") && !Mentions(h, "masc")
  {
    if Mentions(h, "feminino") {
      MentionsPrefix(h, "feminino", "fem");
    }
    if Mentions(h, "female") {
      MentionsPrefix(h, "female", "fem");
    }
    if Mentions(h, "masculino") {
      MentionsPrefix(h, "masculino", "masc");
    }
  }

  /** A pattern whose first letter does not occur is not mentioned. */
  lemma NotMentioned(h: string, pat: string)
    requires |pat| > 0 && forall i :: 0 <= i < |h| ==> FoldAscii(h[i]) != pat[0]
    ensures !Mentions(h, pat)
  {
    forall i | 0 <= i <= |h| - |pat|
      ensures !MatchAt(h, pat, i)
    {
      assert FoldAscii(h[i + 0]) != pat[0];
    }
  }

  /** "Feminino 2024" is for women. */
  lemma SexOfFeminino()
    ensures SexOf("Feminino 2024") == Some("F")
  {
    SexOfSpec("Feminino 2024");
    assert MatchAt("Feminino 2024", "fem", 0);
  }

  /** "Female" is for women although it also holds "male": `F` is tried first. */
  lemma SexOfFemale()
    ensures SexOf("Female") == Some("F") && Mentions("Female", "male")
  {
    SexOfSpec("Female");
    assert MatchAt("Female", "fem", 0);
    assert MatchAt("Female", "male", 2);
  }

  /** "MASC 2023" is for men: case is ignored. */
  lemma SexOfMasc()
    ensures SexOf("MASC 2023") == Some("M")
  {
    SexOfSpec("MASC 2023");
    NotMentioned("MASC 2023", "fem");
    assert MatchAt("MASC 2023", "masc", 0);
  }

  /** "Total 2023" names no sex. */
  lemma SexOfTotal()
    ensures SexOf("Total 2023") == None
  {
    SexOfSpec("Total 2023");
    NotMentioned("Total 2023", "fem");
    NotMentioned("Total 2023", "male");
    NotMentioned("Total 2023", "masc");
  }

  /** Every column `DetectFrom(header, i)` reports names the year and sex it carries. */
  lemma {:induction false} DetectFromSound(header: seq<string>, i: nat)
    ensures forall yc :: yc in DetectFrom(header, i) ==>
      && i <= yc.col < |header|
      && YearOf(header[yc.col]) == Some(yc.year)
      && yc.sex == SexOf(header[yc.col]) && yc.header == header[yc.col]
    decreases |header| - i
  {
    if i < |header| {
      DetectFromSound(header, i + 1);
    }
  }

  /** The columns `DetectFrom(header, i)` reports increase. */
  lemma {:induction false} DetectFromOrdered(header: seq<string>, i: nat)
    ensures forall j, k :: 0 <= j < k < |DetectFrom(header, i)| ==> DetectFrom(header, i)[j].col < DetectFrom(header, i)[k].col
    decreases |header| - i
  {
    if i < |header| {
      DetectFromOrdered(header, i + 1);
      DetectFromSound(header, i + 1);
      var rest := DetectFrom(header, i + 1);
      var r := DetectFrom(header, i);
      if YearOf(header[i]).Some? {
        forall j, k | 0 <= j < k < |r|
          ensures r[j].col < r[k].col
        {
          assert r[k] == rest[k - 1];
          if j > 0 {
            assert r[j] == rest[j - 1];
          } else {
            assert rest[k - 1] in rest;
          }
        }
      }
    }
  }

  /** `DetectFrom(header, i)` reports every column from `i` on whose header names a year. */
  lemma {:induction false} DetectFromComplete(header: seq<string>, i: nat)
    ensures forall c :: i <= c < |header| && YearOf(header[c]).Some? ==>
      exists k :: 0 <= k < |DetectFrom(header, i)| && DetectFrom(header, i)[k].col == c
    decreases |header| - i
  {
    if i < |header| {
      DetectFromComplete(header, i + 1);
      var rest := DetectFrom(header, i + 1);
      var r := DetectFrom(header, i);
      forall c | i <= c < |header| && YearOf(header[c]).Some?
        ensures exists k :: 0 <= k < |r| && r[k].col == c
      {
        assert c == i || i + 1 <= c;
        if YearOf(header[i]).Some? {
          if c == i {
            assert r[0].col == c;
          } else {
            var k :| 0 <= k < |rest| && rest[k].col == c;
            assert r[k + 1].col == c;
          }
        } else {
          assert r == rest;
          assert c != i;
          var k :| 0 <= k < |rest| && rest[k].col == c;
          assert r[k].col == c;
        }
      }
      assert forall c :: i <= c < |header| && YearOf(header[c]).Some? ==> exists k :: 0 <= k < |r| && r[k].col == c;
      assert r == DetectFrom(header, i);
    }
  }

  /**
   * `detect_years_from_header` reports every column whose header names a
   * year, once, in column order, with that year (2000..2099) and the sex
   * its header names.
   */
  lemma DetectYearsSpec(header: seq<string>)
    ensures forall k :: 0 <= k < |DetectYears(header)| ==>
      var yc := DetectYears(header)[k];
      && yc.col < |header|
      && YearOf(header[yc.col]) == Some(yc.year) && 2000 <= yc.year <= 2099
      && yc.sex == SexOf(header[yc.col]) && yc.header == header[yc.col]
    ensures forall j, k :: 0 <= j < k < |DetectYears(header)| ==> DetectYears(header)[j].col < DetectYears(header)[k].col
    ensures forall c :: 0 <= c < |header| && YearOf(header[c]).Some? ==>
      exists k :: 0 <= k < |DetectYears(header)| && DetectYears(header)[k].col == c
  {
    DetectFromSound(header, 0);
    DetectFromOrdered(header, 0);
    DetectFromComplete(header, 0);
    var r := DetectYears(header);
    forall c | 0 <= c < |header| && YearOf(header[c]).Some?
      ensures exists k :: 0 <= k < |r| && r[k].col == c
    {
      var k :| 0 <= k < |DetectFrom(header, 0)| && DetectFrom(header, 0)[k].col == c;
      assert r[k].col == c;
    }
    forall k | 0 <= k < |DetectYears(header)|
      ensures 2000 <= DetectYears(header)[k].year <= 2099
    {
      assert DetectYears(header)[k] in DetectYears(header);
      YearOfSpec(header[DetectYears(header)[k].col]);
    }
  }

  /** `find_col` from `i` returns the first matching column at or after `i`. */
  lemma {:induction false} FindColFromSpec(header: seq<string>, keywords: seq<string>, i: nat)
    ensures FindColFrom(header, keywords, i).Some? ==>
      var c := FindColFrom(header, keywords, i).value;
      && i <= c < |header| && HasKeyword(header[c], keywords)
      && forall j :: i <= j < c ==> !HasKeyword(header[j], keywords)
    ensures FindColFrom(header, keywords, i).None? ==> forall j :: i <= j < |header| ==> !HasKeyword(header[j], keywords)
    decreases |header| - i
  {
    if i < |header| && !HasKeyword(header[i], keywords) {
      FindColFromSpec(header, keywords, i + 1);
    }
  }

  /** `find_col` returns the smallest column whose lower-cased header holds a lower-cased keyword, or `None`. */
  lemma FindColSpec(header: seq<string>, keywords: seq<string>)
    ensures FindCol(header, keywords).Some? ==>
      var c := FindCol(header, keywords).value;
      && c < |header| && HasKeyword(header[c], keywords)
      && forall j :: 0 <= j < c ==> !HasKeyword(header[j], keywords)
    ensures FindCol(header, keywords).None? <==> forall j :: 0 <= j < |header| ==> !HasKeyword(header[j], keywords)
  {
    FindColFromSpec(header, keywords, 0);
  }

  /** Without a name column the first column is taken as the name. */
  lemma MunicipioDefault(header: seq<string>)
    requires forall j :: 0 <= j < |header| ==> !HasKeyword(header[j], MunicipioKeywords)
    ensures ColumnsOf(header).municipio == 0
  {
    FindColSpec(header, MunicipioKeywords);
  }

  // ---------------------------------------------------------------------------
  // Lemmas: the name cell
  // ---------------------------------------------------------------------------

  /** A non-empty run of non-whitespace characters. */
  predicate IsWord(w: string) {
    |w| > 0 && forall i :: 0 <= i < |w| ==> !Text.IsSpace(w[i])
  }

  /** `WordLen` counts the leading non-whitespace run and stops at whitespace. */
  lemma {:induction false} WordLenSpec(s: string)
    ensures forall i :: 0 <= i < WordLen(s) ==> !Text.IsSpace(s[i])
    ensures WordLen(s) < |s| ==> Text.IsSpace(s[WordLen(s)])
  {
    if |s| > 0 && !Text.IsSpace(s[0]) {
      WordLenSpec(s[1..]);
    }
  }

  /** After skipping the leading whitespace there is none left to skip. */
  lemma SkipSpacesTwice(s: string)
    ensures Text.LeadingSpaces(Text.SkipSpaces(s)) == 0
    ensures Text.SkipSpaces(Text.SkipSpaces(s)) == Text.SkipSpaces(s)
  {
    Text.LeadingSpacesAreSpaces(s);
    var t := Text.SkipSpaces(s);
    assert t == [] || !Text.IsSpace(t[0]);
  }

  /** Splitting ignores leading whitespace. */
  lemma SplitSkipsSpaces(s: string)
    ensures Split(Text.SkipSpaces(s)) == Split(s)
  {
    SkipSpacesTwice(s);
  }

  /** `split()` yields words only. */
  lemma {:induction false} SplitWords(s: string)
    ensures forall k :: 0 <= k < |Split(s)| ==> IsWord(Split(s)[k])
    decreases |s|
  {
    var t := Text.SkipSpaces(s);
    if |t| > 0 {
      Text.LeadingSpacesAreSpaces(s);
      var n := WordLen(t);
      WordLenSpec(t);
      SplitWords(t[n..]);
      assert Split(s) == [t[..n]] + Split(t[n..]);
    }
  }

  /** Collapsing passes over a word unchanged. */
  lemma {:induction false} CollapseWord(w: string, r: string)
    requires forall i :: 0 <= i < |w| ==> !Text.IsSpace(w[i])
    ensures Text.Collapse(w + r) == w + Text.Collapse(r)
    decreases |w|
  {
    if |w| > 0 {
      CollapseWord(w[1..], r);
      assert (w + r)[1..] == w[1..] + r;
      assert w == [w[0]] + w[1..];
    } else {
      assert w + r == r;
    }
  }

  /** A string without leading whitespace splits into its first word and the split of the rest. */
  lemma SplitStep(t: string)
    requires Text.LeadingSpaces(t) == 0 && |t| > 0
    ensures 0 < WordLen(t)
    ensures Split(t) == [t[..WordLen(t)]] + Split(t[WordLen(t)..])
  {
    assert Text.SkipSpaces(t) == t;
  }

  /** Joining one more word in front adds it and a space. */
  lemma JoinCons(w: string, ws: seq<string>)
    ensures |ws| == 0 ==> Join([w] + ws) == w
    ensures |ws| > 0 ==> Join([w] + ws) == w + " " + Join(ws)
  {
    assert ([w] + ws)[1..] == ws;
  }

  /**
   * On a string without leading whitespace, collapsing gives the joined
   * words followed by one space when the string ends in whitespace.
   */
  lemma {:induction false} CollapseWords(t: string) returns (q: string)
    requires Text.LeadingSpaces(t) == 0
    ensures q == "" || q == " "
    ensures Text.Collapse(t) == Join(Split(t)) + q
    ensures Text.Trimmed(Join(Split(t)))
    ensures |t| > 0 ==> |Join(Split(t))| > 0
    decreases |t|, 1
  {
    if |t| == 0 {
      assert Text.SkipSpaces(t) == t;
      q := "";
    } else {
      SplitStep(t);
      var n := WordLen(t);
      WordLenSpec(t);
      var w, rest := t[..n], t[n..];
      assert t == w + rest;
      CollapseWord(w, rest);
      q := CollapseRest(w, rest);
    }
  }

  /** The step of `CollapseWords` after the first word `w`. */
  lemma {:induction false} CollapseRest(w: string, rest: string) returns (q: string)
    requires IsWord(w)
    requires |rest| > 0 ==> Text.IsSpace(rest[0])
    ensures q == "" || q == " "
    ensures w + Text.Collapse(rest) == Join([w] + Split(rest)) + q
    ensures Text.Trimmed(Join([w] + Split(rest)))
    ensures |Join([w] + Split(rest))| > 0
    decreases |rest|, 0
  {
    if |Text.SkipSpaces(rest)| == 0 {
      q := LastWord(w, rest);
    } else {
      var u := Text.SkipSpaces(rest);
      SkipSpacesTwice(rest);
      q := CollapseWords(u);
      MoreWords(w, rest, q);
    }
  }

  /** A run of whitespace collapses to one space. */
  lemma CollapseSpaceRun(rest: string)
    requires |rest| > 0 && Text.IsSpace(rest[0])
    ensures Text.Collapse(rest) == " " + Text.Collapse(Text.SkipSpaces(rest))
  {
  }

  /** When only whitespace follows `w`, the words end with `w`, and a space follows it when there was any. */
  lemma LastWord(w: string, rest: string) returns (q: string)
    requires IsWord(w) && |Text.SkipSpaces(rest)| == 0
    requires |rest| > 0 ==> Text.IsSpace(rest[0])
    ensures q == "" || q == " "
    ensures w + Text.Collapse(rest) == Join([w] + Split(rest)) + q
    ensures Text.Trimmed(Join([w] + Split(rest))) && |Join([w] + Split(rest))| > 0
  {
    assert Split(rest) == [];
    JoinCons(w, []);
    if |rest| == 0 {
      q := "";
    } else {
      q := " ";
      CollapseSpaceRun(rest);
    }
  }

  /** When more words follow `w`, they are joined after `w` and one space. */
  lemma MoreWords(w: string, rest: string, q: string)
    requires IsWord(w)
    requires |rest| > 0 && Text.IsSpace(rest[0])
    requires var u := Text.SkipSpaces(rest);
      && |u| > 0 && Text.LeadingSpaces(u) == 0
      && Text.Collapse(u) == Join(Split(u)) + q
      && Text.Trimmed(Join(Split(u))) && |Join(Split(u))| > 0
    ensures w + Text.Collapse(rest) == Join([w] + Split(rest)) + q
    ensures Text.Trimmed(Join([w] + Split(rest)))
  {
    var u := Text.SkipSpaces(rest);
    assert |Split(u)| > 0 by {
      assert Join([]) == "";
    }
    CollapseSpaceRun(rest);
    SplitSkipsSpaces(rest);
    JoinCons(w, Split(u));
    SpacedConcat(w, Text.Collapse(rest), Text.Collapse(u), Join(Split(u)), q);
    TrimmedSpaced(w, Join(Split(u)));
  }

  /** Sequence algebra for `MoreWords`: `w` then a space then `j + q` is `w + " " + j`, then `q`. */
  lemma SpacedConcat(w: string, c: string, cu: string, j: string, q: string)
    requires c == " " + cu && cu == j + q
    ensures w + c == w + " " + j + q
  {
  }

  /** A word, a space and a trimmed non-empty string make a trimmed string. */
  lemma TrimmedSpaced(w: string, j: string)
    requires IsWord(w) && Text.Trimmed(j) && |j| > 0
    ensures Text.Trimmed(w + " " + j)
  {
    var t := w + " " + j;
    assert t[0] == w[0];
    assert t[|t| - 1] == j[|j| - 1];
  }

  /** Collapsing a string is one space for its leading whitespace, if any, then the collapse of the rest. */
  lemma CollapseLeading(s: string)
    ensures Text.Collapse(s) == (if Text.LeadingSpaces(s) > 0 then " " else "") + Text.Collapse(Text.SkipSpaces(s))
  {
    if Text.LeadingSpaces(s) > 0 {
      CollapseSpaceRun(s);
    } else {
      assert Text.SkipSpaces(s) == s;
    }
  }

  /** A string collapses to its joined words with at most one space before and after. */
  lemma CollapsePieces(s: string) returns (p: string, q: string)
    ensures p == "" || p == " "
    ensures q == "" || q == " "
    ensures Text.Collapse(s) == p + Join(Split(s)) + q
    ensures Text.Trimmed(Join(Split(s)))
  {
    var u := Text.SkipSpaces(s);
    SkipSpacesTwice(s);
    SplitSkipsSpaces(s);
    q := CollapseWords(u);
    p := if Text.LeadingSpaces(s) > 0 then " " else "";
    var j := Join(Split(u));
    calc {
      Text.Collapse(s);
      { CollapseLeading(s); }
      p + Text.Collapse(u);
      p + (j + q);
      p + j + q;
    }
  }

  /** `" ".join(raw.split())` is `re.sub(r'\s+', ' ', raw)` with the ends stripped. */
  lemma JoinSplitStrip(s: string)
    ensures Join(Split(s)) == Text.Strip(Text.Collapse(s))
    ensures Text.Trimmed(Join(Split(s)))
  {
    var p, q := CollapsePieces(s);
    Text.StripUnique(p, Join(Split(s)), q);
  }

  /**
   * `" ".join(raw.split())` is `re.sub(r'\s+', ' ', raw)` with the ends
   * stripped: trimmed, single-spaced, and the same non-whitespace
   * characters in the same order.
   */
  lemma JoinSplitSpec(s: string)
    ensures Join(Split(s)) == Text.Strip(Text.Collapse(s))
    ensures Text.Trimmed(Join(Split(s))) && Text.SingleSpaced(Join(Split(s)))
    ensures Text.NonSpace(Join(Split(s))) == Text.NonSpace(s)
  {
    JoinSplitStrip(s);
    Text.CollapseShape(s);
    Text.StripKeepsSingleSpaced(Text.Collapse(s));
    Text.StripKeepsNonSpace(Text.Collapse(s));
    Text.CollapseKeepsNonSpace(s);
  }

  // ---------------------------------------------------------------------------
  // Lemmas: the expansion
  // ---------------------------------------------------------------------------

  /**
   * The output rows of a row are, in order, one for each year column the row
   * reaches with a number, carrying that column's year and sex and the
   * parsed number.
   */
  lemma {:induction false} EmitSpec<N>(cols: Columns, row: seq<string>, years: seq<YearCol>, toFloat: string -> Option<N>)
    ensures var kept := Filter(Emits(row, toFloat), years);
      && |Emit(cols, row, years, toFloat)| == |kept|
      && forall k :: 0 <= k < |kept| ==>
           var o := Emit(cols, row, years, toFloat)[k];
           ValueAt(row, kept[k], toFloat) == Some(o.quantidade) && o == OutFor(cols, row, kept[k], o.quantidade)
    decreases |years|
  {
    if |years| > 0 {
      EmitSpec(cols, row, years[1..], toFloat);
      var rest := Emit(cols, row, years[1..], toFloat);
      var kept' := Filter(Emits(row, toFloat), years[1..]);
      var v := ValueAt(row, years[0], toFloat);
      if v.Some? {
        EmitStep(cols, row, years, toFloat, rest, kept');
      } else {
        assert Emit(cols, row, years, toFloat) == rest;
        assert Filter(Emits(row, toFloat), years) == kept';
      }
    }
  }

  /** The step of `EmitSpec` for a first year column that yields a row. */
  lemma EmitStep<N>(cols: Columns, row: seq<string>, years: seq<YearCol>, toFloat: string -> Option<N>,
                    rest: seq<OutRow<N>>, kept': seq<YearCol>)
    requires |years| > 0 && ValueAt(row, years[0], toFloat).Some?
    requires rest == Emit(cols, row, years[1..], toFloat) && kept' == Filter(Emits(row, toFloat), years[1..])
    requires |rest| == |kept'|
    requires forall k :: 0 <= k < |kept'| ==>
      ValueAt(row, kept'[k], toFloat) == Some(rest[k].quantidade) && rest[k] == OutFor(cols, row, kept'[k], rest[k].quantidade)
    ensures var kept := Filter(Emits(row, toFloat), years);
      && |Emit(cols, row, years, toFloat)| == |kept|
      && forall k :: 0 <= k < |kept| ==>
           var o := Emit(cols, row, years, toFloat)[k];
           ValueAt(row, kept[k], toFloat) == Some(o.quantidade) && o == OutFor(cols, row, kept[k], o.quantidade)
  {
    var out := Emit(cols, row, years, toFloat);
    var kept := Filter(Emits(row, toFloat), years);
    var v := ValueAt(row, years[0], toFloat).value;
    assert out == [OutFor(cols, row, years[0], v)] + rest;
    assert kept == [years[0]] + kept';
    forall k | 0 < k < |kept|
      ensures ValueAt(row, kept[k], toFloat) == Some(out[k].quantidade) && out[k] == OutFor(cols, row, kept[k], out[k].quantidade)
    {
      assert out[k] == rest[k - 1] && kept[k] == kept'[k - 1];
    }
  }

  /** A cell that holds a number yields the conversion of its cleaned text. */
  lemma ValueAtSpec<N>(row: seq<string>, yc: YearCol, toFloat: string -> Option<N>)
    ensures yc.col >= |row| ==> ValueAt(row, yc, toFloat).None?
    ensures yc.col < |row| && Text.Strip(row[yc.col]) == "" ==> ValueAt(row, yc, toFloat).None?
    ensures yc.col < |row| && Text.Strip(row[yc.col]) != "" ==>
      ValueAt(row, yc, toFloat) == toFloat(Numbers.Reference(row[yc.col]))
  {
  }

  /** A row with no cells yields nothing, so skipping it changes nothing. */
  lemma {:induction false} EmptyRowYieldsNothing<N>(cols: Columns, years: seq<YearCol>, toFloat: string -> Option<N>)
    ensures Emit(cols, [], years, toFloat) == []
    decreases |years|
  {
    if |years| > 0 {
      EmptyRowYieldsNothing(cols, years[1..], toFloat);
    }
  }

  /** The guard against rows without cells is redundant. */
  lemma ExpandRowGuard<N>(cols: Columns, row: seq<string>, toFloat: string -> Option<N>)
    ensures ExpandRow(cols, row, toFloat) == Emit(cols, row, cols.years, toFloat)
  {
    if |row| == 0 {
      EmptyRowYieldsNothing(cols, cols.years, toFloat);
    }
  }

  /** A row that reaches every year column with a number yields one output row per year column. */
  lemma ExpandRowFull<N>(cols: Columns, row: seq<string>, toFloat: string -> Option<N>)
    requires forall k :: 0 <= k < |cols.years| ==> ValueAt(row, cols.years[k], toFloat).Some?
    ensures |ExpandRow(cols, row, toFloat)| == |cols.years|
  {
    ExpandRowGuard(cols, row, toFloat);
    EmitSpec(cols, row, cols.years, toFloat);
    FilterKeepsAll(Emits(row, toFloat), cols.years);
  }

  /** A year column fit for the clean CSV: a year in 2000..2099 and a sex of "F", "M" or none. */
  predicate GoodYearCol(yc: YearCol) {
    2000 <= yc.year <= 2099 && (yc.sex == Some("F") || yc.sex == Some("M") || yc.sex == None)
  }

  /** Every column `detect_years_from_header` reports is fit for the clean CSV. */
  lemma DetectedColumnsGood(header: seq<string>)
    ensures forall yc :: yc in DetectYears(header) ==> GoodYearCol(yc)
  {
    DetectYearsSpec(header);
    forall yc | yc in DetectYears(header)
      ensures GoodYearCol(yc)
    {
      var k :| 0 <= k < |DetectYears(header)| && DetectYears(header)[k] == yc;
    }
  }

  /** Output rows take their year and sex from a reported column, and their name from the name cell. */
  lemma ExpandRowFrom<N>(cols: Columns, row: seq<string>, toFloat: string -> Option<N>)
    requires forall yc :: yc in cols.years ==> GoodYearCol(yc)
    ensures forall o :: o in ExpandRow(cols, row, toFloat) ==>
      && 2000 <= o.year <= 2099
      && (o.sexo == "F" || o.sexo == "M" || o.sexo == "")
      && o.municipio == Join(Split(Cell(row, Some(cols.municipio))))
  {
    var out := ExpandRow(cols, row, toFloat);
    ExpandRowGuard(cols, row, toFloat);
    EmitSpec(cols, row, cols.years, toFloat);
    var kept := Filter(Emits(row, toFloat), cols.years);
    FilterMembers(Emits(row, toFloat), cols.years);
    forall o | o in out
      ensures 2000 <= o.year <= 2099 && (o.sexo == "F" || o.sexo == "M" || o.sexo == "")
      ensures o.municipio == Join(Split(Cell(row, Some(cols.municipio))))
    {
      var k :| 0 <= k < |out| && out[k] == o;
      assert kept[k] in kept;
      assert GoodYearCol(kept[k]);
    }
  }

  /** Every output row carries a year in 2000..2099, a sex of "F", "M" or "", and the cleaned name. */
  lemma ExpandRowFields<N>(header: seq<string>, row: seq<string>, toFloat: string -> Option<N>)
    ensures forall o :: o in ExpandRow(ColumnsOf(header), row, toFloat) ==>
      && 2000 <= o.year <= 2099
      && (o.sexo == "F" || o.sexo == "M" || o.sexo == "")
      && o.municipio == Join(Split(Cell(row, Some(ColumnsOf(header).municipio))))
  {
    DetectedColumnsGood(header);
    ExpandRowFrom(ColumnsOf(header), row, toFloat);
  }

  /** The transform works row by row: the output of two batches of rows is the two outputs one after the other. */
  lemma TransformAppend<N>(header: seq<string>, a: seq<seq<string>>, b: seq<seq<string>>, toFloat: string -> Option<N>)
    ensures Transform(header, a + b, toFloat) == Transform(header, a, toFloat) + Transform(header, b, toFloat)
  {
    var cols := ColumnsOf(header);
    FlatMapAppend((row: seq<string>) => ExpandRow(cols, row, toFloat), a, b);
  }

  /** Every output row is one emitted for some input row, and every row's output is in the result. */
  lemma TransformMembers<N>(header: seq<string>, rows: seq<seq<string>>, toFloat: string -> Option<N>)
    ensures forall o :: o in Transform(header, rows, toFloat) <==>
      exists i :: 0 <= i < |rows| && o in ExpandRow(ColumnsOf(header), rows[i], toFloat)
  {
    var cols := ColumnsOf(header);
    var f := (row: seq<string>) => ExpandRow(cols, row, toFloat);
    FlatMapMembers(f, rows);
    assert forall i :: 0 <= i < |rows| ==> f(rows[i]) == ExpandRow(cols, rows[i], toFloat);
  }
}

=== FILE: numbers.dfy ===
/**
 * `parse_number_robust`: the clean-up a spreadsheet cell goes through
 * before it is handed to `float`. The conversion itself (`float`, and the
 * choice between `int` and `float` for integral values) is a parameter.
 */
module Numbers {
  import opened Wrappers
  import Seqs
  import Text

  predicate IsDigit(c: char) {
    '0' <= c <= '9'
  }

  /** The characters the last clean-up step keeps: `[0-9.\-]`. */
  predicate IsNumeric(c: char) {
    IsDigit(c) || c == '.' || c == '-'
  }

  predicate IsDigitOrMinus(c: char) {
    IsDigit(c) || c == '-'
  }

  /** `s.count(c)` for a single character. */
  function Count(s: string, c: char): nat {
    if |s| == 0 then 0 else (if s[0] == c then 1 else 0) + Count(s[1..], c)
  }

  predicate NotQuote(c: char) { c != '"' }
  predicate NotApostrophe(c: char) { c != '\'' }
  predicate NotDot(c: char) { c != '.' }
  predicate NotBlank(c: char) { c != ' ' }

  /** `s.replace(',', '.')`. */
  function CommaToDot(s: string): string {
    if |s| == 0 then [] else [if s[0] == ',' then '.' else s[0]] + CommaToDot(s[1..])
  }

  /** The separator rules: which of '.' and ',' the token contains decides how they are read. */
  function Separators(t: string): string {
    if Count(t, '.') > 0 && Count(t, ',') > 0 then CommaToDot(Seqs.Filter(NotDot, t))
    else if Count(t, ',') > 0 && Count(t, '.') == 0 then CommaToDot(t)
    else if Count(t, '.') > 0 && Count(t, ',') == 0 then Seqs.Filter(NotDot, t)
    else t
  }

  /**
   * The string `parse_number_robust` hands to `float`, or `None` when the
   * token is missing or blank.
   */
  function CleanToken(token: Option<string>): Option<string> {
    match token
    case None => None
    case Some(raw) =>
      var t := Text.Strip(raw);
      if t == "" then None
      else
        var t1 := Unquoted(t);
        var t2 := Separators(t1);
        var t3 := Seqs.Filter(NotBlank, t2);
        Some(Seqs.Filter(IsNumeric, t3))
  }

  /**
   * `parse_number_robust(token)`: `None` for a missing or blank token,
   * otherwise the conversion of the cleaned token. A cleaned token keeps the
   * digits and minus signs of the input in order, drops every '.', and turns
   * every ',' into the decimal point.
   */
  function ParseNumberRobust<N>(token: Option<string>, toFloat: string -> Option<N>): (r: Option<N>)
    ensures token.None? ==> r.None?
    ensures token.Some? && Text.Strip(token.value) == "" ==> r.None?
    ensures token.Some? && Text.Strip(token.value) != "" ==> r == toFloat(Reference(token.value))
  {
    match token
    case None => None
    case Some(raw) =>
      CleanTokenSpec(raw);
      match CleanToken(token)
      case None => None
      case Some(t) => toFloat(t)
  }

  // ---------------------------------------------------------------------------
  // Reference definition: one character at a time
  // ---------------------------------------------------------------------------

  /** What a single input character contributes to the cleaned token. */
  function Contribution(c: char): string {
    if IsDigitOrMinus(c) then [c] else if c == ',' then ['.'] else []
  }

  /** The cleaned token, character by character. */
  function Reference(s: string): string {
    if |s| == 0 then [] else Contribution(s[0]) + Reference(s[1..])
  }

  lemma {:induction false} ReferenceAppend(a: string, b: string)
    ensures Reference(a + b) == Reference(a) + Reference(b)
  {
    if |a| > 0 {
      assert (a + b)[1..] == a[1..] + b;
      ReferenceAppend(a[1..], b);
    } else {
      assert a + b == b;
    }
  }

  /** Filtering out characters that contribute nothing does not change the reference. */
  lemma {:induction false} ReferenceIgnores(p: char -> bool, s: string)
    requires forall c :: !p(c) ==> Contribution(c) == []
    ensures Reference(Seqs.Filter(p, s)) == Reference(s)
  {
    if |s| > 0 {
      ReferenceIgnores(p, s[1..]);
      ReferenceAppend(if p(s[0]) then [s[0]] else [], Seqs.Filter(p, s[1..]));
    }
  }

  lemma ReferenceStrip(s: string)
    ensures Reference(Text.Strip(s)) == Reference(s)
  {
    Text.StripKeepsNonSpace(s);
    ReferenceIgnores(Text.NotSpace, s);
    ReferenceIgnores(Text.NotSpace, Text.Strip(s));
  }

  /** Once dots are gone, the rest of the pipeline is the reference. */
  lemma {:induction false} PipelineIsReference(s: string)
    ensures Seqs.Filter(IsNumeric, Seqs.Filter(NotBlank, CommaToDot(Seqs.Filter(NotDot, s)))) == Reference(s)
  {
    if |s| > 0 {
      var f := Seqs.Filter(NotDot, s[1..]);
      PipelineIsReference(s[1..]);
      if s[0] != '.' {
        assert Seqs.Filter(NotDot, s) == [s[0]] + f;
        assert ([s[0]] + f)[1..] == f;
        var c := if s[0] == ',' then '.' else s[0];
        var g := CommaToDot(f);
        assert CommaToDot([s[0]] + f) == [c] + g;
        Seqs.FilterAppend(NotBlank, [c], g);
        Seqs.FilterAppend(IsNumeric, Seqs.Filter(NotBlank, [c]), Seqs.Filter(NotBlank, g));
        assert Seqs.Filter(IsNumeric, Seqs.Filter(NotBlank, [c])) == Contribution(s[0]);
      } else {
        assert Seqs.Filter(NotDot, s) == f;
      }
    }
  }

  /** Filtering never adds occurrences of a character. */
  lemma {:induction false} CountFilter(p: char -> bool, s: string, c: char)
    ensures Count(Seqs.Filter(p, s), c) <= Count(s, c)
  {
    if |s| > 0 {
      CountFilter(p, s[1..], c);
      CountAppend(if p(s[0]) then [s[0]] else [], Seqs.Filter(p, s[1..]), c);
    }
  }

  lemma {:induction false} CountZero(s: string, c: char)
    requires Count(s, c) == 0
    ensures forall i :: 0 <= i < |s| ==> s[i] != c
  {
    if |s| > 0 {
      CountZero(s[1..], c);
      forall i | 1 <= i < |s|
        ensures s[i] != c
      {
        assert s[i] == s[1..][i - 1];
      }
    }
  }

  lemma {:induction false} CommaToDotWithoutComma(s: string)
    requires Count(s, ',') == 0
    ensures CommaToDot(s) == s
  {
    if |s| > 0 {
      CommaToDotWithoutComma(s[1..]);
      assert s == [s[0]] + s[1..];
    }
  }

  /**
   * The four separator branches agree with one rule: drop every '.', then
   * read every ',' as the decimal point.
   */
  lemma SeparatorsUniform(t: string)
    ensures Separators(t) == CommaToDot(Seqs.Filter(NotDot, t))
  {
    if Count(t, '.') == 0 {
      CountZero(t, '.');
      Seqs.FilterKeepsAll(NotDot, t);
    }
    if Count(t, ',') == 0 {
      CountFilter(NotDot, t, ',');
      CommaToDotWithoutComma(Seqs.Filter(NotDot, t));
      if Count(t, '.') == 0 {
        CommaToDotWithoutComma(t);
      }
    }
  }

  /**
   * `CleanToken` is `None` exactly for a missing or blank token; otherwise
   * it is the character-by-character reference.
   */
  lemma CleanTokenSpec(raw: string)
    ensures CleanToken(Some(raw)).None? <==> Text.Strip(raw) == ""
    ensures CleanToken(Some(raw)).Some? ==> CleanToken(Some(raw)).value == Reference(raw)
  {
    var t := Text.Strip(raw);
    if t != "" {
      var t1 := Unquoted(t);
      UnquotedReference(raw);
      SeparatorsUniform(t1);
      PipelineIsReference(t1);
    }
  }

  /** The stripped token with quotes and apostrophes removed and stripped again. */
  function Unquoted(t: string): string {
    Text.Strip(Seqs.Filter(NotApostrophe, Seqs.Filter(NotQuote, t)))
  }

  lemma UnquotedReference(raw: string)
    ensures Reference(Unquoted(Text.Strip(raw))) == Reference(raw)
  {
    var t := Text.Strip(raw);
    var q := Seqs.Filter(NotApostrophe, Seqs.Filter(NotQuote, t));
    ReferenceStrip(raw);
    ReferenceIgnores(NotQuote, t);
    ReferenceIgnores(NotApostrophe, Seqs.Filter(NotQuote, t));
    ReferenceStrip(q);
  }

  // ---------------------------------------------------------------------------
  // What the cleaned token consists of
  // ---------------------------------------------------------------------------

  /** The cleaned token holds only characters `float` is given: digits, '.' and '-'. */
  lemma {:induction false} ReferenceNumeric(s: string)
    ensures forall i :: 0 <= i < |Reference(s)| ==> IsNumeric(Reference(s)[i])
  {
    if |s| > 0 {
      ReferenceNumeric(s[1..]);
      var head := Contribution(s[0]);
      forall i | 0 <= i < |Reference(s)|
        ensures IsNumeric(Reference(s)[i])
      {
        if i >= |head| {
          assert Reference(s)[i] == Reference(s[1..])[i - |head|];
        }
      }
    }
  }

  /** Every ',' of the input, and nothing else, becomes a '.' of the cleaned token. */
  lemma {:induction false} ReferenceDots(s: string)
    ensures Count(Reference(s), '.') == Count(s, ',')
  {
    if |s| > 0 {
      ReferenceDots(s[1..]);
      CountAppend(Contribution(s[0]), Reference(s[1..]), '.');
    }
  }

  /** The digits and minus signs of the input are kept, in order. */
  lemma {:induction false} ReferenceKeepsDigits(s: string)
    ensures Seqs.Filter(IsDigitOrMinus, Reference(s)) == Seqs.Filter(IsDigitOrMinus, s)
  {
    if |s| > 0 {
      ReferenceKeepsDigits(s[1..]);
      Seqs.FilterAppend(IsDigitOrMinus, Contribution(s[0]), Reference(s[1..]));
    }
  }

  lemma {:induction false} CountAppend(a: string, b: string, c: char)
    ensures Count(a + b, c) == Count(a, c) + Count(b, c)
  {
    if |a| > 0 {
      assert (a + b)[1..] == a[1..] + b;
      CountAppend(a[1..], b, c);
    } else {
      assert a + b == b;
    }
  }

  /**
   * Thousands and decimal separators: "1.234,5" reads as 1234.5 and "1,5"
   * as 1.5.
   */
  lemma CommaExamples()
    ensures CleanToken(Some("1.234,5")) == Some("1234.5")
    ensures CleanToken(Some("1,5")) == Some("1.5")
  {
    ThousandsExample();
    DecimalCommaExample();
  }

  lemma ThousandsExample()
    ensures CleanToken(Some("1.234,5")) == Some("1234.5")
  {
    CleanExample("1.234,5");
    ThousandsReference();
  }

  lemma ThousandsReference()
    ensures Reference("1.234,5") == "1234.5"
  {
    TailReference();
    assert Reference(".234,5") == "234.5" by { ReferenceCons('.', "234,5"); }
    assert Reference("1.234,5") == "1234.5" by { ReferenceCons('1', ".234,5"); }
  }

  lemma TailReference()
    ensures Reference("234,5") == "234.5"
  {
    assert Reference("5") == "5" by { ReferenceCons('5', ""); }
    assert Reference(",5") == ".5" by { ReferenceCons(',', "5"); }
    assert Reference("4,5") == "4.5" by { ReferenceCons('4', ",5"); }
    assert Reference("34,5") == "34.5" by { ReferenceCons('3', "4,5"); }
    assert Reference("234,5") == "234.5" by { ReferenceCons('2', "34,5"); }
  }

  lemma DecimalCommaExample()
    ensures CleanToken(Some("1,5")) == Some("1.5")
  {
    CleanExample("1,5");
    assert Reference("5") == "5" by { ReferenceCons('5', ""); }
    assert Reference(",5") == ".5" by { ReferenceCons(',', "5"); }
    assert Reference("1,5") == "1.5" by { ReferenceCons('1', ",5"); }
  }

  /** A token with dots only has them all removed, so "1.5" reads as 15. */
  lemma DotOnlyExample()
    ensures CleanToken(Some("1.5")) == Some("15")
  {
    CleanExample("1.5");
    assert Reference("5") == "5" by { ReferenceCons('5', ""); }
    assert Reference(".5") == "5" by { ReferenceCons('.', "5"); }
    assert Reference("1.5") == "15" by { ReferenceCons('1', ".5"); }
  }

  lemma ReferenceCons(c: char, s: string)
    ensures Reference([c] + s) == Contribution(c) + Reference(s)
  {
    assert ([c] + s)[1..] == s;
  }

  lemma CleanExample(s: string)
    requires |s| > 0 && !Text.IsSpace(s[0]) && !Text.IsSpace(s[|s| - 1])
    ensures CleanToken(Some(s)) == Some(Reference(s))
  {
    Text.StripTrimmed(s);
    CleanTokenSpec(s);
  }

  /** A blank token gives `None`. */
  lemma BlankToken()
    ensures CleanToken(Some(" \t ")) == None
  {
    var s: string := [' ', '\t', ' '];
    assert s == " \t ";
    assert Text.LeadingSpaces(s) == 3;
  }
}

=== FILE: pipeline.dfy ===
/**
 * The build pass and the search together: searching the file and index
 * that `write_from_clean_csv` built (src/writer.py) with
 * `search_by_municipio` (src/indexer.py).
 */
module Pipeline {
  import opened Wrappers
  import Bytes
  import Text
  import Utf8
  import Codec
  import Writer
  import Query

  /** A record of the store: the one written for row `k`, which is filed under `key`. */
  predicate RecordOfRow(rows: seq<Writer.Row>, p: Writer.Parsers, pad: Writer.Padding, key: string, k: int, r: Codec.Record) {
    && 0 <= k < |rows|
    && Writer.Key(rows[k]) == key
    && Writer.ParseRow(rows[k], p).Ok?
    && Writer.ParseRow(rows[k], p).value.ibge >= 0 && Writer.ParseRow(rows[k], p).value.year >= 0
    && Writer.ReadBack(Writer.ParseRow(rows[k], p).value, pad) == Ok(r)
  }

  /** The 64-byte name field written for row `k` is not valid UTF-8, so reading its record raises. */
  predicate Undecodable(rows: seq<Writer.Row>, pad: Writer.Padding, k: int) {
    0 <= k < |rows| && Utf8.Decode(Writer.NameField(pad, Writer.Get(rows[k], "municipio", ""))).None?
  }

  /** Record `k` of `file` reads back as row `k`'s values do, for every row. */
  predicate ReadsBack(rows: seq<Writer.Row>, p: Writer.Parsers, pad: Writer.Padding, file: seq<Bytes.byte>) {
    forall k :: 0 <= k < |rows| ==>
      && Writer.ParseRow(rows[k], p).Ok?
      && Writer.ParseRow(rows[k], p).value.ibge >= 0 && Writer.ParseRow(rows[k], p).value.year >= 0
      && Codec.ReadRecordAt(file, Codec.Offset(k)) == Writer.ReadBack(Writer.ParseRow(rows[k], p).value, pad)
  }

  /** What a successful build pass leaves behind: the index of its rows, and a file that reads back row by row. */
  lemma BuiltStore(rows: seq<Writer.Row>, p: Writer.Parsers, pad: Writer.Padding, file: seq<Bytes.byte>,
                   index: map<string, seq<nat>>)
    requires Writer.Build(rows, p, pad) == Ok(Writer.Store(file, index))
    ensures Writer.IndexOf(rows, Writer.Key, index)
    ensures ReadsBack(rows, p, pad, file)
  {
    Writer.WriterOfStride(p, pad);
    Writer.BuildIndex(rows, Writer.WriterOf(p, pad), Writer.Key);
    Writer.BuildReadBack(rows, p, pad);
  }

  /** Reading record `k` of a built file raises exactly when its name field does not decode, and then `UnicodeDecodeError`. */
  lemma BuiltRead(rows: seq<Writer.Row>, p: Writer.Parsers, pad: Writer.Padding, file: seq<Bytes.byte>, k: nat)
    requires ReadsBack(rows, p, pad, file) && k < |rows|
    ensures Query.Reader(file)(Codec.Offset(k)).Err? <==> Undecodable(rows, pad, k)
    ensures Query.Reader(file)(Codec.Offset(k)).Err? ==> Query.Reader(file)(Codec.Offset(k)) == Err(Codec.DecodeError)
  {
    assert Writer.ParseRow(rows[k], p).value.municipio == Writer.Get(rows[k], "municipio", "");
  }

  /** An offset on a record boundary is the offset of record number `o / Stride`. */
  lemma RowOffset(o: nat)
    requires o % Codec.Stride == 0
    ensures o == Codec.Offset(o / Codec.Stride)
  {
  }

  /** Each offset an index of `rows` lists under `key` is that of a row with that key. */
  lemma ListedRows(rows: seq<Writer.Row>, keyOf: Writer.Row -> string, index: map<string, seq<nat>>, key: string)
    requires Writer.IndexOf(rows, keyOf, index)
    ensures forall i :: 0 <= i < |Query.Lookup(index, key)| ==>
      var o := Query.Lookup(index, key)[i];
      o == Codec.Offset(o / Codec.Stride) && o / Codec.Stride < |rows| && keyOf(rows[o / Codec.Stride]) == key
  {
    var offsets := Query.Lookup(index, key);
    forall i | 0 <= i < |offsets|
      ensures offsets[i] == Codec.Offset(offsets[i] / Codec.Stride)
      ensures offsets[i] / Codec.Stride < |rows| && keyOf(rows[offsets[i] / Codec.Stride]) == key
    {
      assert Writer.IsOffsetOf(rows, keyOf, key, offsets[i]);
      RowOffset(offsets[i]);
    }
  }

  /** Each row with key `key` has its offset listed under `key`. */
  lemma ListedAll(rows: seq<Writer.Row>, keyOf: Writer.Row -> string, index: map<string, seq<nat>>, key: string, k: nat)
    requires Writer.IndexOf(rows, keyOf, index)
    requires k < |rows| && keyOf(rows[k]) == key
    ensures Codec.Offset(k) in Query.Lookup(index, key)
  {
  }

  /** Each offset an index of `rows` lists reads without error when every row's record does. */
  lemma ListedReads(rows: seq<Writer.Row>, keyOf: Writer.Row -> string, index: map<string, seq<nat>>, key: string,
                    read: Query.RecordReader)
    requires Writer.IndexOf(rows, keyOf, index)
    requires forall k :: 0 <= k < |rows| ==> read(Codec.Offset(k)).Ok?
    ensures forall i :: 0 <= i < |Query.Lookup(index, key)| ==> read(Query.Lookup(index, key)[i]).Ok?
  {
    var offsets := Query.Lookup(index, key);
    ListedRows(rows, keyOf, index, key);
    forall i | 0 <= i < |offsets|
      ensures read(offsets[i]).Ok?
    {
      var k := offsets[i] / Codec.Stride;
      assert read(Codec.Offset(k)).Ok?;
    }
  }

  /**
   * A search over the offsets an index of `rows` lists under `key` fails
   * exactly when the record of a row with that key cannot be read, and
   * then with the exception of such a read.
   */
  lemma SearchIndexedFails(rows: seq<Writer.Row>, keyOf: Writer.Row -> string, index: map<string, seq<nat>>, key: string,
                           read: Query.RecordReader, c: Query.Criteria, page: int, pageSize: int)
    requires Writer.IndexOf(rows, keyOf, index)
    ensures Query.SearchOffsets(read, Query.Lookup(index, key), c, page, pageSize).Err?
        <==> exists k :: 0 <= k < |rows| && keyOf(rows[k]) == key && read(Codec.Offset(k)).Err?
    ensures Query.SearchOffsets(read, Query.Lookup(index, key), c, page, pageSize).Err? ==>
      exists k :: 0 <= k < |rows| && keyOf(rows[k]) == key
                  && read(Codec.Offset(k)) == Err(Query.SearchOffsets(read, Query.Lookup(index, key), c, page, pageSize).error)
  {
    var offsets := Query.Lookup(index, key);
    ListedRows(rows, keyOf, index, key);
    Query.SearchFails(read, offsets, c, page, pageSize);
    if Query.SearchOffsets(read, offsets, c, page, pageSize).Err? {
      var j := Query.ReadAllFirstError(read, offsets);
      var k := offsets[j] / Codec.Stride;
      assert read(Codec.Offset(k)) == Err(Query.SearchOffsets(read, offsets, c, page, pageSize).error);
    } else {
      forall k | 0 <= k < |rows| && keyOf(rows[k]) == key
        ensures read(Codec.Offset(k)).Ok?
      {
        ListedAll(rows, keyOf, index, key, k);
        var i :| 0 <= i < |offsets| && offsets[i] == Codec.Offset(k);
      }
    }
  }

  /** A successful search over the offsets listed under `key` returns only records read at the offset of a row with that key. */
  lemma SearchIndexedSound(rows: seq<Writer.Row>, keyOf: Writer.Row -> string, index: map<string, seq<nat>>, key: string,
                           read: Query.RecordReader, c: Query.Criteria, page: int, pageSize: int)
    requires Writer.IndexOf(rows, keyOf, index)
    requires Query.SearchOffsets(read, Query.Lookup(index, key), c, page, pageSize).Ok?
    ensures forall r :: r in Query.SearchOffsets(read, Query.Lookup(index, key), c, page, pageSize).value.page ==>
      exists k :: 0 <= k < |rows| && keyOf(rows[k]) == key && read(Codec.Offset(k)) == Ok(r)
  {
    var offsets := Query.Lookup(index, key);
    ListedRows(rows, keyOf, index, key);
    Query.SearchSound(read, offsets, c, page, pageSize);
    forall r | r in Query.SearchOffsets(read, offsets, c, page, pageSize).value.page
      ensures exists k :: 0 <= k < |rows| && keyOf(rows[k]) == key && read(Codec.Offset(k)) == Ok(r)
    {
      var i :| 0 <= i < |offsets| && read(offsets[i]) == Ok(r);
      var k := offsets[i] / Codec.Stride;
      assert read(Codec.Offset(k)) == Ok(r);
    }
  }

  /**
   * Searching a built store fails exactly when a row filed under the
   * normalised query name has a name field that does not decode, and then
   * with `UnicodeDecodeError`; otherwise every record it returns is the
   * record written for such a row.
   */
  lemma SearchBuilt(rows: seq<Writer.Row>, p: Writer.Parsers, pad: Writer.Padding, file: seq<Bytes.byte>,
                    index: map<string, seq<nat>>, name: string, c: Query.Criteria, page: int, pageSize: int)
    requires Writer.Build(rows, p, pad) == Ok(Writer.Store(file, index))
    ensures Query.Search(Query.Reader(file), index, name, c, page, pageSize).Err?
        <==> exists k :: Undecodable(rows, pad, k) && Writer.Key(rows[k]) == Text.NormalizeText(Some(name))
    ensures Query.Search(Query.Reader(file), index, name, c, page, pageSize).Err? ==>
      Query.Search(Query.Reader(file), index, name, c, page, pageSize) == Err(Codec.DecodeError)
    ensures Query.Search(Query.Reader(file), index, name, c, page, pageSize).Ok? ==>
      forall r :: r in Query.Search(Query.Reader(file), index, name, c, page, pageSize).value.page ==>
        exists k :: RecordOfRow(rows, p, pad, Text.NormalizeText(Some(name)), k, r)
  {
    var key := Text.NormalizeText(Some(name));
    var read := Query.Reader(file);
    BuiltStore(rows, p, pad, file, index);
    SearchIndexedFails(rows, Writer.Key, index, key, read, c, page, pageSize);
    forall k | 0 <= k < |rows|
      ensures read(Codec.Offset(k)).Err? <==> Undecodable(rows, pad, k)
      ensures read(Codec.Offset(k)).Err? ==> read(Codec.Offset(k)) == Err(Codec.DecodeError)
    {
      BuiltRead(rows, p, pad, file, k);
    }
    if Query.Search(read, index, name, c, page, pageSize).Ok? {
      SearchIndexedSound(rows, Writer.Key, index, key, read, c, page, pageSize);
      forall r | r in Query.Search(read, index, name, c, page, pageSize).value.page
        ensures exists k :: RecordOfRow(rows, p, pad, key, k, r)
      {
        var k :| 0 <= k < |rows| && Writer.Key(rows[k]) == key && read(Codec.Offset(k)) == Ok(r);
        assert RecordOfRow(rows, p, pad, key, k, r);
      }
    }
  }

  /** With the corrected name field no search of a built store fails. */
  lemma SearchBuiltAtBoundary(rows: seq<Writer.Row>, p: Writer.Parsers, file: seq<Bytes.byte>,
                              index: map<string, seq<nat>>, name: string, c: Query.Criteria, page: int, pageSize: int)
    requires Writer.Build(rows, p, Writer.AtBoundary) == Ok(Writer.Store(file, index))
    ensures Query.Search(Query.Reader(file), index, name, c, page, pageSize).Ok?
  {
    SearchBuilt(rows, p, Writer.AtBoundary, file, index, name, c, page, pageSize);
    forall k | 0 <= k < |rows|
      ensures !Undecodable(rows, Writer.AtBoundary, k)
    {
      Codec.PadMunSafeDecodes(Writer.Get(rows[k], "municipio", ""), Codec.MunLen);
    }
  }

  /** With `pad_mun_bytes` as written, a store whose names all fit in 64 bytes never fails a search. */
  lemma SearchBuiltShortNames(rows: seq<Writer.Row>, p: Writer.Parsers, file: seq<Bytes.byte>,
                              index: map<string, seq<nat>>, name: string, c: Query.Criteria, page: int, pageSize: int)
    requires Writer.Build(rows, p, Writer.AsWritten) == Ok(Writer.Store(file, index))
    requires forall k :: 0 <= k < |rows| ==> |Utf8.Encode(Writer.Get(rows[k], "municipio", ""))| <= Codec.MunLen
    ensures Query.Search(Query.Reader(file), index, name, c, page, pageSize).Ok?
  {
    SearchBuilt(rows, p, Writer.AsWritten, file, index, name, c, page, pageSize);
    forall k | 0 <= k < |rows|
      ensures !Undecodable(rows, Writer.AsWritten, k)
    {
      Codec.PadMunBytesFits(Writer.Get(rows[k], "municipio", ""), Codec.MunLen);
    }
  }

  /**
   * With `pad_mun_bytes` as written, a row named 63 "a"s and an "ã" makes
   * every search for its own name raise `UnicodeDecodeError`: the cut at
   * 64 bytes splits the "ã".
   */
  lemma SearchSplitName(rows: seq<Writer.Row>, p: Writer.Parsers, file: seq<Bytes.byte>, index: map<string, seq<nat>>,
                        k: nat, c: Query.Criteria, page: int, pageSize: int)
    requires Writer.Build(rows, p, Writer.AsWritten) == Ok(Writer.Store(file, index))
    requires k < |rows| && Writer.Get(rows[k], "municipio", "") == Codec.Repeat('a', 63) + "ã"
    ensures Query.Search(Query.Reader(file), index, Codec.Repeat('a', 63) + "ã", c, page, pageSize) == Err(Codec.DecodeError)
  {
    Codec.PadMunBytesSplitsChar();
    SearchBuilt(rows, p, Writer.AsWritten, file, index, Codec.Repeat('a', 63) + "ã", c, page, pageSize);
    assert Undecodable(rows, Writer.AsWritten, k);
  }

  /**
   * A name that fits the 64-byte field reads back, with either name field,
   * as a name with the same index key as its row: searching for the name
   * shown finds the row again.
   */
  lemma StoredNameKey(row: Writer.Row, v: Writer.RowValues, pad: Writer.Padding)
    requires v.municipio == Writer.Get(row, "municipio", "") && v.ibge >= 0 && v.year >= 0
    requires |Utf8.Encode(v.municipio)| <= Codec.MunLen
    ensures Writer.ReadBack(v, pad).Ok?
    ensures Text.NormalizeText(Some(Writer.ReadBack(v, pad).value.municipio)) == Writer.Key(row)
  {
    Writer.ReadBackFits(v, pad);
    Text.NormalizeTextOfStripped(v.municipio);
  }
}

=== FILE: query.dfy ===
/**
 * `search_by_municipio` (src/indexer.py): look `normalize_text` of the name
 * up in the index, read the record at every offset listed under it, keep the
 * ones inside the year range and of the requested sex, sort them stably by
 * year and return one page of them with the number of records kept.
 *
 * Reading the binary file is the parameter `read` (offset to record, or
 * the exception `read_record_at` raises); `Reader(file)` is the reader of
 * a file holding `file`.
 */
module Query {
  import opened Wrappers
  import opened Seqs
  import Bytes
  import Text
  import Codec

  /** How `read_record_at` reads the record at an offset. */
  type RecordReader = nat -> Result<Codec.Record, Codec.Error>

  /** The reader of a binary file holding `file`. */
  function Reader(file: seq<Bytes.byte>): RecordReader {
    (o: nat) => Codec.ReadRecordAt(file, o)
  }

  /** The optional filters: `year_from`, `year_to` and `sexo`. */
  datatype Criteria = Criteria(yearFrom: Option<int>, yearTo: Option<int>, sexo: Option<string>)

  /** One page of results and the number of records that passed the filters. */
  datatype Hits = Hits(page: seq<Codec.Record>, total: nat)

  /** The checks of the loop body: a record is skipped when one of them fails. */
  predicate Matches(c: Criteria, r: Codec.Record) {
    && !(c.yearFrom.Some? && r.year < c.yearFrom.value)
    && !(c.yearTo.Some? && r.year > c.yearTo.value)
    && !(c.sexo.Some? && c.sexo.value != "" && r.sexo != c.sexo.value)
  }

  /** `Matches` as a filter. */
  function Keeps(c: Criteria): Codec.Record -> bool {
    (r: Codec.Record) => Matches(c, r)
  }

  /** `index.get(key, [])`. */
  function Lookup(index: map<string, seq<nat>>, key: string): seq<nat> {
    if key in index then index[key] else []
  }

  /** The records at `offsets`, in order, or the exception of the first read that fails. */
  function ReadAll(read: RecordReader, offsets: seq<nat>): Result<seq<Codec.Record>, Codec.Error>
    decreases |offsets|
  {
    if |offsets| == 0 then Ok([])
    else
      match read(offsets[0])
      case Err(e) => Err(e)
      case Ok(r) =>
        match ReadAll(read, offsets[1..])
        case Err(e) => Err(e)
        case Ok(rs) => Ok([r] + rs)
  }

  // ---------------------------------------------------------------------------
  // Stable sort by year
  // ---------------------------------------------------------------------------

  /** Non-decreasing by year. */
  predicate SortedByYear(s: seq<Codec.Record>) {
    forall i, j :: 0 <= i < j < |s| ==> s[i].year <= s[j].year
  }

  /** The records of year `y`. */
  function YearIs(y: nat): Codec.Record -> bool {
    (r: Codec.Record) => r.year == y
  }

  /** Put `x` in front of the first record of `t` whose year is not smaller. */
  function InsertByYear(x: Codec.Record, t: seq<Codec.Record>): seq<Codec.Record>
    decreases |t|
  {
    if |t| == 0 || x.year <= t[0].year then [x] + t
    else [t[0]] + InsertByYear(x, t[1..])
  }

  /** `records.sort(key=lambda r: r['year'])`, by insertion from the back. */
  function SortByYear(s: seq<Codec.Record>): seq<Codec.Record>
    decreases |s|
  {
    if |s| == 0 then [] else InsertByYear(s[0], SortByYear(s[1..]))
  }

  // ---------------------------------------------------------------------------
  // Python slicing and pages
  // ---------------------------------------------------------------------------

  /** How a slice bound `i` of `s[i:j]` resolves on a sequence of length `n`. */
  function SliceBound(i: int, n: nat): (b: nat)
    ensures b <= n
  {
    if i < 0 then (if n + i < 0 then 0 else n + i) else if i > n then n else i
  }

  /** Python's `s[start:stop]`, negative bounds counting from the end. */
  function PySlice<T>(s: seq<T>, start: int, stop: int): seq<T> {
    var lo := SliceBound(start, |s|);
    var hi := SliceBound(stop, |s|);
    if hi <= lo then [] else s[lo..hi]
  }

  /** The page `page` (from 1) of `pageSize` records. */
  function PageOf<T>(s: seq<T>, page: int, pageSize: int): seq<T> {
    var start := (page - 1) * pageSize;
    PySlice(s, start, start + pageSize)
  }

  // ---------------------------------------------------------------------------
  // Search
  // ---------------------------------------------------------------------------

  /** The records at `offsets` that pass the filters, sorted stably by year. */
  function Matching(recs: seq<Codec.Record>, c: Criteria): seq<Codec.Record> {
    SortByYear(Filter(Keeps(c), recs))
  }

  /** The search over the offsets listed under one key. */
  function SearchOffsets(read: RecordReader, offsets: seq<nat>, c: Criteria, page: int, pageSize: int)
    : Result<Hits, Codec.Error>
  {
    match ReadAll(read, offsets)
    case Err(e) => Err(e)
    case Ok(recs) =>
      var kept := Matching(recs, c);
      Ok(Hits(PageOf(kept, page, pageSize), |kept|))
  }

  /** `search_by_municipio`, with `normalize_text` of the name as its index key. */
  function Search(read: RecordReader, index: map<string, seq<nat>>, name: string, c: Criteria, page: int, pageSize: int)
    : Result<Hits, Codec.Error>
  {
    SearchOffsets(read, Lookup(index, Text.NormalizeText(Some(name))), c, page, pageSize)
  }

  // ---------------------------------------------------------------------------
  // Reading the offsets
  // ---------------------------------------------------------------------------

  /** Every offset is read, in order: the reads succeed exactly when each one does. */
  lemma {:induction false} ReadAllSpec(read: RecordReader, offsets: seq<nat>)
    ensures ReadAll(read, offsets).Ok? <==> forall i :: 0 <= i < |offsets| ==> read(offsets[i]).Ok?
    ensures ReadAll(read, offsets).Ok? ==>
      && |ReadAll(read, offsets).value| == |offsets|
      && forall i :: 0 <= i < |offsets| ==> read(offsets[i]) == Ok(ReadAll(read, offsets).value[i])
    decreases |offsets|
  {
    if |offsets| > 0 {
      ReadAllSpec(read, offsets[1..]);
      if read(offsets[0]).Ok? && ReadAll(read, offsets[1..]).Ok? {
        var rs := ReadAll(read, offsets[1..]).value;
        assert ReadAll(read, offsets).value == [read(offsets[0]).value] + rs;
        forall i | 0 < i < |offsets|
          ensures read(offsets[i]) == Ok(ReadAll(read, offsets).value[i])
        {
          assert offsets[1..][i - 1] == offsets[i];
        }
      } else if read(offsets[0]).Ok? {
        var i :| 0 <= i < |offsets[1..]| && !read(offsets[1..][i]).Ok?;
        assert !read(offsets[i + 1]).Ok?;
      }
    }
  }

  /** A failed search reports the exception of the first offset that cannot be read. */
  lemma {:induction false} ReadAllFirstError(read: RecordReader, offsets: seq<nat>) returns (k: nat)
    requires ReadAll(read, offsets).Err?
    ensures k < |offsets|
    ensures forall i :: 0 <= i < k ==> read(offsets[i]).Ok?
    ensures read(offsets[k]) == Err(ReadAll(read, offsets).error)
    decreases |offsets|
  {
    if read(offsets[0]).Err? {
      k := 0;
    } else {
      var k' := ReadAllFirstError(read, offsets[1..]);
      k := k' + 1;
      forall i | 0 < i < k
        ensures read(offsets[i]).Ok?
      {
        assert offsets[1..][i - 1] == offsets[i];
      }
    }
  }

  // ---------------------------------------------------------------------------
  // The sort
  // ---------------------------------------------------------------------------

  /** Inserting keeps the records. */
  lemma {:induction false} InsertPermutes(x: Codec.Record, t: seq<Codec.Record>)
    ensures multiset(InsertByYear(x, t)) == multiset([x] + t)
    decreases |t|
  {
    if |t| > 0 && x.year > t[0].year {
      InsertPermutes(x, t[1..]);
      assert t == [t[0]] + t[1..];
    }
  }

  /** Inserting into a sorted sequence keeps it sorted. */
  lemma {:induction false} InsertSorted(x: Codec.Record, t: seq<Codec.Record>)
    requires SortedByYear(t)
    ensures SortedByYear(InsertByYear(x, t))
    ensures |InsertByYear(x, t)| > 0
    ensures InsertByYear(x, t)[0] == x || (|t| > 0 && InsertByYear(x, t)[0] == t[0])
    decreases |t|
  {
    if |t| > 0 && x.year > t[0].year {
      InsertSorted(x, t[1..]);
      var u := InsertByYear(x, t[1..]);
      InsertPermutes(x, t[1..]);
      assert u[0] in multiset([x] + t[1..]);
      assert u[0] == x || u[0] in t[1..];
      forall j | 0 < j < |[t[0]] + u|
        ensures t[0].year <= ([t[0]] + u)[j].year
      {
        var v := ([t[0]] + u)[j];
        assert v == u[j - 1];
        if j - 1 > 0 {
          assert u[0].year <= v.year;
        }
      }
    }
  }

  /** The sort permutes the records into year order. */
  lemma {:induction false} SortSpec(s: seq<Codec.Record>)
    ensures SortedByYear(SortByYear(s))
    ensures multiset(SortByYear(s)) == multiset(s)
    ensures |SortByYear(s)| == |s|
    decreases |s|
  {
    if |s| > 0 {
      SortSpec(s[1..]);
      InsertSorted(s[0], SortByYear(s[1..]));
      InsertPermutes(s[0], SortByYear(s[1..]));
      assert s == [s[0]] + s[1..];
    }
    assert |SortByYear(s)| == |multiset(SortByYear(s))|;
  }

  /** Inserting `x` keeps it before every record of its own year. */
  lemma {:induction false} InsertStable(y: nat, x: Codec.Record, t: seq<Codec.Record>)
    ensures Filter(YearIs(y), InsertByYear(x, t)) == Filter(YearIs(y), [x] + t)
    decreases |t|
  {
    if |t| > 0 && x.year > t[0].year {
      var u := InsertByYear(x, t[1..]);
      InsertStable(y, x, t[1..]);
      var a := Filter(YearIs(y), [t[0]]);
      var b := Filter(YearIs(y), [x]);
      var r := Filter(YearIs(y), t[1..]);
      assert a == [] || b == [] by {
        assert a == (if t[0].year == y then [t[0]] else []);
        assert b == (if x.year == y then [x] else []);
      }
      calc {
        Filter(YearIs(y), InsertByYear(x, t));
        { assert InsertByYear(x, t) == [t[0]] + u; FilterAppend(YearIs(y), [t[0]], u); }
        a + Filter(YearIs(y), u);
        { FilterAppend(YearIs(y), [x], t[1..]); }
        a + (b + r);
        b + (a + r);
        { assert [t[0]] + t[1..] == t; FilterAppend(YearIs(y), [t[0]], t[1..]); }
        b + Filter(YearIs(y), t);
        { FilterAppend(YearIs(y), [x], t); }
        Filter(YearIs(y), [x] + t);
      }
    }
  }

  /** The sort is stable: the records of each year keep their relative order. */
  lemma {:induction false} SortStable(y: nat, s: seq<Codec.Record>)
    ensures Filter(YearIs(y), SortByYear(s)) == Filter(YearIs(y), s)
    decreases |s|
  {
    if |s| > 0 {
      SortStable(y, s[1..]);
      InsertStable(y, s[0], SortByYear(s[1..]));
      FilterAppend(YearIs(y), [s[0]], SortByYear(s[1..]));
      FilterAppend(YearIs(y), [s[0]], s[1..]);
      assert s == [s[0]] + s[1..];
    }
  }

  // ---------------------------------------------------------------------------
  // Pages
  // ---------------------------------------------------------------------------

  /** The first record of page `page` (from 1) and the one after its last, before cutting at the end. */
  lemma PageStart(page: int, pageSize: int)
    requires page >= 1 && pageSize >= 1
    ensures 0 <= (page - 1) * pageSize < page * pageSize
    ensures (page - 1) * pageSize + pageSize == page * pageSize
  {
    assert (page - 1) * pageSize == page * pageSize - pageSize;
  }

  /**
   * A page from 1 with a positive size holds the records from
   * `(page - 1) * pageSize` up to `page * pageSize`, cut at the end: at most
   * `pageSize` of them, none past the end.
   */
  lemma PageSpec<T>(s: seq<T>, page: int, pageSize: int)
    requires page >= 1 && pageSize >= 1
    ensures var start := (page - 1) * pageSize;
            var lo := if start < |s| then start else |s|;
            var hi := if start + pageSize < |s| then start + pageSize else |s|;
            0 <= lo <= hi && PageOf(s, page, pageSize) == s[lo..hi]
    ensures |PageOf(s, page, pageSize)| <= pageSize
    ensures (page - 1) * pageSize >= |s| ==> PageOf(s, page, pageSize) == []
  {
    PageStart(page, pageSize);
  }

  /** Page 0 is always empty (its bounds resolve to `[-pageSize:0]`). */
  lemma PageZero<T>(s: seq<T>, pageSize: int)
    requires pageSize >= 0
    ensures PageOf(s, 0, pageSize) == []
  {
  }

  /** A negative page counts from the end: page -1 of size 1 is the next-to-last record. */
  lemma NegativePage()
    ensures PageOf([10, 20, 30], -1, 1) == [20]
  {
    assert SliceBound(-2, 3) == 1 && SliceBound(-1, 3) == 2;
  }

  /** Pages 1 to `m`, one after the other. */
  function Pages<T>(s: seq<T>, pageSize: int, m: nat): seq<T> {
    if m == 0 then [] else Pages(s, pageSize, m - 1) + PageOf(s, m, pageSize)
  }

  /** Pages 1 to `m` are the first `m * pageSize` records: paging loses and repeats nothing. */
  lemma {:induction false} PagesPrefix<T>(s: seq<T>, pageSize: int, m: nat)
    requires pageSize >= 1
    ensures Pages(s, pageSize, m) == s[..if m * pageSize < |s| then m * pageSize else |s|]
  {
    if m > 0 {
      PagesPrefix(s, pageSize, m - 1);
      PageSpec(s, m, pageSize);
      PageStart(m, pageSize);
      var start := (m - 1) * pageSize;
      var lo := if start < |s| then start else |s|;
      var hi := if start + pageSize < |s| then start + pageSize else |s|;
      assert Pages(s, pageSize, m) == s[..lo] + s[lo..hi];
      assert hi == if m * pageSize < |s| then m * pageSize else |s|;
      assert s[..lo] + s[lo..hi] == s[..hi];
    }
  }

  /** Enough pages cover every record. */
  lemma PagesCover<T>(s: seq<T>, pageSize: int, m: nat)
    requires pageSize >= 1 && m * pageSize >= |s|
    ensures Pages(s, pageSize, m) == s
  {
    PagesPrefix(s, pageSize, m);
  }

  // ---------------------------------------------------------------------------
  // The search
  // ---------------------------------------------------------------------------

  /** A name whose key is not in the index gives an empty page and a total of 0. */
  lemma SearchUnknownName(read: RecordReader, index: map<string, seq<nat>>, name: string, c: Criteria, page: int, pageSize: int)
    requires Text.NormalizeText(Some(name)) !in index
    ensures Search(read, index, name, c, page, pageSize) == Ok(Hits([], 0))
  {
    assert Lookup(index, Text.NormalizeText(Some(name))) == [];
  }

  /**
   * A search fails exactly when a record listed under the key cannot be
   * read, whatever the filters and the page.
   */
  lemma SearchFails(read: RecordReader, offsets: seq<nat>, c: Criteria, page: int, pageSize: int)
    ensures SearchOffsets(read, offsets, c, page, pageSize).Err?
        <==> exists i :: 0 <= i < |offsets| && read(offsets[i]).Err?
  {
    ReadAllSpec(read, offsets);
  }

  /**
   * Every record on a page is one read at a listed offset, and passes the
   * year bounds and the sex filter.
   */
  lemma SearchSound(read: RecordReader, offsets: seq<nat>, c: Criteria, page: int, pageSize: int)
    requires SearchOffsets(read, offsets, c, page, pageSize).Ok?
    ensures forall r :: r in SearchOffsets(read, offsets, c, page, pageSize).value.page ==>
      && (exists i :: 0 <= i < |offsets| && read(offsets[i]) == Ok(r))
      && (c.yearFrom.Some? ==> r.year >= c.yearFrom.value)
      && (c.yearTo.Some? ==> r.year <= c.yearTo.value)
      && (c.sexo.Some? && c.sexo.value != "" ==> r.sexo == c.sexo.value)
  {
    var recs := ReadAll(read, offsets).value;
    var all := Matching(recs, c);
    PageWithin(all, page, pageSize);
    MatchingWithin(recs, c);
    ReadAllMembers(read, offsets);
  }

  /** A page holds only records of the sequence it is cut from. */
  lemma PageWithin<T>(s: seq<T>, page: int, pageSize: int)
    ensures forall x :: x in PageOf(s, page, pageSize) ==> x in s
  {
    var lo := SliceBound((page - 1) * pageSize, |s|);
    var hi := SliceBound((page - 1) * pageSize + pageSize, |s|);
    forall x | x in PageOf(s, page, pageSize)
      ensures x in s
    {
      var pg := PageOf(s, page, pageSize);
      assert pg == s[lo..hi];
      var j :| 0 <= j < |pg| && pg[j] == x;
      assert x == s[lo + j];
    }
  }

  /** The sorted result holds exactly the records read that pass the filters. */
  lemma MatchingWithin(recs: seq<Codec.Record>, c: Criteria)
    ensures forall r :: r in Matching(recs, c) <==> r in recs && Matches(c, r)
  {
    SortSpec(Filter(Keeps(c), recs));
    FilterMembers(Keeps(c), recs);
    forall r
      ensures r in Matching(recs, c) <==> r in Filter(Keeps(c), recs)
    {
      assert r in Matching(recs, c) <==> r in multiset(Matching(recs, c));
    }
  }

  /** Every record read comes from a listed offset. */
  lemma ReadAllMembers(read: RecordReader, offsets: seq<nat>)
    requires ReadAll(read, offsets).Ok?
    ensures forall r :: r in ReadAll(read, offsets).value ==> exists i :: 0 <= i < |offsets| && read(offsets[i]) == Ok(r)
  {
    var recs := ReadAll(read, offsets).value;
    ReadAllSpec(read, offsets);
    forall r | r in recs
      ensures exists i :: 0 <= i < |offsets| && read(offsets[i]) == Ok(r)
    {
      var i :| 0 <= i < |recs| && recs[i] == r;
      assert read(offsets[i]) == Ok(r);
    }
  }

  /**
   * The records that pass the filters keep the order of their offsets: they
   * form a subsequence of the records read.
   */
  lemma SearchKeepsOrder(read: RecordReader, offsets: seq<nat>, c: Criteria)
    requires ReadAll(read, offsets).Ok?
    ensures SubSeq(Filter(Keeps(c), ReadAll(read, offsets).value), ReadAll(read, offsets).value)
  {
    FilterSubSeq(Keeps(c), ReadAll(read, offsets).value);
  }

  /**
   * The kept records are sorted by year, are exactly the records that pass
   * the filters, and keep their offset order within each year.
   */
  lemma MatchingSpec(recs: seq<Codec.Record>, c: Criteria)
    ensures SortedByYear(Matching(recs, c))
    ensures multiset(Matching(recs, c)) == multiset(Filter(Keeps(c), recs))
    ensures forall y: nat :: Filter(YearIs(y), Matching(recs, c)) == Filter(YearIs(y), Filter(Keeps(c), recs))
  {
    SortSpec(Filter(Keeps(c), recs));
    forall y: nat
      ensures Filter(YearIs(y), Matching(recs, c)) == Filter(YearIs(y), Filter(Keeps(c), recs))
    {
      SortStable(y, Filter(Keeps(c), recs));
    }
  }

  /**
   * The total is the number of records that pass the filters, whatever
   * the page asked for; the page is the slice of the sorted records it
   * names.
   */
  lemma SearchTotal(read: RecordReader, offsets: seq<nat>, c: Criteria, page: int, pageSize: int, page': int, pageSize': int)
    requires SearchOffsets(read, offsets, c, page, pageSize).Ok?
    ensures SearchOffsets(read, offsets, c, page', pageSize').Ok?
    ensures SearchOffsets(read, offsets, c, page, pageSize).value.total
         == SearchOffsets(read, offsets, c, page', pageSize').value.total
         == |Filter(Keeps(c), ReadAll(read, offsets).value)|
  {
    SortSpec(Filter(Keeps(c), ReadAll(read, offsets).value));
  }

  /** A page from 1 holds the records of the sorted result it names, at most `pageSize` of them. */
  lemma SearchPage(read: RecordReader, offsets: seq<nat>, c: Criteria, page: int, pageSize: int)
    requires SearchOffsets(read, offsets, c, page, pageSize).Ok? && page >= 1 && pageSize >= 1
    ensures var h := SearchOffsets(read, offsets, c, page, pageSize).value;
            var all := Matching(ReadAll(read, offsets).value, c);
            var start := (page - 1) * pageSize;
            var lo := if start < |all| then start else |all|;
            var hi := if start + pageSize < |all| then start + pageSize else |all|;
            && 0 <= lo <= hi && h.page == all[lo..hi]
            && |h.page| <= pageSize
            && ((page - 1) * pageSize >= h.total ==> h.page == [])
  {
    PageSpec(Matching(ReadAll(read, offsets).value, c), page, pageSize);
  }

  /** Criteria `d` are no stricter than `c`: wider year bounds, and a sex filter only if it is the same. */
  predicate Relaxes(c: Criteria, d: Criteria) {
    && (d.yearFrom.None? || (c.yearFrom.Some? && d.yearFrom.value <= c.yearFrom.value))
    && (d.yearTo.None? || (c.yearTo.Some? && d.yearTo.value >= c.yearTo.value))
    && (d.sexo.None? || d.sexo == Some("") || d.sexo == c.sexo)
  }

  /** Widening the year bounds or dropping the sex filter never lowers the total. */
  lemma SearchMonotone(read: RecordReader, offsets: seq<nat>, c: Criteria, d: Criteria, page: int, pageSize: int)
    requires Relaxes(c, d)
    requires SearchOffsets(read, offsets, c, page, pageSize).Ok?
    ensures SearchOffsets(read, offsets, d, page, pageSize).Ok?
    ensures SearchOffsets(read, offsets, c, page, pageSize).value.total
         <= SearchOffsets(read, offsets, d, page, pageSize).value.total
  {
    var recs := ReadAll(read, offsets).value;
    SortSpec(Filter(Keeps(c), recs));
    SortSpec(Filter(Keeps(d), recs));
    FilterMonotone(Keeps(c), Keeps(d), recs);
  }

  /** A sex filter of `""` is no filter at all. */
  lemma SearchBlankSex(read: RecordReader, offsets: seq<nat>, yearFrom: Option<int>, yearTo: Option<int>, page: int, pageSize: int)
    ensures SearchOffsets(read, offsets, Criteria(yearFrom, yearTo, Some("")), page, pageSize)
         == SearchOffsets(read, offsets, Criteria(yearFrom, yearTo, None), page, pageSize)
  {
    if ReadAll(read, offsets).Ok? {
      FilterExt(Keeps(Criteria(yearFrom, yearTo, Some(""))), Keeps(Criteria(yearFrom, yearTo, None)), ReadAll(read, offsets).value);
    }
  }

  /** The records of sex `s` within the year bounds. */
  function SexIs(s: string): Codec.Record -> bool {
    (r: Codec.Record) => r.sexo == s
  }

  /** Any other sex filter keeps exactly the records, within the year bounds, of that sex. */
  lemma SearchSexFilter(read: RecordReader, offsets: seq<nat>, yearFrom: Option<int>, yearTo: Option<int>, s: string)
    requires s != "" && ReadAll(read, offsets).Ok?
    ensures Filter(Keeps(Criteria(yearFrom, yearTo, Some(s))), ReadAll(read, offsets).value)
         == Filter(SexIs(s), Filter(Keeps(Criteria(yearFrom, yearTo, None)), ReadAll(read, offsets).value))
  {
    FilterFilter(SexIs(s), Keeps(Criteria(yearFrom, yearTo, None)), Keeps(Criteria(yearFrom, yearTo, Some(s))),
                 ReadAll(read, offsets).value);
  }
}

=== FILE: seqs.dfy ===
/** Order-preserving filtering of sequences, shared by the text rewriting and the query filter. */
module Seqs {

  /** The elements of `s` that satisfy `p`, in their original order (Python's `[x for x in s if p(x)]`). */
  function Filter<T>(p: T -> bool, s: seq<T>): (r: seq<T>)
    ensures |r| <= |s|
  {
    if |s| == 0 then [] else (if p(s[0]) then [s[0]] else []) + Filter(p, s[1..])
  }

  /** An element survives filtering exactly when it occurs in the input and passes `p`. */
  lemma {:induction false} FilterMembers<T>(p: T -> bool, s: seq<T>)
    ensures forall x :: x in Filter(p, s) <==> x in s && p(x)
  {
    if |s| > 0 {
      FilterMembers(p, s[1..]);
      assert s == [s[0]] + s[1..];
    }
  }

  /** Filtering distributes over concatenation. */
  lemma {:induction false} FilterAppend<T>(p: T -> bool, a: seq<T>, b: seq<T>)
    ensures Filter(p, a + b) == Filter(p, a) + Filter(p, b)
  {
    if |a| > 0 {
      assert (a + b)[0] == a[0];
      assert (a + b)[1..] == a[1..] + b;
      FilterAppend(p, a[1..], b);
    } else {
      assert a + b == b;
    }
  }

  /** Filtering keeps a sequence whose every element passes unchanged. */
  lemma {:induction false} FilterKeepsAll<T>(p: T -> bool, s: seq<T>)
    requires forall i :: 0 <= i < |s| ==> p(s[i])
    ensures Filter(p, s) == s
  {
    if |s| > 0 {
      FilterKeepsAll(p, s[1..]);
    }
  }

  /** Filtering drops every element of a sequence none of whose elements pass. */
  lemma {:induction false} FilterDropsAll<T>(p: T -> bool, s: seq<T>)
    requires forall i :: 0 <= i < |s| ==> !p(s[i])
    ensures Filter(p, s) == []
  {
    if |s| > 0 {
      FilterDropsAll(p, s[1..]);
    }
  }

  /** Filtering with a weaker predicate keeps at least as many elements. */
  lemma {:induction false} FilterMonotone<T>(p: T -> bool, q: T -> bool, s: seq<T>)
    requires forall x :: p(x) ==> q(x)
    ensures |Filter(p, s)| <= |Filter(q, s)|
  {
    if |s| > 0 {
      FilterMonotone(p, q, s[1..]);
    }
  }

  /** Filtering twice is filtering once with the conjunction. */
  lemma {:induction false} FilterFilter<T>(p: T -> bool, q: T -> bool, both: T -> bool, s: seq<T>)
    requires forall x :: both(x) == (p(x) && q(x))
    ensures Filter(p, Filter(q, s)) == Filter(both, s)
  {
    if |s| > 0 {
      FilterFilter(p, q, both, s[1..]);
      FilterAppend(p, if q(s[0]) then [s[0]] else [], Filter(q, s[1..]));
      if q(s[0]) {
        assert Filter(p, [s[0]]) == (if p(s[0]) then [s[0]] else []) + Filter(p, []);
      }
    }
  }

  /** `a` is `b` with some elements left out, the rest in their original order. */
  predicate SubSeq<T(==)>(a: seq<T>, b: seq<T>)
    decreases |b|
  {
    if |a| == 0 then true
    else if |b| == 0 then false
    else if a[0] == b[0] then SubSeq(a[1..], b[1..])
    else SubSeq(a, b[1..])
  }

  /** Filtering leaves a subsequence of its input. */
  lemma {:induction false} FilterSubSeq<T>(p: T -> bool, s: seq<T>)
    ensures SubSeq(Filter(p, s), s)
  {
    if |s| > 0 {
      FilterSubSeq(p, s[1..]);
      if p(s[0]) {
        assert Filter(p, s)[0] == s[0] && Filter(p, s)[1..] == Filter(p, s[1..]);
      } else {
        assert Filter(p, s) == Filter(p, s[1..]);
        SkipHead(Filter(p, s[1..]), s);
      }
    }
  }

  /** A subsequence of the tail is a subsequence of the whole. */
  lemma {:induction false} SkipHead<T>(a: seq<T>, b: seq<T>)
    requires |b| > 0 && SubSeq(a, b[1..])
    ensures SubSeq(a, b)
    decreases |b|, |a|
  {
    if |a| > 0 && a[0] == b[0] {
      SubSeqTail(a, b[1..]);
    }
  }

  /** Dropping the head of a non-empty subsequence keeps a subsequence. */
  lemma {:induction false} SubSeqTail<T>(a: seq<T>, b: seq<T>)
    requires |a| > 0 && SubSeq(a, b)
    ensures SubSeq(a[1..], b)
    decreases |b|, |a|
  {
    assert |b| > 0;
    if a[0] == b[0] {
      if |a| > 1 {
        SubSeqTail(a[1..], b[1..]);
        assert a[1..][1..] == a[2..];
      }
      SkipHead(a[1..], b);
    } else {
      SubSeqTail(a, b[1..]);
      SkipHead(a[1..], b);
    }
  }

  /** Filters that agree on every element filter alike. */
  lemma {:induction false} FilterExt<T>(p: T -> bool, q: T -> bool, s: seq<T>)
    requires forall x :: p(x) == q(x)
    ensures Filter(p, s) == Filter(q, s)
  {
    if |s| > 0 {
      FilterExt(p, q, s[1..]);
    }
  }

  /** The outputs of `f` on each element of `s`, one after the other (a loop that extends a list per element). */
  function FlatMap<T, U>(f: T -> seq<U>, s: seq<T>): seq<U>
    decreases |s|
  {
    if |s| == 0 then [] else FlatMap(f, s[..|s| - 1]) + f(s[|s| - 1])
  }

  /** The outputs for two batches of elements are the two outputs one after the other. */
  lemma {:induction false} FlatMapAppend<T, U>(f: T -> seq<U>, a: seq<T>, b: seq<T>)
    ensures FlatMap(f, a + b) == FlatMap(f, a) + FlatMap(f, b)
    decreases |b|
  {
    if |b| == 0 {
      assert a + b == a;
    } else {
      var b' := b[..|b| - 1];
      FlatMapAppend(f, a, b');
      assert (a + b)[..|a + b| - 1] == a + b';
      assert (a + b)[|a + b| - 1] == b[|b| - 1];
    }
  }

  /** An output comes from some element, and every output of every element is there. */
  lemma {:induction false} FlatMapMembers<T, U>(f: T -> seq<U>, s: seq<T>)
    ensures forall y :: y in FlatMap(f, s) <==> exists i :: 0 <= i < |s| && y in f(s[i])
    decreases |s|
  {
    if |s| > 0 {
      var init := s[..|s| - 1];
      FlatMapMembers(f, init);
      forall y
        ensures y in FlatMap(f, s) <==> exists i :: 0 <= i < |s| && y in f(s[i])
      {
        if y in FlatMap(f, init) {
          var i :| 0 <= i < |init| && y in f(init[i]);
          assert s[i] == init[i];
        }
        if y in f(s[|s| - 1]) {
          assert y in FlatMap(f, s);
        }
        if exists i :: 0 <= i < |s| && y in f(s[i]) {
          var i :| 0 <= i < |s| && y in f(s[i]);
          if i < |s| - 1 {
            assert init[i] == s[i];
          }
        }
      }
    }
  }
}

=== FILE: text.dfy ===
/**
 * Name normalisation (`normalize_text` in src/utils.py) and the whitespace
 * helpers it is built from: Python's `str.strip()` and `re.sub(r'\s+', ' ', s)`.
 *
 * The Unicode tables behind `str.lower` and NFKD decomposition are complete
 * for Latin-1 (U+0000..U+00FF), and `unicodedata.combining` for the
 * Combining Diacritical Marks block; every character outside Latin-1 is
 * treated as its own lower case and its own decomposition.
 */
module Text {
  import opened Wrappers
  import Seqs

  // ---------------------------------------------------------------------------
  // Character tables
  // ---------------------------------------------------------------------------

  /** Python's `str.isspace`: the characters `strip()`, `split()` and the regex class `\s` treat as whitespace. */
  predicate IsSpace(c: char) {
    || ('\t' <= c <= '\r')
    || ('\U{1C}' <= c <= ' ')
    || c == '\U{85}' || c == '\U{A0}' || c == '\U{1680}'
    || ('\U{2000}' <= c <= '\U{200A}')
    || c == '\U{2028}' || c == '\U{2029}' || c == '\U{202F}' || c == '\U{205F}' || c == '\U{3000}'
  }

  predicate NotSpace(c: char) {
    !IsSpace(c)
  }

  /** `str.lower` on one character, for ASCII and Latin-1 capitals. */
  function LowerChar(c: char): char {
    if ('A' <= c <= 'Z') || ('\U{C0}' <= c <= '\U{DE}' && c != '\U{D7}') then (c as int + 32) as char else c
  }

  function Lower(s: string): string {
    seq(|s|, i requires 0 <= i < |s| => LowerChar(s[i]))
  }

  /** `unicodedata.combining(c) != 0` for the Combining Diacritical Marks block (U+034F has class 0). */
  predicate IsCombining(c: char) {
    '\U{300}' <= c <= '\U{36F}' && c != '\U{34F}'
  }

  predicate NotCombining(c: char) {
    !IsCombining(c)
  }

  /** The NFKD decomposition of one character; only Latin-1 characters from U+00A0 on have one in these tables. */
  function Decompose(c: char): string {
    if '\U{A0}' <= c <= '\U{BF}' then DecomposeSign(c)
    else if '\U{C0}' <= c <= '\U{DE}' then DecomposeCapital(c)
    else if '\U{DF}' <= c <= '\U{FF}' then DecomposeSmall(c)
    else [c]
  }

  /** The Latin-1 signs: the no-break space, the spacing accents, the ordinals, superscripts, fractions and micro sign. */
  function DecomposeSign(c: char): string {
    match c
    case '\U{A0}' => " "
    case '\U{A8}' => " \U{308}"  case '\U{AF}' => " \U{304}"  case '\U{B4}' => " \U{301}"  case '\U{B8}' => " \U{327}"
    case '\U{AA}' => "a"  case '\U{BA}' => "o"  case '\U{B5}' => "\U{3BC}"
    case '\U{B9}' => "1"  case '\U{B2}' => "2"  case '\U{B3}' => "3"
    case '\U{BC}' => "1\U{2044}4"  case '\U{BD}' => "1\U{2044}2"  case '\U{BE}' => "3\U{2044}4"
    case _ => [c]
  }

  /** The Latin-1 capitals with a diacritic. */
  function DecomposeCapital(c: char): string {
    match c
    case 'À' => "A\U{300}"  case 'Á' => "A\U{301}"  case 'Â' => "A\U{302}"  case 'Ã' => "A\U{303}"
    case 'Ä' => "A\U{308}"  case 'Å' => "A\U{30A}"  case 'Ç' => "C\U{327}"  case 'È' => "E\U{300}"
    case 'É' => "E\U{301}"  case 'Ê' => "E\U{302}"  case 'Ë' => "E\U{308}"  case 'Ì' => "I\U{300}"
    case 'Í' => "I\U{301}"  case 'Î' => "I\U{302}"  case 'Ï' => "I\U{308}"  case 'Ñ' => "N\U{303}"
    case 'Ò' => "O\U{300}"  case 'Ó' => "O\U{301}"  case 'Ô' => "O\U{302}"  case 'Õ' => "O\U{303}"
    case 'Ö' => "O\U{308}"  case 'Ù' => "U\U{300}"  case 'Ú' => "U\U{301}"  case 'Û' => "U\U{302}"
    case 'Ü' => "U\U{308}"  case 'Ý' => "Y\U{301}"
    case _ => [c]
  }

  /** The Latin-1 small letters with a diacritic. */
  function DecomposeSmall(c: char): string {
    match c
    case 'à' => "a\U{300}"  case 'á' => "a\U{301}"  case 'â' => "a\U{302}"  case 'ã' => "a\U{303}"
    case 'ä' => "a\U{308}"  case 'å' => "a\U{30A}"  case 'ç' => "c\U{327}"  case 'è' => "e\U{300}"
    case 'é' => "e\U{301}"  case 'ê' => "e\U{302}"  case 'ë' => "e\U{308}"  case 'ì' => "i\U{300}"
    case 'í' => "i\U{301}"  case 'î' => "i\U{302}"  case 'ï' => "i\U{308}"  case 'ñ' => "n\U{303}"
    case 'ò' => "o\U{300}"  case 'ó' => "o\U{301}"  case 'ô' => "o\U{302}"  case 'õ' => "o\U{303}"
    case 'ö' => "o\U{308}"  case 'ù' => "u\U{300}"  case 'ú' => "u\U{301}"  case 'û' => "u\U{302}"
    case 'ü' => "u\U{308}"  case 'ý' => "y\U{301}"  case 'ÿ' => "y\U{308}"
    case _ => [c]
  }

  /** NFKD normalisation: every character replaced by its decomposition. */
  function Nfkd(s: string): string {
    if |s| == 0 then [] else Decompose(s[0]) + Nfkd(s[1..])
  }

  /** `''.join(ch for ch in s if not unicodedata.combining(ch))`. */
  function DropCombining(s: string): string {
    Seqs.Filter(NotCombining, s)
  }

  /** A character every step of the normalisation leaves as it is. */
  predicate Settled(c: char) {
    LowerChar(c) == c && Decompose(c) == [c] && !IsCombining(c)
  }

  predicate AllSettled(t: string) {
    forall i :: 0 <= i < |t| ==> Settled(t[i])
  }

  predicate AllLower(t: string) {
    forall i :: 0 <= i < |t| ==> LowerChar(t[i]) == t[i]
  }

  predicate SettledOrMark(t: string) {
    forall i :: 0 <= i < |t| ==> IsCombining(t[i]) || Settled(t[i])
  }

  /**
   * `str.upper` on one character, for ASCII and Latin-1 small letters,
   * including the three whose capital lies outside Latin-1 or is two
   * characters long, and for the two letters outside Latin-1 whose capital
   * is an ASCII letter: the long s and the dotless i.
   */
  function Upper(c: char): string {
    if ('a' <= c <= 'z') || ('\U{E0}' <= c <= '\U{FE}' && c != '\U{F7}') then [(c as int - 32) as char]
    else if c == '\U{DF}' then "SS"
    else if c == '\U{FF}' then "\U{178}"
    else if c == '\U{B5}' then "\U{39C}"
    else if c == '\U{17F}' then "S"
    else if c == '\U{131}' then "I"
    else [c]
  }

  /** The characters `str.upper` turns into a single ASCII character. */
  predicate UpperIsAscii(c: char) {
    (c as int) < 0x80 || c == '\U{17F}' || c == '\U{131}'
  }

  // ---------------------------------------------------------------------------
  // Whitespace
  // ---------------------------------------------------------------------------

  /** The non-whitespace characters of `s`, in order. */
  function NonSpace(s: string): string {
    Seqs.Filter(NotSpace, s)
  }

  /** No whitespace at either end. */
  predicate Trimmed(t: string) {
    |t| > 0 ==> !IsSpace(t[0]) && !IsSpace(t[|t| - 1])
  }

  /** Every whitespace character is a plain space and no two of them are adjacent. */
  predicate SingleSpaced(t: string) {
    && (forall i :: 0 <= i < |t| && IsSpace(t[i]) ==> t[i] == ' ')
    && (forall i :: 0 <= i < |t| - 1 ==> NoSpacePairAt(t, i))
  }

  /** The characters at `i` and `i + 1` are not both whitespace. */
  predicate NoSpacePairAt(t: string, i: nat)
    requires i < |t| - 1
  {
    !(IsSpace(t[i]) && IsSpace(t[i + 1]))
  }

  predicate AllSpace(s: string) {
    forall i :: 0 <= i < |s| ==> IsSpace(s[i])
  }

  /** The number of whitespace characters `s` starts with. */
  function LeadingSpaces(s: string): (n: nat)
    ensures n <= |s|
  {
    if |s| > 0 && IsSpace(s[0]) then 1 + LeadingSpaces(s[1..]) else 0
  }

  /** The number of whitespace characters `s` ends with. */
  function TrailingSpaces(s: string): (n: nat)
    ensures n <= |s|
  {
    if |s| > 0 && IsSpace(s[|s| - 1]) then 1 + TrailingSpaces(s[..|s| - 1]) else 0
  }

  /** `s` without its leading whitespace (`str.lstrip()`). */
  function SkipSpaces(s: string): string {
    s[LeadingSpaces(s)..]
  }

  /** `s` without its trailing whitespace (`str.rstrip()`). */
  function TrimEnd(s: string): string {
    s[..|s| - TrailingSpaces(s)]
  }

  /** Python's `str.strip()`. */
  function Strip(s: string): string {
    TrimEnd(SkipSpaces(s))
  }

  /** `re.sub(r'\s+', ' ', s)`: every maximal run of whitespace becomes one plain space. */
  function Collapse(s: string): string
    decreases |s|
  {
    if |s| == 0 then []
    else if IsSpace(s[0]) then [' '] + Collapse(SkipSpaces(s))
    else [s[0]] + Collapse(s[1..])
  }

  // ---------------------------------------------------------------------------
  // Strip
  // ---------------------------------------------------------------------------

  /** The leading run counted by `LeadingSpaces` is whitespace and ends at a non-whitespace character. */
  lemma {:induction false} LeadingSpacesAreSpaces(s: string)
    ensures forall i :: 0 <= i < LeadingSpaces(s) ==> IsSpace(s[i])
    ensures LeadingSpaces(s) < |s| ==> !IsSpace(s[LeadingSpaces(s)])
  {
    if |s| > 0 && IsSpace(s[0]) {
      var tail := s[1..];
      LeadingSpacesAreSpaces(tail);
      forall i | 0 <= i < LeadingSpaces(s)
        ensures IsSpace(s[i])
      {
        if i > 0 { assert s[i] == tail[i - 1]; }
      }
      if LeadingSpaces(s) < |s| {
        assert s[LeadingSpaces(s)] == tail[LeadingSpaces(tail)];
      }
    }
  }

  /** The trailing run counted by `TrailingSpaces` is whitespace and follows a non-whitespace character. */
  lemma {:induction false} TrailingSpacesAreSpaces(s: string)
    ensures forall i :: |s| - TrailingSpaces(s) <= i < |s| ==> IsSpace(s[i])
    ensures TrailingSpaces(s) < |s| ==> !IsSpace(s[|s| - 1 - TrailingSpaces(s)])
  {
    if |s| > 0 && IsSpace(s[|s| - 1]) {
      var init := s[..|s| - 1];
      TrailingSpacesAreSpaces(init);
      forall i | |s| - TrailingSpaces(s) <= i < |s|
        ensures IsSpace(s[i])
      {
        if i < |s| - 1 { assert s[i] == init[i]; }
      }
    }
  }

  /**
   * `str.strip()` returns the contiguous part of `s` that starts after its
   * leading whitespace, with no whitespace at either end.
   */
  lemma StripSpec(s: string)
    ensures Trimmed(Strip(s))
    ensures LeadingSpaces(s) + |Strip(s)| <= |s|
    ensures Strip(s) == s[LeadingSpaces(s)..LeadingSpaces(s) + |Strip(s)|]
    ensures AllSpace(s[..LeadingSpaces(s)]) && AllSpace(s[LeadingSpaces(s) + |Strip(s)|..])
  {
    StripSlice(s);
    StripEnds(s);
    StripIsTrimmed(s);
  }

  /** The stripped string is the part of `SkipSpaces(s)` before its trailing whitespace, hence a slice of `s`. */
  lemma StripSlice(s: string)
    ensures LeadingSpaces(s) + |Strip(s)| <= |s|
    ensures Strip(s) == s[LeadingSpaces(s)..LeadingSpaces(s) + |Strip(s)|]
    ensures |Strip(s)| == |SkipSpaces(s)| - TrailingSpaces(SkipSpaces(s))
  {
  }

  /** What `str.strip()` removes is whitespace. */
  lemma StripEnds(s: string)
    ensures LeadingSpaces(s) + |Strip(s)| <= |s|
    ensures AllSpace(s[..LeadingSpaces(s)]) && AllSpace(s[LeadingSpaces(s) + |Strip(s)|..])
  {
    var t := SkipSpaces(s);
    StripSlice(s);
    LeadingSpacesAreSpaces(s);
    TrailingSpacesAreSpaces(t);
    assert s[LeadingSpaces(s) + |Strip(s)|..] == t[|Strip(s)|..];
  }

  /** What `str.strip()` keeps neither starts nor ends with whitespace. */
  lemma StripIsTrimmed(s: string)
    ensures Trimmed(Strip(s))
  {
    var t := SkipSpaces(s);
    var r := Strip(s);
    var n := TrailingSpaces(t);
    StripSlice(s);
    if |r| > 0 {
      LeadingSpacesAreSpaces(s);
      TrailingSpacesAreSpaces(t);
      assert r[0] == t[0];
      assert r[|r| - 1] == t[|t| - 1 - n];
    }
  }

  lemma {:induction false} LeadingSpacesOf(x: string, n: nat)
    requires n <= |x| && AllSpace(x[..n])
    requires n < |x| ==> !IsSpace(x[n])
    ensures LeadingSpaces(x) == n
  {
    if n > 0 {
      assert IsSpace(x[..n][0]);
      assert x[1..][..n - 1] == x[..n][1..];
      LeadingSpacesOf(x[1..], n - 1);
    }
  }

  lemma {:induction false} TrailingSpacesOf(x: string, n: nat)
    requires n <= |x| && AllSpace(x[|x| - n..])
    requires n < |x| ==> !IsSpace(x[|x| - 1 - n])
    ensures TrailingSpaces(x) == n
  {
    if n > 0 {
      var init := x[..|x| - 1];
      assert IsSpace(x[|x| - n..][n - 1]);
      assert init[|init| - (n - 1)..] == x[|x| - n..][..n - 1];
      TrailingSpacesOf(init, n - 1);
    }
  }

  /**
   * `str.strip()` is characterised by its result: whatever trimmed string
   * sits between an all-whitespace prefix and suffix is what `strip` returns.
   */
  lemma StripUnique(p: string, t: string, q: string)
    requires AllSpace(p) && AllSpace(q) && Trimmed(t)
    ensures Strip(p + t + q) == t
  {
    var x := p + t + q;
    if |t| > 0 {
      assert x[..|p|] == p;
      LeadingSpacesOf(x, |p|);
      var y := SkipSpaces(x);
      assert y == t + q;
      assert y[|y| - |q|..] == q;
      TrailingSpacesOf(y, |q|);
      assert TrimEnd(y) == t;
    } else {
      assert x == p + q;
      assert x[..|x|] == x;
      LeadingSpacesOf(x, |x|);
    }
  }

  /** Trailing whitespace, such as the padding of a fixed-width field, does not survive `strip`. */
  lemma StripAppendSpaces(a: string, b: string)
    requires AllSpace(b)
    ensures Strip(a + b) == Strip(a)
  {
    var n := LeadingSpaces(a);
    var r := Strip(a);
    StripSpec(a);
    var q := a[n + |r|..];
    assert a == a[..n] + r + q;
    assert a + b == a[..n] + r + (q + b);
    StripUnique(a[..n], r, q + b);
  }

  /** The characters of `Strip(s)` are those of `s` after its leading whitespace. */
  lemma StripIndex(s: string)
    ensures LeadingSpaces(s) + |Strip(s)| <= |s|
    ensures forall i :: 0 <= i < |Strip(s)| ==> Strip(s)[i] == s[LeadingSpaces(s) + i]
  {
    StripSpec(s);
  }

  lemma NonSpaceOfSpaces(s: string)
    requires forall i :: 0 <= i < |s| ==> IsSpace(s[i])
    ensures NonSpace(s) == []
  {
    Seqs.FilterDropsAll(NotSpace, s);
  }

  /** Skipping leading whitespace keeps every other character. */
  lemma NonSpaceSkipSpaces(s: string)
    ensures NonSpace(SkipSpaces(s)) == NonSpace(s)
  {
    var n := LeadingSpaces(s);
    LeadingSpacesAreSpaces(s);
    NonSpaceOfSpaces(s[..n]);
    assert s == s[..n] + s[n..];
    Seqs.FilterAppend(NotSpace, s[..n], s[n..]);
  }

  /** Stripping removes whitespace only: every other character of `s` is kept, in order. */
  lemma StripKeepsNonSpace(s: string)
    ensures NonSpace(Strip(s)) == NonSpace(s)
  {
    var t := SkipSpaces(s);
    var m := |t| - TrailingSpaces(t);
    NonSpaceSkipSpaces(s);
    TrailingSpacesAreSpaces(t);
    NonSpaceOfSpaces(t[m..]);
    assert t == t[..m] + t[m..];
    Seqs.FilterAppend(NotSpace, t[..m], t[m..]);
  }

  /** Stripping a trimmed string changes nothing. */
  lemma StripTrimmed(t: string)
    requires Trimmed(t)
    ensures Strip(t) == t
  {
    assert LeadingSpaces(t) == 0;
    assert SkipSpaces(t) == t;
    assert TrailingSpaces(t) == 0;
  }

  /** `str.strip` is idempotent. */
  lemma StripIdempotent(s: string)
    ensures Strip(Strip(s)) == Strip(s)
  {
    StripSpec(s);
    StripTrimmed(Strip(s));
  }

  // ---------------------------------------------------------------------------
  // Collapse
  // ---------------------------------------------------------------------------

  /** Putting a character in front of a single-spaced string keeps it single-spaced unless it makes a pair of spaces. */
  lemma SingleSpacedCons(c: char, rest: string)
    requires SingleSpaced(rest)
    requires IsSpace(c) ==> c == ' ' && (|rest| > 0 ==> !IsSpace(rest[0]))
    ensures SingleSpaced([c] + rest)
  {
    var t := [c] + rest;
    forall i | 0 <= i < |t| - 1
      ensures NoSpacePairAt(t, i)
    {
      if i > 0 {
        assert NoSpacePairAt(rest, i - 1);
      }
    }
  }

  lemma SingleSpacedSlice(s: string, lo: int, hi: int)
    requires SingleSpaced(s)
    requires 0 <= lo <= hi <= |s|
    ensures SingleSpaced(s[lo..hi])
  {
    var t := s[lo..hi];
    forall i | 0 <= i < |t| - 1
      ensures NoSpacePairAt(t, i)
    {
      assert NoSpacePairAt(s, lo + i);
    }
  }

  /**
   * `re.sub(r'\s+', ' ', s)` leaves every whitespace character a plain space
   * with no two adjacent, is empty only for empty input, and starts (ends)
   * with a space exactly when `s` starts (ends) with whitespace.
   */
  lemma {:induction false} CollapseShape(s: string)
    ensures SingleSpaced(Collapse(s))
    ensures |Collapse(s)| == 0 <==> |s| == 0
    ensures |Collapse(s)| > 0 ==> (IsSpace(Collapse(s)[0]) <==> IsSpace(s[0]))
    ensures |Collapse(s)| > 0 ==> (IsSpace(Collapse(s)[|Collapse(s)| - 1]) <==> IsSpace(s[|s| - 1]))
    decreases |s|
  {
    if |s| > 0 {
      var t := if IsSpace(s[0]) then SkipSpaces(s) else s[1..];
      var c := if IsSpace(s[0]) then ' ' else s[0];
      CollapseShape(t);
      LeadingSpacesAreSpaces(s);
      assert Collapse(s) == [c] + Collapse(t);
      SingleSpacedCons(c, Collapse(t));
      if |t| > 0 {
        assert t[|t| - 1] == s[|s| - 1];
      }
    }
  }

  /** Collapsing rewrites whitespace only: every other character of `s` is kept, in order. */
  lemma {:induction false} CollapseKeepsNonSpace(s: string)
    ensures NonSpace(Collapse(s)) == NonSpace(s)
    decreases |s|
  {
    if |s| > 0 {
      if IsSpace(s[0]) {
        var t := SkipSpaces(s);
        CollapseKeepsNonSpace(t);
        NonSpaceSkipSpaces(s);
        Seqs.FilterAppend(NotSpace, [' '], Collapse(t));
      } else {
        CollapseKeepsNonSpace(s[1..]);
        Seqs.FilterAppend(NotSpace, [s[0]], Collapse(s[1..]));
        assert s == [s[0]] + s[1..];
        Seqs.FilterAppend(NotSpace, [s[0]], s[1..]);
      }
    }
  }

  /** Collapsing a single-spaced string changes nothing. */
  lemma {:induction false} CollapseSingleSpaced(t: string)
    requires SingleSpaced(t)
    ensures Collapse(t) == t
    decreases |t|
  {
    if |t| > 0 {
      var tail := t[1..];
      SingleSpacedSlice(t, 1, |t|);
      assert t[1..|t|] == tail;
      CollapseSingleSpaced(tail);
      if IsSpace(t[0]) {
        if |tail| > 0 {
          assert NoSpacePairAt(t, 0);
        }
        assert LeadingSpaces(tail) == 0;
        assert LeadingSpaces(t) == 1;
        assert SkipSpaces(t) == tail;
        assert t[0] == ' ';
      }
      assert t == [t[0]] + tail;
    }
  }

  // ---------------------------------------------------------------------------
  // normalize_text
  // ---------------------------------------------------------------------------

  /**
   * `normalize_text` as written: `None` gives "", otherwise strip, lower-case,
   * NFKD, drop combining marks, collapse whitespace runs, in that order.
   */
  function NormalizeText(s: Option<string>): string {
    match s
    case None => ""
    case Some(t) => Collapse(DropCombining(Nfkd(Lower(Strip(t)))))
  }

  /**
   * The corrected key: `normalize_text` followed by one more strip, so
   * that whitespace exposed by dropping a combining mark at either end does
   * not survive into the key. The build pass and the search use
   * `normalize_text` itself.
   */
  function NormalizeKey(s: Option<string>): string {
    Strip(NormalizeText(s))
  }

  /** Everything a normalised key is made of. */
  predicate Canonical(t: string) {
    AllSettled(t) && SingleSpaced(t) && Trimmed(t)
  }

  /** A decomposed lower-case character yields only combining marks and settled characters. */
  lemma DecomposeSettles(c: char)
    requires LowerChar(c) == c
    ensures SettledOrMark(Decompose(c))
  {
  }

  lemma LowerIsLower(s: string)
    ensures AllLower(Lower(s))
  {
  }

  lemma LowerOfSettled(s: string)
    requires AllLower(s)
    ensures Lower(s) == s
  {
  }

  lemma {:induction false} NfkdSettles(s: string)
    requires AllLower(s)
    ensures SettledOrMark(Nfkd(s))
  {
    if |s| > 0 {
      DecomposeSettles(s[0]);
      NfkdSettles(s[1..]);
    }
  }

  lemma {:induction false} NfkdOfSettled(s: string)
    requires AllSettled(s)
    ensures Nfkd(s) == s
  {
    if |s| > 0 {
      NfkdOfSettled(s[1..]);
      assert s == [s[0]] + s[1..];
    }
  }

  lemma {:induction false} DropCombiningSettles(s: string)
    requires SettledOrMark(s)
    ensures AllSettled(DropCombining(s))
  {
    if |s| > 0 {
      DropCombiningSettles(s[1..]);
    }
  }

  lemma {:induction false} CollapseSettles(s: string)
    requires AllSettled(s)
    ensures AllSettled(Collapse(s))
    decreases |s|
  {
    if |s| > 0 {
      assert Settled(' ');
      if IsSpace(s[0]) {
        CollapseSettles(SkipSpaces(s));
      } else {
        CollapseSettles(s[1..]);
      }
    }
  }

  /** The output of `normalize_text` consists of settled characters only. */
  lemma NormalizeTextSettled(s: Option<string>)
    ensures AllSettled(NormalizeText(s))
  {
    if s.Some? {
      var u0 := Strip(s.value);
      LowerIsLower(u0);
      NfkdSettles(Lower(u0));
      DropCombiningSettles(Nfkd(Lower(u0)));
      CollapseSettles(DropCombining(Nfkd(Lower(u0))));
    }
  }

  /**
   * `normalize_text` of `None` is the empty string; any other result has its
   * whitespace collapsed to single plain spaces and contains no combining mark.
   */
  lemma NormalizeTextShape(s: Option<string>)
    ensures s.None? ==> NormalizeText(s) == ""
    ensures SingleSpaced(NormalizeText(s))
    ensures forall i :: 0 <= i < |NormalizeText(s)| ==> !IsCombining(NormalizeText(s)[i])
  {
    NormalizeTextSettled(s);
    if s.Some? {
      CollapseShape(DropCombining(Nfkd(Lower(Strip(s.value)))));
    }
  }

  lemma StripKeepsSettled(u: string)
    requires AllSettled(u)
    ensures AllSettled(Strip(u))
  {
    StripIndex(u);
  }

  lemma StripKeepsSingleSpaced(u: string)
    requires SingleSpaced(u)
    ensures SingleSpaced(Strip(u))
  {
    StripSpec(u);
    SingleSpacedSlice(u, LeadingSpaces(u), LeadingSpaces(u) + |Strip(u)|);
  }

  /** Every normalised key is canonical. */
  lemma NormalizeKeyCanonical(s: Option<string>)
    ensures Canonical(NormalizeKey(s))
  {
    var u := NormalizeText(s);
    NormalizeTextSettled(s);
    NormalizeTextShape(s);
    StripKeepsSettled(u);
    StripKeepsSingleSpaced(u);
    StripSpec(u);
  }

  /** A canonical string is a fixed point of `normalize_text`. */
  lemma CanonicalIsFixed(t: string)
    requires Canonical(t)
    ensures NormalizeText(Some(t)) == t
  {
    StripTrimmed(t);
    LowerOfSettled(t);
    NfkdOfSettled(t);
    Seqs.FilterKeepsAll(NotCombining, t);
    CollapseSingleSpaced(t);
  }

  /**
   * Normalising a key again leaves it unchanged, so a name and its key fall
   * under the same index entry.
   */
  lemma NormalizeKeyIdempotent(s: Option<string>)
    ensures NormalizeKey(Some(NormalizeKey(s))) == NormalizeKey(s)
  {
    var k := NormalizeKey(s);
    NormalizeKeyCanonical(s);
    CanonicalIsFixed(k);
    StripTrimmed(k);
  }

  /** Surrounding whitespace does not affect `normalize_text` (the read-back name is stripped). */
  lemma NormalizeTextOfStripped(s: string)
    ensures NormalizeText(Some(Strip(s))) == NormalizeText(Some(s))
  {
    StripIdempotent(s);
  }

  predicate IsAscii(s: string) {
    forall i :: 0 <= i < |s| ==> s[i] < '\U{80}'
  }

  lemma StripAscii(s: string)
    requires IsAscii(s)
    ensures IsAscii(Strip(s))
  {
    StripIndex(s);
  }

  lemma LowerAsciiSettled(s: string)
    requires IsAscii(s)
    ensures AllSettled(Lower(s))
  {
    forall i | 0 <= i < |s|
      ensures Settled(Lower(s)[i])
    {
      assert Lower(s)[i] == LowerChar(s[i]);
    }
  }

  /** Lower-casing neither creates nor removes whitespace at the ends. */
  lemma LowerKeepsTrimmed(s: string)
    requires Trimmed(s)
    ensures Trimmed(Lower(s))
  {
    if |s| > 0 {
      assert Lower(s)[0] == LowerChar(s[0]);
      assert Lower(s)[|s| - 1] == LowerChar(s[|s| - 1]);
    }
  }

  /**
   * On ASCII input `normalize_text` is strip, lower-case and collapse, and
   * applying it again leaves the result unchanged.
   */
  lemma NormalizeTextAscii(s: string)
    requires IsAscii(s)
    ensures NormalizeText(Some(s)) == Collapse(Lower(Strip(s)))
    ensures NormalizeText(Some(NormalizeText(Some(s)))) == NormalizeText(Some(s))
  {
    var u0 := Strip(s);
    StripAscii(s);
    StripSpec(s);
    var u1 := Lower(u0);
    LowerAsciiSettled(u0);
    NfkdOfSettled(u1);
    Seqs.FilterKeepsAll(NotCombining, u1);
    assert NormalizeText(Some(s)) == Collapse(u1);
    LowerKeepsTrimmed(u0);
    CollapseSettles(u1);
    CollapseShape(u1);
    CanonicalIsFixed(Collapse(u1));
  }

  /**
   * `normalize_text` is not idempotent as written: a combining mark right
   * after a space survives the initial strip, and dropping it leaves a
   * trailing space that a second pass strips.
   */
  lemma NormalizeTextNotIdempotent()
    ensures NormalizeText(Some("a \U{301}")) == "a "
    ensures NormalizeText(Some("a ")) == "a"
  {
    FirstPassKeepsSpace();
    SecondPassStripsIt();
  }

  /**
   * The same trailing space from a single Latin-1 character: the spacing
   * cedilla decomposes to a space and a combining cedilla, after the strip.
   */
  lemma CedillaKeepsSpace()
    ensures NormalizeText(Some("a\U{B8}")) == "a "
  {
    var s: string := ['a', '\U{B8}'];
    var d: string := ['a', ' ', '\U{327}'];
    assert s == "a\U{B8}";
    assert LeadingSpaces(s) == 0 && TrailingSpaces(s) == 0;
    assert Lower(s)[0] == 'a' && Lower(s)[1] == '\U{B8}';
    assert Lower(s) == s;
    assert Nfkd(s[1..]) == " \U{327}" + Nfkd([]);
    assert Nfkd(s) == d;
    assert d[1..][1..] == d[2..];
    assert Seqs.Filter(NotCombining, d[2..]) == [];
    assert Seqs.Filter(NotCombining, d[1..]) == [' '];
    ExampleCollapse(['a', ' ']);
    assert ['a', ' '] == "a ";
  }

  lemma FirstPassKeepsSpace()
    ensures NormalizeText(Some("a \U{301}")) == "a "
  {
    var s: string := ['a', ' ', '\U{301}'];
    assert s == "a \U{301}";
    ExampleStrip(s);
    ExampleLower(s);
    ExampleNfkd(s);
    ExampleDropCombining(s);
    ExampleCollapse(['a', ' ']);
    assert ['a', ' '] == "a ";
  }

  lemma ExampleStrip(s: string)
    requires s == ['a', ' ', '\U{301}']
    ensures Strip(s) == s
  {
    assert LeadingSpaces(s) == 0;
    assert TrailingSpaces(s) == 0;
  }

  lemma ExampleLower(s: string)
    requires s == ['a', ' ', '\U{301}']
    ensures Lower(s) == s
  {
    assert Lower(s)[0] == 'a' && Lower(s)[1] == ' ' && Lower(s)[2] == '\U{301}';
  }

  lemma ExampleNfkd(s: string)
    requires s == ['a', ' ', '\U{301}']
    ensures Nfkd(s) == s
  {
    assert Nfkd(s[2..]) == ['\U{301}'] + Nfkd([]);
    assert Nfkd(s[1..]) == [' '] + Nfkd(s[2..]);
    assert Nfkd(s) == ['a'] + Nfkd(s[1..]);
  }

  lemma ExampleDropCombining(s: string)
    requires s == ['a', ' ', '\U{301}']
    ensures DropCombining(s) == ['a', ' ']
  {
    assert s[1..][1..] == s[2..];
    assert Seqs.Filter(NotCombining, s[2..]) == [];
    assert Seqs.Filter(NotCombining, s[1..]) == [' '];
  }

  lemma ExampleCollapse(t: string)
    requires t == ['a', ' ']
    ensures Collapse(t) == t
  {
    assert LeadingSpaces(t[1..]) == 1;
    assert SkipSpaces(t[1..]) == [];
    assert Collapse(t[1..]) == [' '];
  }

  lemma SecondPassStripsIt()
    ensures NormalizeText(Some("a ")) == "a"
  {
    var t: string := ['a', ' '];
    var a: string := ['a'];
    assert t == "a ";
    assert a == "a";
    ExampleStripTrailing(t);
    ExampleSingleLetter(a);
  }

  lemma ExampleStripTrailing(t: string)
    requires t == ['a', ' ']
    ensures Strip(t) == ['a']
  {
    assert LeadingSpaces(t) == 0;
    assert TrailingSpaces(t[..1]) == 0;
    assert TrailingSpaces(t) == 1;
    assert t[..1] == ['a'];
  }

  lemma ExampleSingleLetter(a: string)
    requires a == ['a']
    ensures Collapse(DropCombining(Nfkd(Lower(a)))) == a
  {
    assert Lower(a) == a;
    assert Nfkd(a) == ['a'] + Nfkd([]);
    assert DropCombining(a) == a;
    assert Collapse(a) == ['a'] + Collapse([]);
  }
}

=== FILE: utf8.dfy ===
/**
 * UTF-8 as Python's `str.encode('utf-8')` and strict `bytes.decode('utf-8')`
 * use it: shortest-form encoding of Unicode scalar values, and a decoder
 * that rejects overlong forms, surrogates, values above U+10FFFF and
 * truncated sequences.
 */
module Utf8 {
  import opened Wrappers
  import opened Bytes

  /** A continuation byte `10xxxxxx`. */
  predicate IsCont(b: byte) {
    0x80 <= b < 0xC0
  }

  /** The UTF-8 encoding of one character. */
  function EncodeChar(c: char): (r: seq<byte>)
    ensures 1 <= |r| <= 4
  {
    var v := c as int;
    if v < 0x80 then [v]
    else if v < 0x800 then [0xC0 + v / 64, 0x80 + v % 64]
    else if v < 0x1_0000 then [0xE0 + v / 4096, 0x80 + (v / 64) % 64, 0x80 + v % 64]
    else [0xF0 + v / 0x4_0000, 0x80 + (v / 4096) % 64, 0x80 + (v / 64) % 64, 0x80 + v % 64]
  }

  /** `s.encode('utf-8')`. */
  function Encode(s: string): seq<byte> {
    if |s| == 0 then [] else EncodeChar(s[0]) + Encode(s[1..])
  }

  /** One decoded character and the number of bytes it took. */
  datatype Decoded = Decoded(c: char, len: nat)

  /** Strict decoding of the character `bs` starts with; `None` where Python raises `UnicodeDecodeError`. */
  function DecodeChar(bs: seq<byte>): (r: Option<Decoded>)
    ensures r.Some? ==> 1 <= r.value.len <= |bs|
  {
    if |bs| == 0 then None
    else
      var b0: int := bs[0];
      if b0 < 0x80 then Some(Decoded(b0 as char, 1))
      else if 0xC2 <= b0 <= 0xDF then
        if |bs| >= 2 && IsCont(bs[1]) then
          Some(Decoded(((b0 - 0xC0) * 64 + (bs[1] as int - 0x80)) as char, 2))
        else None
      else if 0xE0 <= b0 <= 0xEF then
        if |bs| >= 3 && IsCont(bs[1]) && IsCont(bs[2])
           && (b0 == 0xE0 ==> bs[1] >= 0xA0) && (b0 == 0xED ==> bs[1] < 0xA0) then
          Some(Decoded(((b0 - 0xE0) * 4096 + (bs[1] as int - 0x80) * 64 + (bs[2] as int - 0x80)) as char, 3))
        else None
      else if 0xF0 <= b0 <= 0xF4 then
        if |bs| >= 4 && IsCont(bs[1]) && IsCont(bs[2]) && IsCont(bs[3])
           && (b0 == 0xF0 ==> bs[1] >= 0x90) && (b0 == 0xF4 ==> bs[1] < 0x90) then
          Some(Decoded(((b0 - 0xF0) * 0x4_0000 + (bs[1] as int - 0x80) * 4096 + (bs[2] as int - 0x80) * 64 + (bs[3] as int - 0x80)) as char, 4))
        else None
      else None
  }

  /** `bs.decode('utf-8')`: `None` when any part of `bs` is not valid UTF-8. */
  function Decode(bs: seq<byte>): Option<string>
    decreases |bs|
  {
    if |bs| == 0 then Some([])
    else
      match DecodeChar(bs)
      case None => None
      case Some(d) =>
        match Decode(bs[d.len..])
        case None => None
        case Some(rest) => Some([d.c] + rest)
  }

  // ---------------------------------------------------------------------------
  // Round trip
  // ---------------------------------------------------------------------------

  lemma DecodeEncodeChar1(c: char, rest: seq<byte>)
    requires (c as int) < 0x80
    ensures DecodeChar(EncodeChar(c) + rest) == Some(Decoded(c, 1))
  {
  }

  lemma DecodeEncodeChar2(c: char, rest: seq<byte>)
    requires 0x80 <= (c as int) < 0x800
    ensures DecodeChar(EncodeChar(c) + rest) == Some(Decoded(c, 2))
  {
    var v := c as int;
    var bs := EncodeChar(c) + rest;
    assert bs[0] == 0xC0 + v / 64 && bs[1] == 0x80 + v % 64;
    assert (bs[0] as int - 0xC0) * 64 + (bs[1] as int - 0x80) == v;
  }

  lemma DecodeEncodeChar3(c: char, rest: seq<byte>)
    requires 0x800 <= (c as int) < 0x1_0000
    ensures DecodeChar(EncodeChar(c) + rest) == Some(Decoded(c, 3))
  {
    var v := c as int;
    var bs := EncodeChar(c) + rest;
    assert bs[0] == 0xE0 + v / 4096 && bs[1] == 0x80 + (v / 64) % 64 && bs[2] == 0x80 + v % 64;
    assert (v / 4096) * 64 + (v / 64) % 64 == v / 64;
    assert (bs[0] as int - 0xE0) * 4096 + (bs[1] as int - 0x80) * 64 + (bs[2] as int - 0x80) == v;
  }

  lemma DecodeEncodeChar4(c: char, rest: seq<byte>)
    requires 0x1_0000 <= (c as int)
    ensures DecodeChar(EncodeChar(c) + rest) == Some(Decoded(c, 4))
  {
    var v := c as int;
    var bs := EncodeChar(c) + rest;
    assert bs[0] == 0xF0 + v / 0x4_0000 && bs[1] == 0x80 + (v / 4096) % 64;
    assert bs[2] == 0x80 + (v / 64) % 64 && bs[3] == 0x80 + v % 64;
    assert (v / 0x4_0000) * 64 + (v / 4096) % 64 == v / 4096;
    assert (v / 4096) * 64 + (v / 64) % 64 == v / 64;
    assert (bs[0] as int - 0xF0) * 0x4_0000 + (bs[1] as int - 0x80) * 4096 + (bs[2] as int - 0x80) * 64 + (bs[3] as int - 0x80) == v;
  }

  /** The decoder reads back exactly the character the encoder wrote, whatever follows it. */
  lemma DecodeEncodeChar(c: char, rest: seq<byte>)
    ensures DecodeChar(EncodeChar(c) + rest) == Some(Decoded(c, |EncodeChar(c)|))
  {
    var v := c as int;
    if v < 0x80 { DecodeEncodeChar1(c, rest); }
    else if v < 0x800 { DecodeEncodeChar2(c, rest); }
    else if v < 0x1_0000 { DecodeEncodeChar3(c, rest); }
    else { DecodeEncodeChar4(c, rest); }
  }

  /** Encoding distributes over concatenation. */
  lemma {:induction false} EncodeAppend(a: string, b: string)
    ensures Encode(a + b) == Encode(a) + Encode(b)
  {
    if |a| > 0 {
      assert (a + b)[1..] == a[1..] + b;
      EncodeAppend(a[1..], b);
    } else {
      assert a + b == b;
    }
  }

  /** Decoding after a well-formed prefix decodes the prefix back and then whatever follows. */
  lemma {:induction false} DecodeAfterEncoded(p: string, x: seq<byte>)
    ensures Decode(Encode(p) + x) == match Decode(x) case None => None case Some(y) => Some(p + y)
  {
    if |p| > 0 {
      var e := EncodeChar(p[0]);
      var bs := Encode(p) + x;
      assert bs == e + (Encode(p[1..]) + x);
      DecodeEncodeChar(p[0], Encode(p[1..]) + x);
      assert bs[|e|..] == Encode(p[1..]) + x;
      DecodeAfterEncoded(p[1..], x);
      if Decode(x).Some? {
        assert [p[0]] + (p[1..] + Decode(x).value) == p + Decode(x).value;
      }
    } else {
      assert Encode(p) + x == x;
      if Decode(x).Some? {
        assert p + Decode(x).value == Decode(x).value;
      }
    }
  }

  /** `s.encode('utf-8').decode('utf-8') == s`. */
  lemma RoundTrip(s: string)
    ensures Decode(Encode(s)) == Some(s)
  {
    DecodeAfterEncoded(s, []);
    assert Encode(s) + [] == Encode(s);
    assert s + [] == s;
  }

  lemma EncodeDecodeChar2(bs: seq<byte>)
    requires DecodeChar(bs).Some? && DecodeChar(bs).value.len == 2
    ensures EncodeChar(DecodeChar(bs).value.c) == bs[..2]
  {
    var b0: int, b1: int := bs[0], bs[1];
    var v := (b0 - 0xC0) * 64 + (b1 - 0x80);
    assert v / 64 == b0 - 0xC0 && v % 64 == b1 - 0x80;
  }

  lemma EncodeDecodeChar3(bs: seq<byte>)
    requires DecodeChar(bs).Some? && DecodeChar(bs).value.len == 3
    ensures EncodeChar(DecodeChar(bs).value.c) == bs[..3]
  {
    var b0: int, b1: int, b2: int := bs[0], bs[1], bs[2];
    var v := (b0 - 0xE0) * 4096 + (b1 - 0x80) * 64 + (b2 - 0x80);
    assert v / 64 == (b0 - 0xE0) * 64 + (b1 - 0x80) && v % 64 == b2 - 0x80;
    assert v / 4096 == b0 - 0xE0;
    assert (v / 64) % 64 == b1 - 0x80;
  }

  lemma EncodeDecodeChar4(bs: seq<byte>)
    requires DecodeChar(bs).Some? && DecodeChar(bs).value.len == 4
    ensures EncodeChar(DecodeChar(bs).value.c) == bs[..4]
  {
    var b0: int, b1: int, b2: int, b3: int := bs[0], bs[1], bs[2], bs[3];
    var v := (b0 - 0xF0) * 0x4_0000 + (b1 - 0x80) * 4096 + (b2 - 0x80) * 64 + (b3 - 0x80);
    var hi := (b0 - 0xF0) * 64 + (b1 - 0x80);
    assert v / 64 == hi * 64 + (b2 - 0x80) && v % 64 == b3 - 0x80;
    assert v / 4096 == hi;
    assert (v / 64) % 64 == b2 - 0x80;
    assert (v / 4096) % 64 == b1 - 0x80;
    assert v / 0x4_0000 == b0 - 0xF0;
  }

  /** The strict decoder accepts only shortest-form encodings: what it reads is exactly what the encoder writes. */
  lemma EncodeDecodeChar(bs: seq<byte>)
    requires DecodeChar(bs).Some?
    ensures EncodeChar(DecodeChar(bs).value.c) == bs[..DecodeChar(bs).value.len]
  {
    match DecodeChar(bs).value.len
    case 1 =>
    case 2 => EncodeDecodeChar2(bs);
    case 3 => EncodeDecodeChar3(bs);
    case 4 => EncodeDecodeChar4(bs);
  }

  /** Whatever decodes re-encodes to the same bytes, so `Decode` is the exact inverse of `Encode`. */
  lemma {:induction false} EncodeDecode(bs: seq<byte>)
    requires Decode(bs).Some?
    ensures Encode(Decode(bs).value) == bs
    decreases |bs|
  {
    if |bs| > 0 {
      var c, tail := DecodeStep(bs);
      EncodeDecode(tail);
      EncodeCons(c, Decode(tail).value);
    }
  }

  /**
   * A successful decode of a non-empty input is its first character
   * followed by the decode of the rest, and that character's encoding is
   * the bytes it was read from.
   */
  lemma DecodeStep(bs: seq<byte>) returns (c: char, tail: seq<byte>)
    requires |bs| > 0 && Decode(bs).Some?
    ensures |tail| < |bs| && Decode(tail).Some?
    ensures bs == EncodeChar(c) + tail
    ensures Decode(bs).value == [c] + Decode(tail).value
  {
    var d := DecodeChar(bs).value;
    EncodeDecodeChar(bs);
    c, tail := d.c, bs[d.len..];
    assert bs == bs[..d.len] + tail;
  }

  lemma EncodeCons(c: char, s: string)
    ensures Encode([c] + s) == EncodeChar(c) + Encode(s)
  {
    assert ([c] + s)[1..] == s;
  }

  // ---------------------------------------------------------------------------
  // Truncation
  // ---------------------------------------------------------------------------

  /** A character cut short does not decode: the lead byte promises more bytes than there are. */
  lemma TruncatedCharFails(c: char, t: seq<byte>)
    requires 0 < |t| < |EncodeChar(c)|
    requires t == EncodeChar(c)[..|t|]
    ensures DecodeChar(t) == None
    ensures Decode(t) == None
  {
  }

  /** The largest number of leading characters of `s` whose encoding fits in `n` bytes. */
  function FitCount(s: string, n: nat): (k: nat)
    ensures k <= |s|
  {
    if |s| == 0 || n < |EncodeChar(s[0])| then 0
    else 1 + FitCount(s[1..], n - |EncodeChar(s[0])|)
  }

  /**
   * `FitCount` is the longest fitting prefix: its encoding fits in `n`
   * bytes, and the next character, if any, would not.
   */
  lemma {:induction false} FitCountSpec(s: string, n: nat)
    ensures FitCount(s, n) <= |s|
    ensures |Encode(s[..FitCount(s, n)])| <= n
    ensures FitCount(s, n) < |s| ==> |Encode(s[..FitCount(s, n)])| + |EncodeChar(s[FitCount(s, n)])| > n
  {
    if |s| > 0 && |EncodeChar(s[0])| <= n {
      var k := FitCount(s, n);
      FitCountSpec(s[1..], n - |EncodeChar(s[0])|);
      assert s[..k] == [s[0]] + s[1..][..k - 1];
      assert s[..k][1..] == s[1..][..k - 1];
      if k < |s| {
        assert s[k] == s[1..][k - 1];
      }
    } else {
      assert s[..0] == [];
    }
  }

  /** Everything fits exactly when the whole encoding fits. */
  lemma {:induction false} FitCountAll(s: string, n: nat)
    ensures FitCount(s, n) == |s| <==> |Encode(s)| <= n
  {
    if |s| > 0 && |EncodeChar(s[0])| <= n {
      FitCountAll(s[1..], n - |EncodeChar(s[0])|);
    }
  }

  // ---------------------------------------------------------------------------
  // ASCII
  // ---------------------------------------------------------------------------

  /** `k` plain spaces. */
  function Spaces(k: nat): (r: string)
    ensures |r| == k
    ensures forall i :: 0 <= i < k ==> r[i] == ' '
  {
    seq(k, _ => ' ')
  }

  /** Spaces encode to space bytes, one each. */
  lemma {:induction false} EncodeSpaces(k: nat)
    ensures Encode(Spaces(k)) == Fill(0x20, k)
  {
    if k > 0 {
      EncodeSpaces(k - 1);
      assert Spaces(k)[1..] == Spaces(k - 1);
      assert Fill(0x20, k) == [0x20] + Fill(0x20, k - 1);
    }
  }

  /** An ASCII character is one byte holding its code. */
  lemma EncodeAscii(c: char)
    requires (c as int) < 0x80
    ensures EncodeChar(c) == [c as int]
  {
  }
}

=== FILE: wrappers.dfy ===
/** Option and Result values for the absent values and raised exceptions of the modelled code. */
module Wrappers {

  /** A value that may be missing: Python's `None` or a present value. */
  datatype Option<+T> = None | Some(value: T) {

    /** The present value, or `default` when there is none (Python's `x or default`). */
    function GetOr(default: T): T {
      match this
      case Some(v) => v
      case None => default
    }
  }

  /** The outcome of a computation that may raise. */
  datatype Result<+R, +E> = Ok(value: R) | Err(error: E)
}

=== FILE: writer.dfy ===
/**
 * The build pass of `write_from_clean_csv` (src/writer.py): every row of the
 * clean CSV becomes one record appended to the binary file, and its offset
 * is appended to the index entry of `normalize_text` of its name. The name
 * field is filled by `pad_mun_bytes` as written, or by the corrected cut.
 *
 * The file is the sequence of bytes written so far, so `fout.tell()` is its
 * length; the index is the dictionary that is pickled at the end. `int()`
 * and `float()` on a cell are parameters.
 */
module Writer {
  import opened Wrappers
  import opened Bytes
  import Text
  import Utf8
  import Codec

  /** One row as `csv.DictReader` yields it: column name to cell. */
  type Row = map<string, string>

  /** `int(cell)` and `float(cell)`; `None` where Python raises `ValueError`. */
  datatype Parsers = Parsers(toInt: string -> Option<int>, toDouble: string -> Option<Codec.Double>)

  /** The values one row contributes once the defaults are applied. */
  datatype RowValues = RowValues(
    ibge: int, year: int, sex: string, quantidade: Codec.Double,
    municipio: string, latitude: Codec.Double, longitude: Codec.Double)

  /** The binary file and the index built from it. */
  datatype Store = Store(file: seq<byte>, index: map<string, seq<nat>>)

  /** `row.get(key, default)`. */
  function Get(row: Row, key: string, default: string): string {
    if key in row then row[key] else default
  }

  /** `row.get('sexo', '').strip()[:1].upper() or ' '`. */
  function SexField(cell: string): (r: string)
    ensures |r| >= 1
  {
    var t := Text.Strip(cell);
    var u := if |t| == 0 then "" else Text.Upper(t[0]);
    if u == "" then " " else u
  }

  /** `float(row.get(key) or 0.0)`, with 0.0 also when `float` raises. */
  function Coordinate(row: Row, key: string, p: Parsers): Codec.Double {
    if key !in row || row[key] == "" then Codec.ZeroDouble
    else p.toDouble(row[key]).GetOr(Codec.ZeroDouble)
  }

  /**
   * The field values of one row, or the exception the conversions raise:
   * `int(ibge)` first, then the `year` lookup and `int(year)`, then
   * `float(quantidade)`; the coordinates never raise.
   */
  function ParseRow(row: Row, p: Parsers): (r: Result<RowValues, Codec.Error>)
    ensures r.Ok? <==>
      && ("ibge" !in row || row["ibge"] == "" || p.toInt(row["ibge"]).Some?)
      && "year" in row && p.toInt(row["year"]).Some?
      && ("quantidade" !in row || p.toDouble(row["quantidade"]).Some?)
    ensures "year" !in row && ("ibge" !in row || row["ibge"] == "" || p.toInt(row["ibge"]).Some?)
            ==> r == Err(Codec.KeyError)
    ensures r.Err? && "year" in row ==> r == Err(Codec.ValueError)
    ensures r.Ok? ==> r.value.year == p.toInt(row["year"]).value
    ensures r.Ok? ==> r.value.ibge == if "ibge" !in row || row["ibge"] == "" then 0 else p.toInt(row["ibge"]).value
    ensures r.Ok? ==> r.value.quantidade == if "quantidade" !in row then Codec.ZeroDouble else p.toDouble(row["quantidade"]).value
    ensures r.Ok? ==> r.value.municipio == Get(row, "municipio", "") && r.value.sex == SexField(Get(row, "sexo", ""))
    ensures r.Ok? && ("latitude" !in row || row["latitude"] == "" || p.toDouble(row["latitude"]).None?)
            ==> r.value.latitude == Codec.ZeroDouble
    ensures r.Ok? && ("longitude" !in row || row["longitude"] == "" || p.toDouble(row["longitude"]).None?)
            ==> r.value.longitude == Codec.ZeroDouble
  {
    var ibge :=
      if "ibge" in row && row["ibge"] != "" then p.toInt(row["ibge"]) else Some(0);
    if ibge.None? then Err(Codec.ValueError)
    else if "year" !in row then Err(Codec.KeyError)
    else if p.toInt(row["year"]).None? then Err(Codec.ValueError)
    else
      var q := if "quantidade" in row then p.toDouble(row["quantidade"]) else Some(Codec.ZeroDouble);
      if q.None? then Err(Codec.ValueError)
      else
        Ok(RowValues(
          ibge.value, p.toInt(row["year"]).value, SexField(Get(row, "sexo", "")), q.value,
          Get(row, "municipio", ""), Coordinate(row, "latitude", p), Coordinate(row, "longitude", p)))
  }

  /**
   * How the name field is filled: `pad_mun_bytes` as written, which cuts
   * the UTF-8 bytes at 64 even inside a character, or the corrected cut at
   * the last character boundary that fits.
   */
  datatype Padding = AsWritten | AtBoundary

  /** The 64-byte name field stored for `name`. */
  function NameField(pad: Padding, name: string): (r: seq<byte>)
    ensures |r| == Codec.MunLen
  {
    match pad
    case AsWritten => Codec.PadMunBytes(name, Codec.MunLen)
    case AtBoundary => Codec.PadMunSafe(name, Codec.MunLen)
  }

  /** The `struct.pack` arguments for one row: the sex as UTF-8 and the name as its 64-byte field. */
  function FieldsOf(v: RowValues, pad: Padding): Codec.Fields {
    Codec.Fields(v.ibge, v.year, Utf8.Encode(v.sex), v.quantidade, NameField(pad, v.municipio), v.latitude)
  }

  /** The bytes one row appends: the packed struct followed by the longitude. */
  function EncodeRow(v: RowValues, pad: Padding): (r: Result<seq<byte>, Codec.Error>)
    ensures r.Ok? ==> |r.value| == Codec.Stride
  {
    match Codec.PackRecord(FieldsOf(v, pad))
    case Err(e) => Err(e)
    case Ok(b) => Ok(b + v.longitude)
  }

  /** Everything one row does to the file, or the exception it raises. */
  function WriteRow(row: Row, p: Parsers, pad: Padding): Result<seq<byte>, Codec.Error> {
    match ParseRow(row, p)
    case Err(e) => Err(e)
    case Ok(v) => EncodeRow(v, pad)
  }

  /** The index key of a row: `normalize_text(municipio)`. */
  function Key(row: Row): string {
    Text.NormalizeText(Some(Get(row, "municipio", "")))
  }

  /** `index.setdefault(key, []).append(offset)`. */
  function Insert(index: map<string, seq<nat>>, key: string, offset: nat): map<string, seq<nat>> {
    index[key := (if key in index then index[key] else []) + [offset]]
  }

  /** How the build pass turns one row into bytes, or the exception it raises. */
  type RowWriter = Row -> Result<seq<byte>, Codec.Error>

  /** The row writer of `write_from_clean_csv`, with the name field filled as `pad` says. */
  function WriterOf(p: Parsers, pad: Padding): RowWriter {
    row => WriteRow(row, p, pad)
  }

  /**
   * The build loop with row writer `write` and index key `key`: the file
   * and index after the last row, or the exception raised by the first row
   * that fails.
   */
  function BuildWith(rows: seq<Row>, write: RowWriter, keyOf: Row -> string): Result<Store, Codec.Error>
    decreases |rows|
  {
    if |rows| == 0 then Ok(Store([], map[]))
    else
      match BuildWith(rows[..|rows| - 1], write, keyOf)
      case Err(e) => Err(e)
      case Ok(st) =>
        match write(rows[|rows| - 1])
        case Err(e) => Err(e)
        case Ok(bytes) => Ok(Store(st.file + bytes, Insert(st.index, keyOf(rows[|rows| - 1]), |st.file|)))
  }

  /**
   * The build pass on `rows`: `write_from_clean_csv` itself is
   * `Build(rows, p, AsWritten)`; `AtBoundary` gives the corrected build.
   */
  function Build(rows: seq<Row>, p: Parsers, pad: Padding): Result<Store, Codec.Error> {
    BuildWith(rows, WriterOf(p, pad), Key)
  }

  /**
   * What `read_record_at` gives back for a row written by the build pass:
   * the values with the sex and the decoded name stripped, or
   * `UnicodeDecodeError` when the stored name field is not valid UTF-8.
   */
  function ReadBack(v: RowValues, pad: Padding): Result<Codec.Record, Codec.Error>
    requires v.ibge >= 0 && v.year >= 0
  {
    match Utf8.Decode(NameField(pad, v.municipio))
    case None => Err(Codec.DecodeError)
    case Some(m) => Ok(Codec.Record(v.ibge, v.year, Text.Strip(v.sex), v.quantidade, Text.Strip(m), v.latitude, v.longitude))
  }

  // ---------------------------------------------------------------------------
  // Rows
  // ---------------------------------------------------------------------------

  /**
   * The stored sex reads back as stored, except that a blank cell is
   * stored as a space and reads back as "". It is the single byte `struct`'s
   * `c` accepts exactly when the cell is blank or its first non-blank
   * character upper-cases to an ASCII letter: an ASCII character, "ſ" or "ı".
   */
  lemma SexFieldSpec(cell: string)
    ensures Text.Strip(cell) == "" ==> SexField(cell) == " " && Text.Strip(SexField(cell)) == ""
    ensures Text.Strip(cell) != "" ==> Text.Strip(SexField(cell)) == SexField(cell)
    ensures |Utf8.Encode(SexField(cell))| == 1 <==> Text.Strip(cell) == "" || Text.UpperIsAscii(Text.Strip(cell)[0])
  {
    var t := Text.Strip(cell);
    if t == "" {
      Text.StripUnique([], [], " ");
      Utf8.EncodeAscii(' ');
      assert Utf8.Encode(" ") == Utf8.EncodeChar(' ') + Utf8.Encode([]);
    } else {
      Text.StripIsTrimmed(cell);
      UpperOfNonSpace(t[0]);
      Text.StripTrimmed(SexField(cell));
    }
  }

  /** Upper-casing a non-blank character gives non-blank text, one byte long exactly when it is an ASCII character, "ſ" or "ı". */
  lemma UpperOfNonSpace(c: char)
    requires !Text.IsSpace(c)
    ensures |Text.Upper(c)| > 0 && Text.Trimmed(Text.Upper(c))
    ensures |Utf8.Encode(Text.Upper(c))| == 1 <==> Text.UpperIsAscii(c)
  {
    var u := Text.Upper(c);
    assert Utf8.Encode([u[0]]) == Utf8.EncodeChar(u[0]) + Utf8.Encode([]);
    if c == '\U{DF}' {
      assert u == "SS";
      assert Utf8.Encode(u) == Utf8.EncodeChar('S') + Utf8.Encode("S");
    } else {
      assert |u| == 1;
      assert Utf8.Encode(u) == Utf8.EncodeChar(u[0]) + Utf8.Encode([]);
    }
  }

  /** "m" and "masculino" are both stored as "M", which reads back unchanged. */
  lemma SexFieldExamples()
    ensures SexField("m") == "M" && SexField("masculino") == "M"
    ensures Text.Strip("M") == "M"
  {
    SexOfTrimmed("m");
    SexOfTrimmed("masculino");
    Text.StripTrimmed("M");
  }

  /** " F " is stored as "F": the blanks around the letter do not count. */
  lemma SexFieldPadded()
    ensures SexField(" F ") == "F" && Text.Strip("F") == "F"
  {
    assert Text.IsSpace(' ') && !Text.IsSpace('F');
    assert " F " == " " + "F" + " ";
    Text.StripUnique(" ", "F", " ");
    Text.StripTrimmed("F");
    assert Text.Upper('F') == "F";
  }

  /** "ſ" and "ı" are stored as the ASCII capitals "S" and "I", so such a row is written. */
  lemma SexFieldDotless()
    ensures SexField("\U{17F}") == "S" && SexField("\U{131}") == "I"
  {
    Text.StripTrimmed("\U{17F}");
    Text.StripTrimmed("\U{131}");
  }

  /** A trimmed cell that starts with an ASCII small letter is stored as that letter's capital. */
  lemma SexOfTrimmed(cell: string)
    requires |cell| > 0 && 'a' <= cell[0] <= 'z' && Text.Trimmed(cell)
    ensures SexField(cell) == [(cell[0] as int - 32) as char]
  {
    Text.StripTrimmed(cell);
  }

  /** A row is written exactly when it parses and its values fit the struct. */
  lemma WriteRowSpec(row: Row, p: Parsers, pad: Padding)
    ensures WriteRow(row, p, pad).Ok? <==> ParseRow(row, p).Ok? && Codec.Packable(FieldsOf(ParseRow(row, p).value, pad))
    ensures ParseRow(row, p).Ok? && !Codec.Packable(FieldsOf(ParseRow(row, p).value, pad))
            ==> WriteRow(row, p, pad) == Err(Codec.StructError)
  {
  }

  /**
   * A row whose sex cell starts, once stripped, with a non-ASCII character
   * other than "ſ" and "ı" ("é", "ß") fails with `struct.error`: its
   * capital's UTF-8 is not one byte.
   */
  lemma NonAsciiSexFails(row: Row, p: Parsers, pad: Padding)
    requires ParseRow(row, p).Ok?
    requires Text.Strip(Get(row, "sexo", "")) != "" && !Text.UpperIsAscii(Text.Strip(Get(row, "sexo", ""))[0])
    ensures WriteRow(row, p, pad) == Err(Codec.StructError)
  {
    SexFieldSpec(Get(row, "sexo", ""));
  }

  // ---------------------------------------------------------------------------
  // The file
  // ---------------------------------------------------------------------------

  /** The build succeeds exactly when every row can be written. */
  lemma {:induction false} BuildOk(rows: seq<Row>, write: RowWriter, keyOf: Row -> string)
    ensures BuildWith(rows, write, keyOf).Ok? <==> forall k :: 0 <= k < |rows| ==> write(rows[k]).Ok?
    decreases |rows|
  {
    if |rows| > 0 {
      var init := rows[..|rows| - 1];
      BuildOk(init, write, keyOf);
      assert forall k :: 0 <= k < |init| ==> init[k] == rows[k];
    }
  }

  /** A failed build reports the exception of the first row that cannot be written. */
  lemma {:induction false} BuildFirstError(rows: seq<Row>, write: RowWriter, keyOf: Row -> string) returns (k: nat)
    requires BuildWith(rows, write, keyOf).Err?
    ensures k < |rows|
    ensures forall j :: 0 <= j < k ==> write(rows[j]).Ok?
    ensures write(rows[k]) == Err(BuildWith(rows, write, keyOf).error)
    decreases |rows|
  {
    var init := rows[..|rows| - 1];
    if BuildWith(init, write, keyOf).Err? {
      k := BuildFirstError(init, write, keyOf);
    } else {
      k := |rows| - 1;
      BuildOk(init, write, keyOf);
    }
  }

  /** `file` holds, at offset `Stride * k`, the bytes `write` gives row `k`. */
  predicate Laid(file: seq<byte>, rows: seq<Row>, write: RowWriter) {
    forall k :: 0 <= k < |rows| ==>
      && write(rows[k]).Ok?
      && Codec.Stride * k + Codec.Stride <= |file|
      && file[Codec.Stride * k..Codec.Stride * k + Codec.Stride] == write(rows[k]).value
  }

  /**
   * Record `k` starts at byte `Stride * k` (the file length before it was
   * written) and occupies the bytes its row encodes to; nothing else is in
   * the file.
   */
  lemma {:induction false} BuildLayout(rows: seq<Row>, write: RowWriter, keyOf: Row -> string)
    requires BuildWith(rows, write, keyOf).Ok?
    requires forall row :: write(row).Ok? ==> |write(row).value| == Codec.Stride
    ensures Laid(BuildWith(rows, write, keyOf).value.file, rows, write)
    decreases |rows|
  {
    if |rows| > 0 {
      var n := |rows| - 1;
      var init := rows[..n];
      BuildLayout(init, write, keyOf);
      BuildLength(init, write, keyOf);
      var st := BuildWith(init, write, keyOf).value;
      assert BuildWith(rows, write, keyOf).value.file == st.file + write(rows[n]).value;
      LaidSnoc(st.file, init, write, rows[n]);
      assert init + [rows[n]] == rows;
    }
  }

  /** Appending the bytes of one more row extends the layout. */
  lemma LaidSnoc(file: seq<byte>, rows: seq<Row>, write: RowWriter, row: Row)
    requires Laid(file, rows, write) && |file| == Codec.Stride * |rows|
    requires write(row).Ok? && |write(row).value| == Codec.Stride
    ensures Laid(file + write(row).value, rows + [row], write)
  {
    var file' := file + write(row).value;
    var rows' := rows + [row];
    forall k | 0 <= k < |rows'|
      ensures write(rows'[k]).Ok?
      ensures Codec.Stride * k + Codec.Stride <= |file'|
      ensures file'[Codec.Stride * k..Codec.Stride * k + Codec.Stride] == write(rows'[k]).value
    {
      if k < |rows| {
        assert file'[Codec.Stride * k..Codec.Stride * k + Codec.Stride] == file[Codec.Stride * k..Codec.Stride * k + Codec.Stride];
      } else {
        assert file'[|file|..] == write(row).value;
      }
    }
  }

  /** The file grows by `Stride` bytes per row. */
  lemma {:induction false} BuildLength(rows: seq<Row>, write: RowWriter, keyOf: Row -> string)
    requires BuildWith(rows, write, keyOf).Ok?
    requires forall row :: write(row).Ok? ==> |write(row).value| == Codec.Stride
    ensures |BuildWith(rows, write, keyOf).value.file| == Codec.Stride * |rows|
    decreases |rows|
  {
    if |rows| > 0 {
      BuildLength(rows[..|rows| - 1], write, keyOf);
    }
  }

  /** Every row the build pass writes takes exactly `Stride` bytes. */
  lemma WriterOfStride(p: Parsers, pad: Padding)
    ensures forall row :: WriterOf(p, pad)(row).Ok? ==> |WriterOf(p, pad)(row).value| == Codec.Stride
  {
  }

  // ---------------------------------------------------------------------------
  // Reading back
  // ---------------------------------------------------------------------------

  /** Reading at a record's offset gives back what its values read back as, whatever surrounds it. */
  lemma ReadBackValues(file: seq<byte>, lo: nat, v: RowValues, pad: Padding)
    requires EncodeRow(v, pad).Ok?
    requires lo + Codec.Stride <= |file| && file[lo..lo + Codec.Stride] == EncodeRow(v, pad).value
    ensures v.ibge >= 0 && v.year >= 0
    ensures Codec.ReadRecordAt(file, lo) == ReadBack(v, pad)
  {
    var f := FieldsOf(v, pad);
    var packed := Codec.PackRecord(f).value;
    var rest := file[lo + Codec.Stride..];
    var tail := packed + v.longitude + rest;
    assert file == file[..lo] + tail;
    Codec.ReadRecordAtShift(file[..lo], tail);
    Codec.ReadPacked(f, v.longitude, rest);
    Utf8.RoundTrip(v.sex);
    assert Codec.FitField(f.municipio, Codec.MunLen) == f.municipio;
  }

  /**
   * With the corrected field every row reads back, as its values with the
   * sex stripped and the longest fitting prefix of the name, stripped.
   */
  lemma ReadBackAtBoundary(v: RowValues)
    requires v.ibge >= 0 && v.year >= 0
    ensures ReadBack(v, AtBoundary)
         == Ok(Codec.Record(v.ibge, v.year, Text.Strip(v.sex), v.quantidade,
                            Codec.StoredName(v.municipio, Codec.MunLen), v.latitude, v.longitude))
  {
    Codec.PadMunSafeDecodes(v.municipio, Codec.MunLen);
  }

  /**
   * With `pad_mun_bytes` as written a row reads back exactly when its name
   * fits or the 64-byte cut falls on a character boundary, and then as with
   * the corrected field; otherwise the read raises `UnicodeDecodeError`.
   */
  lemma ReadBackAsWritten(v: RowValues)
    requires v.ibge >= 0 && v.year >= 0
    ensures ReadBack(v, AsWritten).Ok?
        <==> |Utf8.Encode(v.municipio)| <= Codec.MunLen
             || |Utf8.Encode(v.municipio[..Utf8.FitCount(v.municipio, Codec.MunLen)])| == Codec.MunLen
    ensures ReadBack(v, AsWritten).Err? ==> ReadBack(v, AsWritten) == Err(Codec.DecodeError)
    ensures ReadBack(v, AsWritten).Ok? ==> ReadBack(v, AsWritten) == ReadBack(v, AtBoundary)
  {
    if |Utf8.Encode(v.municipio)| <= Codec.MunLen {
      Codec.PadMunBytesFits(v.municipio, Codec.MunLen);
    } else {
      Codec.PadMunBytesCut(v.municipio, Codec.MunLen);
    }
    if ReadBack(v, AsWritten).Ok? {
      Codec.PadMunSafeAgrees(v.municipio, Codec.MunLen);
    }
  }

  /** A name whose UTF-8 fits in 64 bytes reads back, with either field, as the stripped name. */
  lemma ReadBackFits(v: RowValues, pad: Padding)
    requires v.ibge >= 0 && v.year >= 0
    requires |Utf8.Encode(v.municipio)| <= Codec.MunLen
    ensures ReadBack(v, pad).Ok? && ReadBack(v, pad).value.municipio == Text.Strip(v.municipio)
  {
    Codec.PadMunBytesFits(v.municipio, Codec.MunLen);
    Codec.PadMunSafeAgrees(v.municipio, Codec.MunLen);
  }

  /** Record `k` of a successful build reads back as the values of row `k`, or raises where its name field does not decode. */
  lemma BuildReadBack(rows: seq<Row>, p: Parsers, pad: Padding)
    requires Build(rows, p, pad).Ok?
    ensures forall k :: 0 <= k < |rows| ==>
      && ParseRow(rows[k], p).Ok?
      && ParseRow(rows[k], p).value.ibge >= 0 && ParseRow(rows[k], p).value.year >= 0
      && Codec.ReadRecordAt(Build(rows, p, pad).value.file, Codec.Offset(k)) == ReadBack(ParseRow(rows[k], p).value, pad)
  {
    WriterOfStride(p, pad);
    BuildLayout(rows, WriterOf(p, pad), Key);
    ReadBackLaid(Build(rows, p, pad).value.file, rows, p, pad);
  }

  /** Reading back a file laid out by the build pass, record by record. */
  lemma ReadBackLaid(file: seq<byte>, rows: seq<Row>, p: Parsers, pad: Padding)
    requires Laid(file, rows, WriterOf(p, pad))
    ensures forall k :: 0 <= k < |rows| ==>
      && ParseRow(rows[k], p).Ok?
      && ParseRow(rows[k], p).value.ibge >= 0 && ParseRow(rows[k], p).value.year >= 0
      && Codec.ReadRecordAt(file, Codec.Offset(k)) == ReadBack(ParseRow(rows[k], p).value, pad)
  {
    forall k | 0 <= k < |rows|
      ensures ParseRow(rows[k], p).Ok?
      ensures ParseRow(rows[k], p).value.ibge >= 0 && ParseRow(rows[k], p).value.year >= 0
      ensures Codec.ReadRecordAt(file, Codec.Offset(k)) == ReadBack(ParseRow(rows[k], p).value, pad)
    {
      var lo := Codec.Offset(k);
      var bytes := WriteRow(rows[k], p, pad).value;
      assert WriteRow(rows[k], p, pad) == WriterOf(p, pad)(rows[k]);
      ReadBackRowAt(file, lo, rows[k], p, pad, bytes);
    }
  }

  /** The 96 bytes written for a row read back, wherever in the file they lie, as that row's values do. */
  lemma ReadBackRowAt(file: seq<byte>, lo: nat, row: Row, p: Parsers, pad: Padding, bytes: seq<byte>)
    requires WriteRow(row, p, pad) == Ok(bytes)
    requires lo + Codec.Stride <= |file| && file[lo..lo + Codec.Stride] == bytes
    ensures ParseRow(row, p).Ok?
    ensures ParseRow(row, p).value.ibge >= 0 && ParseRow(row, p).value.year >= 0
    ensures Codec.ReadRecordAt(file, lo) == ReadBack(ParseRow(row, p).value, pad)
  {
    ReadBackValues(file, lo, ParseRow(row, p).value, pad);
  }

  // ---------------------------------------------------------------------------
  // The index
  // ---------------------------------------------------------------------------

  /** Strictly increasing. */
  predicate Increasing(s: seq<nat>) {
    forall i, j :: 0 <= i < j < |s| ==> s[i] < s[j]
  }

  /** `o` is the offset of a row of `rows` whose key is `key`. */
  predicate IsOffsetOf(rows: seq<Row>, keyOf: Row -> string, key: string, o: nat) {
    o % Codec.Stride == 0 && o / Codec.Stride < |rows| && keyOf(rows[o / Codec.Stride]) == key
  }

  /**
   * `index` lists, under each key, exactly the offsets of the rows of
   * `rows` with that key, in increasing (write) order, and has no empty
   * entry.
   */
  predicate IndexOf(rows: seq<Row>, keyOf: Row -> string, index: map<string, seq<nat>>) {
    && (forall key :: key in index ==> |index[key]| > 0 && Increasing(index[key]))
    && (forall key, i :: key in index && 0 <= i < |index[key]| ==> IsOffsetOf(rows, keyOf, key, index[key][i]))
    && (forall k :: 0 <= k < |rows| ==> keyOf(rows[k]) in index && Codec.Stride * k in index[keyOf(rows[k])])
  }

  /** The index built alongside the file is the index of its rows. */
  lemma {:induction false} BuildIndex(rows: seq<Row>, write: RowWriter, keyOf: Row -> string)
    requires BuildWith(rows, write, keyOf).Ok?
    requires forall row :: write(row).Ok? ==> |write(row).value| == Codec.Stride
    ensures IndexOf(rows, keyOf, BuildWith(rows, write, keyOf).value.index)
    decreases |rows|
  {
    if |rows| > 0 {
      var n := |rows| - 1;
      var init := rows[..n];
      BuildIndex(init, write, keyOf);
      BuildLength(init, write, keyOf);
      var st := BuildWith(init, write, keyOf).value;
      assert BuildWith(rows, write, keyOf).value.index == Insert(st.index, keyOf(rows[n]), |st.file|);
      InsertKeepsIndex(rows, keyOf, st.index);
    }
  }

  /** Appending the offset of the next row to its key's entry keeps the index exact. */
  lemma InsertKeepsIndex(rows: seq<Row>, keyOf: Row -> string, index: map<string, seq<nat>>)
    requires |rows| > 0 && IndexOf(rows[..|rows| - 1], keyOf, index)
    ensures IndexOf(rows, keyOf, Insert(index, keyOf(rows[|rows| - 1]), Codec.Stride * (|rows| - 1)))
  {
    InsertSound(rows, keyOf, index);
    InsertIncreasing(rows, keyOf, index);
    InsertComplete(rows, keyOf, index);
  }

  /** After appending the next row's offset, every listed offset is that of a row with the key it is listed under. */
  lemma InsertSound(rows: seq<Row>, keyOf: Row -> string, index: map<string, seq<nat>>)
    requires |rows| > 0 && IndexOf(rows[..|rows| - 1], keyOf, index)
    ensures var idx := Insert(index, keyOf(rows[|rows| - 1]), Codec.Stride * (|rows| - 1));
      forall key, i :: key in idx && 0 <= i < |idx[key]| ==> IsOffsetOf(rows, keyOf, key, idx[key][i])
  {
    var n := |rows| - 1;
    var idx := Insert(index, keyOf(rows[n]), Codec.Stride * n);
    forall key', i | key' in idx && 0 <= i < |idx[key']|
      ensures IsOffsetOf(rows, keyOf, key', idx[key'][i])
    {
      InsertSoundAt(rows, keyOf, index, key', i);
    }
  }

  /** One entry of the updated index: an old offset of a row with its key, or the new row's offset under the new row's key. */
  lemma InsertSoundAt(rows: seq<Row>, keyOf: Row -> string, index: map<string, seq<nat>>, key': string, i: int)
    requires |rows| > 0 && IndexOf(rows[..|rows| - 1], keyOf, index)
    requires var idx := Insert(index, keyOf(rows[|rows| - 1]), Codec.Stride * (|rows| - 1));
      key' in idx && 0 <= i < |idx[key']|
    ensures IsOffsetOf(rows, keyOf, key', Insert(index, keyOf(rows[|rows| - 1]), Codec.Stride * (|rows| - 1))[key'][i])
  {
    var n := |rows| - 1;
    var key := keyOf(rows[n]);
    var idx := Insert(index, key, Codec.Stride * n);
    InsertEntry(index, key, Codec.Stride * n, key', i);
    if key' != key || i < |idx[key']| - 1 {
      assert IsOffsetOf(rows[..n], keyOf, key', index[key'][i]);
      OffsetOfPrefix(rows, keyOf, key', index[key'][i]);
    } else {
      assert (Codec.Stride * n) % Codec.Stride == 0 && (Codec.Stride * n) / Codec.Stride == n;
    }
  }

  /** An entry of the updated index is an old entry, or the new offset at the end of the entry for `key`. */
  lemma InsertEntry(index: map<string, seq<nat>>, key: string, offset: nat, key': string, i: int)
    requires key' in Insert(index, key, offset) && 0 <= i < |Insert(index, key, offset)[key']|
    ensures key' != key || i < |Insert(index, key, offset)[key']| - 1 ==>
      key' in index && i < |index[key']| && Insert(index, key, offset)[key'][i] == index[key'][i]
    ensures key' == key && i == |Insert(index, key, offset)[key']| - 1 ==> Insert(index, key, offset)[key'][i] == offset
  {
  }

  /** An offset of a row of all but the last row is an offset of the same row of all of them. */
  lemma OffsetOfPrefix(rows: seq<Row>, keyOf: Row -> string, key: string, o: nat)
    requires |rows| > 0 && IsOffsetOf(rows[..|rows| - 1], keyOf, key, o)
    ensures IsOffsetOf(rows, keyOf, key, o)
  {
    assert rows[o / Codec.Stride] == rows[..|rows| - 1][o / Codec.Stride];
  }

  /** Appending the next row's offset, the largest so far, keeps every entry non-empty and increasing. */
  lemma InsertIncreasing(rows: seq<Row>, keyOf: Row -> string, index: map<string, seq<nat>>)
    requires |rows| > 0 && IndexOf(rows[..|rows| - 1], keyOf, index)
    ensures var idx := Insert(index, keyOf(rows[|rows| - 1]), Codec.Stride * (|rows| - 1));
      forall key :: key in idx ==> |idx[key]| > 0 && Increasing(idx[key])
  {
    var n := |rows| - 1;
    var init := rows[..n];
    var key := keyOf(rows[n]);
    if key in index {
      var earlier := index[key];
      forall i | 0 <= i < |earlier|
        ensures earlier[i] < Codec.Stride * n
      {
        assert IsOffsetOf(init, keyOf, key, earlier[i]);
      }
    }
  }

  /** After appending the next row's offset, every row so far is listed under its key. */
  lemma InsertComplete(rows: seq<Row>, keyOf: Row -> string, index: map<string, seq<nat>>)
    requires |rows| > 0 && IndexOf(rows[..|rows| - 1], keyOf, index)
    ensures var idx := Insert(index, keyOf(rows[|rows| - 1]), Codec.Stride * (|rows| - 1));
      forall k :: 0 <= k < |rows| ==> keyOf(rows[k]) in idx && Codec.Stride * k in idx[keyOf(rows[k])]
  {
    var n := |rows| - 1;
    var init := rows[..n];
    var key := keyOf(rows[n]);
    var idx := Insert(index, key, Codec.Stride * n);
    forall k | 0 <= k < |rows|
      ensures keyOf(rows[k]) in idx && Codec.Stride * k in idx[keyOf(rows[k])]
    {
      if k < n {
        assert rows[k] == init[k];
        var entry := index[keyOf(rows[k])];
        assert Codec.Stride * k in entry;
        assert entry <= idx[keyOf(rows[k])];
      } else {
        assert idx[key][|idx[key]| - 1] == Codec.Stride * n;
      }
    }
  }

  /** No offset is listed under two keys. */
  lemma IndexDisjoint(rows: seq<Row>, write: RowWriter, keyOf: Row -> string, key1: string, key2: string, o: nat)
    requires BuildWith(rows, write, keyOf).Ok?
    requires forall row :: write(row).Ok? ==> |write(row).value| == Codec.Stride
    requires key1 in BuildWith(rows, write, keyOf).value.index && key2 in BuildWith(rows, write, keyOf).value.index
    requires o in BuildWith(rows, write, keyOf).value.index[key1] && o in BuildWith(rows, write, keyOf).value.index[key2]
    ensures key1 == key2
  {
    BuildIndex(rows, write, keyOf);
    var idx := BuildWith(rows, write, keyOf).value.index;
    var i1 :| 0 <= i1 < |idx[key1]| && idx[key1][i1] == o;
    var i2 :| 0 <= i2 < |idx[key2]| && idx[key2][i2] == o;
    assert IsOffsetOf(rows, keyOf, key1, o) && IsOffsetOf(rows, keyOf, key2, o);
  }
}
